=== FILE: README.md ===
# Puzzle solvers: a Dafny model

This project models the core of a small Java collection of puzzles that share
one breadth-first solver. The following are modelled:

- **The solver** (`Solver`). A generic breadth-first search.
  - It keeps a FIFO queue and a predecessor map in which the start maps to nothing.
  - It skips states already recorded.
  - It stops when the queue is empty or its head is a solution.
  - It rebuilds the path by following predecessors back to the start.
  - It keeps the two counters of generated and unique configurations.
- **Strings** (`Strings`). Turn a start string into an end string by stepping one letter forward or backward around `A..Z`.
- **Crossing** (`Crossing`). Pups and wolves cross a river in a boat that carries two pups, one pup or one wolf.
  - The branch table of `getNeighbors` offers no single-pup crossing when the boat's bank holds one pup and some wolves (see Findings).
  - With one pup and one wolf the puzzle has no solution under either table, since the boat never carries a pup and a wolf together, so whichever animal crosses has to bring it back: `Crossing.OnePupOneWolfUnsolvable`.
- **Hoppers** (`HoppersConfig`, `HoppersModel`).
  - Frogs jump over green frogs on a grid.
  - Even rows allow straight and diagonal jumps; odd rows allow diagonal jumps only.
  - The model adds a two-click selection and a one-step hint.
- **Slide** (`SlideConfig`, `SlideModel`).
  - A sliding-tile puzzle: a tile next to the blank slides into it.
  - The model adds a two-click selection and a one-step hint.
- **Shared pieces.** `Grid` holds the facts about rectangular boards (updates, swaps, cell multisets, counts). `Wrappers` holds `Option`.

The solver is one generic method over a state type `S`. It takes a neighbour function `S -> seq<S>` and a goal predicate. Each puzzle supplies its own `Next` and `Goal` and a `Solve` that calls the solver.

Several Java classes keep per-run data in static fields:
- the start and end strings of Strings;
- the board dimensions of Hoppers and Slide.

Here that data is an immutable parameter: `Run`, or `Dims`.

Two Java features are modelled differently:
- **`HashMap` deduplication** uses Dafny value equality. For Strings, Crossing and Hoppers a lemma shows that the Java `equals` is value equality. The Slide `equals` is coarser; see Left out and Findings.
- **Termination.** The Java loop ends only when the reachable part of the puzzle is finite. The solver therefore takes a ghost set of states that contains the start and is closed under the neighbour function. Each puzzle constructs such a set.

What the solver promises:
- **A returned path is a shortest solution.** It starts at the start, each state is a neighbour of the one before, and it ends in a solution. No walk from the start reaches a solution in fewer steps. No state repeats.
- **No path means no solution.** No walk from the start reaches a solution.
- **A start that is already solved** yields the one-state path.
- **Counters.** The unique counter grows by the number of states discovered besides the start. It never grows by more than the total counter.

## Model

| member | source | states |
|---|---|---|
| Solver.Solve | src/puzzles/common/solver/Solver.java:16-62 | A returned path starts at the start and is a shortest solution walk with no repeated state. No path is returned only when no walk from the start reaches a solution. A solved start gives the one-state path. The unique counter grows by the number of states discovered besides the start, and never by more than the total counter |
| Solver.Discover | src/puzzles/common/solver/Solver.java:31-40 | One expansion records each neighbour not yet seen, with the expanded state as predecessor. It never overwrites a recorded predecessor. It appends exactly the new states to the queue, without repeats. Every neighbour counts toward the total; only new ones count toward the unique configurations |
| Solver.Rebuild | src/puzzles/common/solver/Solver.java:48-60 | Following predecessors back from a reached state gives a walk from the start to that state. Its length is one more than the state's breadth-first distance, and each state sits at its own distance |
| Solver.ShortestSuffix | src/puzzles/common/solver/Solver.java:43-60 | Dropping the first state of a shortest solution of two or more states leaves a shortest solution from the second state |
| Solver.ShortestFromGoal | src/puzzles/common/solver/Solver.java:24-28 | A shortest solution whose first state is already a solution is that one state |
| Solver.ClosedGoalFreeIsUnsolvable | src/puzzles/common/solver/Solver.java:28-44 | A start inside a set that is closed under the neighbour function and holds no solution has no solution walk |
| Solver.DistinctCard | src/puzzles/common/solver/Solver.java:20-40 | A queue without repeats holds as many distinct states as it has entries |
| Strings.Step | src/puzzles/strings/StringsConfig.java:47-70 | The copy constructor's change to one character. Forward sends `A` to `B` and `Z` to `A`; Backward sends `A` to `Z` and `Z` to `Y`; any other code unit moves by one with the `(char)` wrap. What this means is proved by `Strings.StepRotatesLetters`, `Strings.StepOffLetters`, `Strings.BackwardUndoesForward` and `Strings.ForwardUndoesBackward` |
| Strings.IsSolution | src/puzzles/strings/StringsConfig.java:24-26 | `isSolution`: the current string is the end string. `Strings.LengthMismatchUnsolvable` and `Strings.Solve` use it as the goal |
| Strings.StepRotatesLetters | src/puzzles/strings/StringsConfig.java:47-70 | On a letter, Forward is a rotation by one around `A..Z` and Backward a rotation by minus one; both stay letters |
| Strings.StepOffLetters | src/puzzles/strings/StringsConfig.java:47-70 | Off the letters, Forward adds one and Backward subtracts one from the code unit, wrapping at 16 bits as the `(char)` cast does |
| Strings.BackwardUndoesForward | src/puzzles/strings/StringsConfig.java:47-70 | A backward step undoes a forward step exactly when the character is not `'@'` |
| Strings.ForwardUndoesBackward | src/puzzles/strings/StringsConfig.java:47-70 | A forward step undoes a backward step exactly when the character is not `'['` |
| Strings.Initial | src/puzzles/strings/StringsConfig.java:33-37 | The first configuration holds the start string |
| Strings.Neighbor | src/puzzles/strings/StringsConfig.java:45-74 | A neighbour keeps the length and differs from its parent only at the chosen index, where the character is stepped |
| Strings.NeighborRoundTrip | src/puzzles/strings/StringsConfig.java:45-74 | Stepping a letter one way and then the other way at the same index gives back the configuration |
| Strings.Neighbors | src/puzzles/strings/StringsConfig.java:80-93 | There are exactly twice as many neighbours as the start has characters. They come in the order index 0 Forward, index 0 Backward, index 1 Forward, and so on. A configuration is a neighbour exactly when it is one step at an index of the start |
| Strings.JavaEquals | src/puzzles/strings/StringsConfig.java:100-109 | `equals` holds exactly when the configurations are the same value |
| Strings.EqualsHashConsistent | src/puzzles/strings/StringsConfig.java:100-118 | Configurations that are `equals` hash the same string |
| Strings.WalkKeepsLength | src/puzzles/strings/StringsConfig.java:45-74 | Every configuration reachable from the start has the start's length |
| Strings.NextKeepsLength | src/puzzles/strings/StringsConfig.java:80-93 | A neighbour has the length of the configuration it came from |
| Strings.LengthMismatchUnsolvable | src/puzzles/strings/StringsConfig.java:24-26 | When the start and end strings differ in length, no walk from the start reaches a solution |
| Strings.Solve | src/puzzles/strings/Strings.java:19-21 | The driver's search gives a shortest solution from the start string, or no path when none exists. It gives no path when the lengths differ and the one-state path when start equals end |
| Crossing.IsSolution | src/puzzles/crossing/CrossingConfig.java:29-31 | `isSolution`: no pup and no wolf on the left bank. `Crossing.SolvedIffAllCrossed` relates it to every animal having crossed |
| Crossing.Cross | src/puzzles/crossing/CrossingConfig.java:52-66 | The copy constructor: the boat takes a load from its bank to the other one. `Crossing.CrossMovesLoad` and `Crossing.CrossBack` state its effect and inverse |
| Crossing.LoadsAsWritten | src/puzzles/crossing/CrossingConfig.java:75-108 | The branch table as written, on the bank where the boat is. `Crossing.AsWrittenLoadsUnmixed`, `Crossing.AsWrittenLoadsSupplied` and `Crossing.AsWrittenDiffersFromIntended` characterise it |
| Crossing.NeighborsAsWritten | src/puzzles/crossing/CrossingConfig.java:73-110 | `getNeighbors` as written: one crossing per load of the written table, in its order. `Crossing.AsWrittenTwoPupsOneWolfUnsolvable` shows where it fails |
| Crossing.Loads | src/puzzles/crossing/CrossingConfig.java:75-108 | The corrected branch table. It differs from the cited lines: it also offers the single-pup load when the boat's bank holds one pup and some wolves. `Crossing.LoadsAreSupplied` characterises it and `Crossing.AsWrittenDiffersFromIntended` pins down the difference |
| Crossing.Neighbors | src/puzzles/crossing/CrossingConfig.java:73-110 | The corrected `getNeighbors`, built on `Crossing.Loads`. It differs from the cited lines in the same case. `Crossing.Solve` searches with it, and `Crossing.IntendedTwoPupsOneWolfSolvable` shows the difference matters |
| Crossing.HashCode | src/puzzles/crossing/CrossingConfig.java:134-140 | `hashCode`: the four counts plus one when the boat is on the left. `Crossing.HashConsistent` shows it agrees with `equals` |
| Crossing.Initial | src/puzzles/crossing/CrossingConfig.java:38-44 | The first configuration has every animal on the left bank with the boat and none on the right |
| Crossing.SolvedIffAllCrossed | src/puzzles/crossing/CrossingConfig.java:29-31 | Among configurations of the same animals, the solutions are exactly those with every animal on the right bank |
| Crossing.CrossMovesLoad | src/puzzles/crossing/CrossingConfig.java:52-66 | A crossing flips the boat's bank and takes the load from the bank it leaves to the bank it reaches. The totals of pups and of wolves are unchanged |
| Crossing.CrossBack | src/puzzles/crossing/CrossingConfig.java:52-66 | Carrying the same load back undoes a crossing |
| Crossing.AsWrittenLoadsUnmixed | src/puzzles/crossing/CrossingConfig.java:75-108 | The branch table always offers one to three loads, and each is two pups, one pup or one wolf |
| Crossing.AsWrittenLoadsSupplied | src/puzzles/crossing/CrossingConfig.java:75-108 | On a valid configuration every load the branch table offers is available on the boat's bank |
| Crossing.AsWrittenDiffersFromIntended | src/puzzles/crossing/CrossingConfig.java:75-108 | On a valid configuration the branch table differs from the table of all available loads exactly when the boat's bank holds one pup and at least one wolf. There it lacks only the single-pup crossing |
| Crossing.LoadsAreSupplied | src/puzzles/crossing/CrossingConfig.java:75-108 | The corrected table offers a load exactly when it is one of the three unmixed loads and the boat's bank can supply it |
| Crossing.NeighborsStayValid | src/puzzles/crossing/CrossingConfig.java:52-108 | Both tables give neighbours whose counts are non-negative and whose boat bank is not empty, and every neighbour has the boat on the other bank |
| Crossing.BothTablesAlternate | src/puzzles/crossing/CrossingConfig.java:73-110 | Both neighbour functions keep configurations valid and move the boat on every step |
| Crossing.WalkAlternates | src/puzzles/crossing/CrossingConfig.java:65 | Along any walk from a valid configuration, the boat is at the starting bank exactly at the even steps |
| Crossing.SolutionsHaveEvenLength | src/puzzles/crossing/CrossingConfig.java:52-66 | With at least one animal, every solution walk from the first configuration has an even number of configurations |
| Crossing.JavaEquals | src/puzzles/crossing/CrossingConfig.java:117-127 | `equals` holds exactly when the configurations are the same value |
| Crossing.HashConsistent | src/puzzles/crossing/CrossingConfig.java:134-140 | Equal configurations hash equally. Every configuration of one puzzle hashes to the number of animals, plus one when the boat is on the left |
| Crossing.Solve | src/puzzles/crossing/Crossing.java:21-22 | With the corrected table, the driver's search gives a shortest solution from the first configuration, or no path when no walk reaches a solution |
| Crossing.AsWrittenTwoPupsOneWolfUnsolvable | src/puzzles/crossing/CrossingConfig.java:75-108 | With two pups and one wolf, no walk under the branch table as written reaches a solution |
| Crossing.SolveAsWritten | src/puzzles/crossing/Crossing.java:21-22 | The driver's search as written, with the branch table of `getNeighbors` as it stands: a shortest solution under that table from the first configuration, or no path when no walk under it reaches a solution |
| Crossing.AsWrittenTwoPupsOneWolfNone | src/puzzles/crossing/Crossing.java:21-22 | For two pups and one wolf, any answer that meets the contract of `Crossing.SolveAsWritten` is no path, although the puzzle can be solved |
| Crossing.TwoPupsOneWolfFound | src/puzzles/crossing/Crossing.java:21-22 | For two pups and one wolf, any answer that meets the contract of `Crossing.Solve` is a solution of at most six configurations |
| Crossing.OnePupOneWolfNone | src/puzzles/crossing/Crossing.java:21-22 | For one pup and one wolf, any answer that meets the contract of either search is no path |
| Crossing.IntendedTwoPupsOneWolfSolvable | src/puzzles/crossing/CrossingConfig.java:75-108 | With two pups and one wolf, the corrected table has a solution walk of five crossings |
| Crossing.OnePupOneWolfUnsolvable | src/puzzles/crossing/CrossingConfig.java:75-108 | With one pup and one wolf, neither table has a solution walk |
| HoppersConfig.Jumped | src/puzzles/hoppers/model/HoppersConfig.java:48-93 | The direction copy constructor: the jumper and the jumped frog leave their cells and the jumper lands two steps on. `HoppersConfig.JumpedChangesThreeCells`, `HoppersConfig.JumpCounts` and `HoppersConfig.JumpedIsMakeMove` state its effect |
| HoppersConfig.Neighbors | src/puzzles/hoppers/model/HoppersConfig.java:121-174 | `getNeighbors`: the jumps from every frog, row by row, in the directions its row allows. `HoppersConfig.NeighborsAreMoves` characterises it both ways |
| HoppersConfig.IsSolution | src/puzzles/hoppers/model/HoppersConfig.java:100-114 | `isSolution`, read as the cell scan it is. `HoppersConfig.SolvedIffNoGreen` states what it means |
| HoppersConfig.ToString | src/puzzles/hoppers/model/HoppersConfig.java:220-230 | `toString`: each row on its own line, each cell followed by a space. `HoppersConfig.ToStringInjective` shows it determines the board |
| HoppersConfig.JavaEquals | src/puzzles/hoppers/model/HoppersConfig.java:245-254 | `equals`: the `toString` texts agree. `HoppersConfig.EqualsIsValueEquality` shows it is value equality on boards of the configured size |
| HoppersConfig.OverIsHalfway | src/puzzles/hoppers/model/HoppersConfig.java:53-92 | Every direction's landing offset is twice its jumped offset and is not zero. A direction is diagonal exactly when both parts of its offset are non-zero |
| HoppersConfig.DirsForRowParity | src/puzzles/hoppers/model/HoppersConfig.java:126-168 | From an even row all eight directions are tried, and from an odd row exactly the four diagonal ones |
| HoppersConfig.OverInBounds | src/puzzles/hoppers/model/HoppersConfig.java:48-93 | When the start and landing cells are on the board, the jumped cell is too. The three cells are pairwise distinct |
| HoppersConfig.JumpedChangesThreeCells | src/puzzles/hoppers/model/HoppersConfig.java:48-93 | A jump empties the start and jumped cells and puts the jumper on the landing cell. No other cell changes and the board keeps its shape |
| HoppersConfig.JumpTradesGreenForEmpty | src/puzzles/hoppers/model/HoppersConfig.java:48-93 | The cells after a generated jump are those before, with one green frog replaced by one empty pad |
| HoppersConfig.JumpCounts | src/puzzles/hoppers/model/HoppersConfig.java:48-93 | A generated jump leaves one green frog fewer and one empty pad more. The count of every other character is unchanged |
| HoppersConfig.NeighborsAreMoves | src/puzzles/hoppers/model/HoppersConfig.java:121-174 | A configuration is a neighbour exactly when it is a jump by a frog over a green frog onto an empty pad on the board, in a direction allowed for the frog's row |
| HoppersConfig.MoveIsNeighbor | src/puzzles/hoppers/model/HoppersConfig.java:121-174 | Every allowed jump is among the neighbours |
| HoppersConfig.SolvedIffNoGreen | src/puzzles/hoppers/model/HoppersConfig.java:100-114 | A board is solved exactly when no cell holds a green frog |
| HoppersConfig.MakeMove | src/puzzles/hoppers/model/HoppersConfig.java:210-214 | `makeMove` leaves the middle cell empty, the end cell with the given mark and the start cell empty when the three cells differ. No other cell changes |
| HoppersConfig.JumpedIsMakeMove | src/puzzles/hoppers/model/HoppersConfig.java:48-93 | The copy constructor builds the same board as `makeMove` given the jump's three cells and the jumper's mark |
| HoppersConfig.ToStringInjective | src/puzzles/hoppers/model/HoppersConfig.java:220-230 | Two boards of the same dimensions with the same `toString` are the same board |
| HoppersConfig.EqualsIsValueEquality | src/puzzles/hoppers/model/HoppersConfig.java:245-254 | On boards of the configured dimensions, `equals` holds exactly when the configurations are the same value |
| HoppersConfig.EqualsHashConsistent | src/puzzles/hoppers/model/HoppersConfig.java:236-238 | Configurations that are `equals` hash the same string |
| HoppersConfig.NeighborStep | src/puzzles/hoppers/model/HoppersConfig.java:121-174 | A neighbour fits the board and trades one green frog of its parent for one empty pad |
| HoppersConfig.WalkLosesOneGreenPerStep | src/puzzles/hoppers/model/HoppersConfig.java:121-174 | Along a walk, the k-th configuration has k green frogs fewer than the first |
| HoppersConfig.WalkLength | src/puzzles/hoppers/model/HoppersConfig.java:121-174 | A walk has at most one more configuration than the first board has green frogs |
| HoppersConfig.Solve | src/puzzles/hoppers/solver/Hoppers.java:22-23 | The driver's search gives a shortest solution from the board, at most one longer than its number of green frogs, or no path when none exists. A solved board gives the one-state path |
| HoppersModel.IsValid | src/puzzles/hoppers/model/HoppersModel.java:132-180 | `isValid`, with its tests in the source's order. `HoppersModel.ValidIffJump` shows it accepts exactly the jumps `getNeighbors` generates |
| HoppersModel.MakeMove | src/puzzles/hoppers/model/HoppersModel.java:189-198 | The model's `makeMove`: apply a valid move, else report that the jump is impossible. `HoppersModel.ValidMoveIsJumped` and `HoppersModel.MakeMoveIsNeighbor` state its effect |
| HoppersModel.Select | src/puzzles/hoppers/model/HoppersModel.java:61-82 | The corrected `select`. It differs from line 62: it tests `r < rows` and `c < cols`, so a click off the board is reported as an invalid position. `HoppersModel.SelectCycle` states its cycle, and `HoppersModel.SelectAsWrittenAgrees` shows it matches the code on every other click |
| HoppersModel.SelectAsWritten | src/puzzles/hoppers/model/HoppersModel.java:61-82 | `select` as written, with the `<=` test of line 62. It returns an out-of-bounds outcome where Java's grid read throws. `HoppersModel.SelectAsWrittenFailsPastLastRow` and `HoppersModel.SelectAsWrittenAgrees` characterise it |
| HoppersModel.AverageIsMidpoint | src/puzzles/hoppers/model/HoppersModel.java:206-218 | For ends an even distance apart, the truncating average is their exact midpoint and lies between them |
| HoppersModel.AverageInRange | src/puzzles/hoppers/model/HoppersModel.java:206-218 | The average of two cells of one line is a cell of that line |
| HoppersModel.Toward | src/puzzles/hoppers/model/HoppersModel.java:137-176 | Every displacement accepted from an even row is the landing offset of a direction, and a diagonal one when the displacement is also accepted from odd rows |
| HoppersModel.LandIsDisplacement | src/puzzles/hoppers/model/HoppersModel.java:137-176 | Every direction's landing offset is accepted from an even row. It is accepted from an odd row exactly when the direction is diagonal |
| HoppersModel.ValidGivesJump | src/puzzles/hoppers/model/HoppersModel.java:132-180 | A move `isValid` accepts is a jump `getNeighbors` generates, landing on the clicked cell, over the average cell |
| HoppersModel.JumpIsValid | src/puzzles/hoppers/model/HoppersModel.java:132-180 | Every jump `getNeighbors` generates is accepted by `isValid` |
| HoppersModel.ValidIffJump | src/puzzles/hoppers/model/HoppersModel.java:132-180 | For cells on the board, `isValid` accepts a move exactly when some generated jump from the first cell lands on the second |
| HoppersModel.ValidMoveIsJumped | src/puzzles/hoppers/model/HoppersModel.java:189-198 | The model's `makeMove` applies, for a valid move, the same board change as the generated jump |
| HoppersModel.MakeMoveIsNeighbor | src/puzzles/hoppers/model/HoppersModel.java:189-198 | A valid move gives a neighbour with one green frog fewer; an invalid one changes nothing and reports that the jump is impossible |
| HoppersModel.SelectCycle | src/puzzles/hoppers/model/HoppersModel.java:61-82 | With the corrected bounds test, a click keeps the invariant. A click off the board changes nothing. A first click selects exactly when it hits a frog. A second click always clears the selection and moves only a valid jump, to a neighbour |
| HoppersModel.SelectAsWrittenFailsPastLastRow | src/puzzles/hoppers/model/HoppersModel.java:62 | With no selection, a click one row past the board makes `select` as written read outside the grid |
| HoppersModel.SelectAsWrittenAgrees | src/puzzles/hoppers/model/HoppersModel.java:61-82 | `select` as written fails exactly on the off-board clicks its widened test admits, when the grid is read there. On clicks on the board it agrees with the corrected `select`. Beyond the widened range it reports an invalid position |
| HoppersModel.SelectAsWrittenKeepsInv | src/puzzles/hoppers/model/HoppersModel.java:61-82 | Whenever `select` as written completes, the model's invariant still holds: it reads the grid at an off-board click, and so throws, before it stores a selection |
| HoppersModel.Hint | src/puzzles/hoppers/model/HoppersModel.java:99-113 | A solved board is reported and left alone. Without a solution nothing changes. Otherwise the board becomes the second state of a shortest solution, a neighbour with one green frog fewer, from which the rest of that solution is a shortest solution. The selection is kept |
| SlideConfig.GetNeighbors | src/puzzles/slide/model/SlideConfig.java:114-190 | `getNeighbors` as written: the children of the four guarded blocks and the receiver's grid after them. `SlideConfig.GetNeighborsOnBlank` and `SlideConfig.GetNeighborsReceiver` characterise it |
| SlideConfig.IsSolution | src/puzzles/slide/model/SlideConfig.java:80-111 | `isSolution`, read as the pairwise check it makes. `SlideConfig.SolvedIffSorted` states what it means |
| SlideConfig.JavaEquals | src/puzzles/slide/model/SlideConfig.java:193-199 | `equals`: the recorded blank positions agree; the tiles are not compared. `SlideConfig.EqualsIgnoresTiles` and `SlideConfig.EqualsMergesBoards` show the consequences |
| SlideConfig.HashString | src/puzzles/slide/model/SlideConfig.java:202-212 | The string `hashCode` hashes: the decimal forms of the cells in row-major order, concatenated |
| SlideConfig.EqualsMergesBoards | src/puzzles/slide/model/SlideConfig.java:193-212 | The proper 2 by 3 puzzles `1 12 11 / 2 5 0` and `11 2 1 / 12 5 0` are different, have the blank in the same cell, are `equals`, and both hash `"11211250"`. A hash map keyed on configurations therefore keeps only one of them |
| SlideConfig.IntendedEqualsIsValueEquality | src/puzzles/slide/model/SlideConfig.java:193-212 | The corrected `equals`, `SlideConfig.IntendedEquals`, compares the grids as well. It is exactly value equality, agrees with the hash, and keeps the puzzles of `SlideConfig.EqualsMergesBoards` apart |
| SlideConfig.MakeMove | src/puzzles/slide/model/SlideConfig.java:257-276 | `makeMove`: swap the two cells and record the blank at whichever of them now holds it. `SlideConfig.MakeMoveTwice` and `SlideConfig.MakeMoveIsSlide` state its effect |
| SlideConfig.NeighborsAreSlides | src/puzzles/slide/model/SlideConfig.java:114-190 | There are at most four neighbours. A configuration is a neighbour exactly when it slides a tile next to the recorded blank position into it |
| SlideConfig.SlideStep | src/puzzles/slide/model/SlideConfig.java:119-187 | On a proper puzzle a slide swaps exactly the blank and the adjacent tile and moves the recorded blank position there. It keeps the multiset of cells, and the result is a proper puzzle again |
| SlideConfig.SlideBack | src/puzzles/slide/model/SlideConfig.java:119-187 | Sliding the tile back into the position the blank came from restores the configuration |
| SlideConfig.BranchRestores | src/puzzles/slide/model/SlideConfig.java:170-187 | A branch of `getNeighbors` that restores with the value it overwrote, as the right-hand block does, yields the swapped child and puts the receiver's grid back |
| SlideConfig.Attempt | src/puzzles/slide/model/SlideConfig.java:119-187 | A branch keeps the grid's shape and leaves the fill value in the recorded blank position. A branch whose guard fails yields nothing and changes nothing |
| SlideConfig.GetNeighborsOnBlank | src/puzzles/slide/model/SlideConfig.java:114-190 | When the recorded blank position holds the blank, `getNeighbors` yields exactly the slides and leaves the receiver's grid unchanged |
| SlideConfig.GetNeighborsReceiver | src/puzzles/slide/model/SlideConfig.java:114-190 | The receiver's grid comes back unchanged exactly when the recorded blank position holds the blank, or when only the right-hand block can run |
| SlideConfig.TilesOfBoard | src/puzzles/slide/model/SlideConfig.java:80-111 | The tiles `isSolution` reads are, as a multiset, the board's cells without the blanks |
| SlideConfig.NoDescentIsSorted | src/puzzles/slide/model/SlideConfig.java:80-111 | The pairwise check of consecutive tiles holds exactly when the tiles are sorted |
| SlideConfig.SolvedIffSorted | src/puzzles/slide/model/SlideConfig.java:80-111 | A configuration is solved exactly when its tiles read in row-major order are sorted and the blank is recorded in the bottom-right cell |
| SlideConfig.EqualsIgnoresTiles | src/puzzles/slide/model/SlideConfig.java:193-212 | Two proper 1 by 3 puzzles with the blank in the same place but other tiles exchanged are `equals` and yet hash different strings |
| SlideConfig.HashStringSpellsDigitGrid | src/puzzles/slide/model/SlideConfig.java:193-212 | On two boards of one shape whose cells are single digits, the hashed strings agree exactly when the grids do, so `equals` together with equal hashes holds exactly of equal configurations |
| SlideConfig.MakeMoveTwice | src/puzzles/slide/model/SlideConfig.java:257-276 | `makeMove` keeps the board's shape and cells, and making the same move twice gives back the grid |
| SlideConfig.MakeMoveIsSlide | src/puzzles/slide/model/SlideConfig.java:257-276 | On a proper puzzle, moving the blank and an adjacent tile, in either order, is the slide of that tile |
| SlideConfig.NextIsSlide | src/puzzles/slide/model/SlideConfig.java:114-190 | On a proper puzzle every configuration the search explores next is a slide, is a proper puzzle and keeps the cells |
| SlideConfig.WalkStaysWellFormed | src/puzzles/slide/model/SlideConfig.java:114-190 | Every configuration along a walk from a proper puzzle is a proper puzzle |
| SlideConfig.NextFits | src/puzzles/slide/model/SlideConfig.java:114-190 | A configuration the search explores next, and the one it came from, both fit the board |
| SlideConfig.Solve | src/puzzles/slide/solver/Slide.java:20-21 | The driver's search gives a shortest solution from the board, or no path when none exists. From a proper puzzle every step of the path is a slide. A solved board gives the one-state path |
| SlideModel.IsValidCoordinates | src/puzzles/slide/model/SlideModel.java:147-151 | `isValidCoordinates`. `SlideModel.ValidCoordinatesAreCells` shows it accepts exactly the cells of the board |
| SlideModel.IsValidMove | src/puzzles/slide/model/SlideModel.java:153-198 | `isValidMove`, with its nested tests in the source's order. `SlideModel.ValidMoveIffNextToBlank` characterises it |
| SlideModel.MakeSelection | src/puzzles/slide/model/SlideModel.java:100-145 | `makeSelection`, with its branches in the source's order. `SlideModel.SelectionCycle`, `SlideModel.SelectionSlides` and `SlideModel.TwoClicksSlide` state what a click does |
| SlideModel.ValidCoordinatesAreCells | src/puzzles/slide/model/SlideModel.java:147-151 | The valid coordinates are exactly the cells of the board |
| SlideModel.ValidMoveIffNextToBlank | src/puzzles/slide/model/SlideModel.java:153-198 | A move is valid exactly when one of the two cells is the recorded blank position and the other is next to it. Validity does not depend on the order of the two cells. A cell paired with itself is never valid |
| SlideModel.SelectionCycle | src/puzzles/slide/model/SlideModel.java:100-145 | A click keeps the invariant. A solved board and a click off the board change nothing. A first click records its cell. A second click always ends the selection, and reports an invalid selection exactly when the move is invalid, changing nothing then |
| SlideModel.SelectionSlides | src/puzzles/slide/model/SlideModel.java:118-141 | On a proper puzzle every click leaves a proper puzzle. A click that moves makes one slide to a neighbour; any other click leaves the configuration alone |
| SlideModel.TwoClicksSlide | src/puzzles/slide/model/SlideModel.java:100-145 | Clicking the blank and then an adjacent tile, or the tile and then the blank, slides that tile into the blank |
| SlideModel.SolveNextStep | src/puzzles/slide/model/SlideModel.java:67-98 | A solved board is reported and left alone. Without a solution nothing changes. Otherwise the configuration becomes the second state of a shortest solution, and the message says whether it is solved. On a proper puzzle that step is a slide to a neighbour. The selection is kept |

## Left out

- File reading is not modelled, because it is I/O. This covers the file-reading constructors of `HoppersConfig` and `SlideConfig` and the models' `load`, `reset` and `lastRefresh`. A board is a parameter here.
- The graphical and console front ends, the driver programs' argument handling and output, and `module-info.java` are not modelled. They hold no puzzle logic.
- Observer notifications are returned as a `Message` tag without the coordinates they print. `toString` layouts are left out too, except the Hoppers `toString`, which `equals` and `hashCode` use.
- `HashMap` bucket mechanics and Java's `String.hashCode` arithmetic are left out. The visited map uses value equality. For each puzzle a lemma relates the Java `equals` to value equality and the hashed string to `equals`; for Slide they differ (see SlideConfig.Solve below).
- The counters are modelled as unbounded integers without Java's 32-bit wrap-around. They are threaded through each search, which matches Java's never-reset static fields. Slide tiles are also unbounded integers.
- The Slide model's second-selection fields are not kept. Java assigns them and reads them in the same click only.
- Solver.Solve: it requires a finite set of states that contains the start and is closed under the neighbour function. On an infinite reachable graph the Java loop never ends, and that case is not modelled.
- Crossing.Solve and Crossing.SolveAsWritten: they require non-negative numbers of animals. The driver reads them from the command line and does not check them.
- Crossing.Solve searches with the corrected branch table. The driver as written is `Crossing.SolveAsWritten`, which searches with `Crossing.NeighborsAsWritten` (see Findings).
- HoppersModel.Hint and SlideModel.SolveNextStep: they require the model's invariant, that the board fits the configured dimensions and any pending selection is a cell of the board. `select` as written never leaves an off-board selection, because an off-board click at row `rows` or column `cols` throws before anything is stored (`HoppersModel.SelectAsWrittenKeepsInv`; Findings row 2).
- SlideConfig.Solve: its shortest-solution contract is for a search that dedups by value, the corrected `equals`. Java's map treats two puzzles as one key when they are `equals` and hash alike. That can happen to distinct proper puzzles only when some tile is written with more than one character (10 or above, or negative), as in `SlideConfig.EqualsMergesBoards` with tiles 11 and 12. A standard board of nine cells or fewer has one-digit tiles, so its hash string spells out its grid and it is unaffected (`SlideConfig.HashStringSpellsDigitGrid`). On such boards Java skips whichever of the two it finds second, so its path need not be shortest, and the contract does not describe it.
- SlideConfig.Solve and SlideModel.SolveNextStep: the search uses the children `getNeighbors` returns and drops the change it makes to its receiver. That change happens when the recorded blank position does not hold the blank. The file constructor leaves that position at (0, 0) when the file writes the blank as a number, for example.
  - In that case the up, down and left blocks write `EMPTY` into the recorded position (`SlideConfig.GetNeighborsReceiver`).
  - Java thereby alters the start after it has become a predecessor-map key and the first state of the path. The rebuild can then find the wrong predecessor.
  - `solveNextStep` also leaves the altered board behind when it finds no solution.
  - So `path.value[0] == start` and, on no solution, `m' == m` hold of the model only.
  - On a proper puzzle (`SlideConfig.WellFormed`) the receiver is unchanged (`SlideConfig.GetNeighborsOnBlank`), and the contracts describe Java, apart from the merging above.
- Strings.Solve: a current string shorter than the start would make Java's `getNeighbors` throw. The search never produces one, because every reachable string keeps the start's length (`Strings.WalkKeepsLength`), so the model gives such a configuration no neighbours.

## Findings

| source | as written | input that shows it | evidently intended | confidence | as-written member | corrected member |
|---|---|---|---|---|---|---|
| src/puzzles/crossing/CrossingConfig.java:75-108 | When the boat's bank holds exactly one pup and at least one wolf, only the single-wolf crossing is offered | 2 pups and 1 wolf: the written table reaches six configurations and none is solved | Offer every unmixed load the boat's bank can supply, which solves 2 pups and 1 wolf in five crossings | not executed | Crossing.AsWrittenTwoPupsOneWolfUnsolvable | Crossing.IntendedTwoPupsOneWolfSolvable |
| src/puzzles/hoppers/model/HoppersModel.java:62 | The bounds test uses `<=`, so row `rows` and column `cols` pass it | A first click at row `rows` reads `grid[rows]` and throws `ArrayIndexOutOfBoundsException` | Use `<`, so a click off the board is reported as an invalid position | not executed | HoppersModel.SelectAsWrittenFailsPastLastRow | HoppersModel.SelectCycle |
| src/puzzles/slide/model/SlideConfig.java:193-212 | `equals` compares only the recorded blank position, while `hashCode` hashes every cell | The 2 by 3 boards `1 12 11 / 2 5 0` and `11 2 1 / 12 5 0`, blank in the same cell, are `equals` and both hash `"11211250"`, so the solver's map keeps only one of them and the search can skip a board. The 1 by 3 boards `1 2 0` and `2 1 0` (`SlideConfig.EqualsIgnoresTiles`) are `equals` yet hash differently | `equals` compares the grids too, making it value equality, under which those boards are distinct | not executed | SlideConfig.EqualsMergesBoards | SlideConfig.IntendedEqualsIsValueEquality |

=== FILE: crossing.dfy ===
/**
 The Crossing puzzle: pups and wolves cross a river in a boat that carries
 two pups, one pup or one wolf, never a mixed load, and must be rowed by at
 least one animal. A configuration counts the animals on each bank and says
 which bank the boat is at.

 `NeighborsAsWritten` is the branch table of the Java `getNeighbors`; it
 offers no single-pup crossing when the boat's bank holds exactly one pup and
 at least one wolf. `Neighbors` is the evidently intended table, which offers
 every load the boat's bank can supply; the solver is run with it.
 */
module Crossing {
  import opened Wrappers
  import Solver

  datatype Config = Config(boatLeft: bool, pupsLeft: int, pupsRight: int, wolvesLeft: int, wolvesRight: int)

  /** A boat load: how many pups and how many wolves cross together. */
  datatype Load = Load(pups: int, wolves: int)

  const TwoPups := Load(2, 0)
  const OnePup := Load(1, 0)
  const OneWolf := Load(0, 1)

  /** The pups and wolves on the bank where the boat is, and on the far bank. */
  function BoatPups(c: Config): int { if c.boatLeft then c.pupsLeft else c.pupsRight }
  function BoatWolves(c: Config): int { if c.boatLeft then c.wolvesLeft else c.wolvesRight }
  function FarPups(c: Config): int { if c.boatLeft then c.pupsRight else c.pupsLeft }
  function FarWolves(c: Config): int { if c.boatLeft then c.wolvesRight else c.wolvesLeft }

  /** `c` accounts for exactly `pups` pups and `wolves` wolves. */
  predicate Conserves(c: Config, pups: int, wolves: int) {
    c.pupsLeft + c.pupsRight == pups && c.wolvesLeft + c.wolvesRight == wolves
  }

  /** The first constructor: every animal on the left bank, with the boat. */
  function Initial(pups: int, wolves: int): (c: Config)
    ensures Conserves(c, pups, wolves)
    ensures c.boatLeft && BoatPups(c) == pups && BoatWolves(c) == wolves
    ensures FarPups(c) == 0 && FarWolves(c) == 0
  {
    Config(true, pups, 0, wolves, 0)
  }

  predicate IsSolution(c: Config) {
    c.pupsLeft == 0 && c.wolvesLeft == 0
  }

  /** Among configurations of the same animals, the solutions are those with every animal on the right. */
  lemma SolvedIffAllCrossed(c: Config, pups: int, wolves: int)
    requires Conserves(c, pups, wolves)
    ensures IsSolution(c) <==> c.pupsRight == pups && c.wolvesRight == wolves
  {
  }

  /** The copy constructor: the boat carries `load` from its bank to the other one. */
  function Cross(load: Load, c: Config): Config {
    if c.boatLeft then
      Config(false, c.pupsLeft - load.pups, load.pups + c.pupsRight, c.wolvesLeft - load.wolves, load.wolves + c.wolvesRight)
    else
      Config(true, c.pupsLeft + load.pups, c.pupsRight - load.pups, c.wolvesLeft + load.wolves, c.wolvesRight - load.wolves)
  }

  /**
   A crossing moves the boat to the other bank, takes the load off the bank it
   leaves, puts it on the bank it reaches, and keeps the totals.
   */
  lemma CrossMovesLoad(load: Load, c: Config)
    ensures Cross(load, c).boatLeft == !c.boatLeft
    ensures Conserves(Cross(load, c), c.pupsLeft + c.pupsRight, c.wolvesLeft + c.wolvesRight)
    ensures FarPups(Cross(load, c)) == BoatPups(c) - load.pups && FarWolves(Cross(load, c)) == BoatWolves(c) - load.wolves
    ensures BoatPups(Cross(load, c)) == FarPups(c) + load.pups && BoatWolves(Cross(load, c)) == FarWolves(c) + load.wolves
  {
  }

  /** Rowing the same load back undoes a crossing. */
  lemma CrossBack(load: Load, c: Config)
    ensures Cross(load, Cross(load, c)) == c
  {
  }

  /** The loads `getNeighbors` offers, as its branch table on the boat's bank reads. */
  function LoadsAsWritten(c: Config): seq<Load> {
    var p, w := BoatPups(c), BoatWolves(c);
    if p > 1 && w >= 1 then [TwoPups, OnePup, OneWolf]
    else if p > 1 then [TwoPups, OnePup]
    else if w >= 1 then [OneWolf]
    else [OnePup]
  }

  /** The written table always offers one to three loads, each of them unmixed. */
  lemma AsWrittenLoadsUnmixed(c: Config)
    ensures 1 <= |LoadsAsWritten(c)| <= 3
    ensures forall l :: l in LoadsAsWritten(c) ==> l == TwoPups || l == OnePup || l == OneWolf
  {
  }

  /** The boat's bank has enough animals of each kind `l` carries. */
  predicate Supplies(c: Config, l: Load) {
    (l.pups == 0 || l.pups <= BoatPups(c)) && (l.wolves == 0 || l.wolves <= BoatWolves(c))
  }

  /** The evidently intended loads: each of the three loads the boat's bank can supply, in the same order. */
  function Loads(c: Config): seq<Load> {
    var p, w := BoatPups(c), BoatWolves(c);
    (if p >= 2 then [TwoPups] else []) + (if p >= 1 then [OnePup] else []) + (if w >= 1 then [OneWolf] else [])
  }

  /** The intended table offers a load exactly when it is one of the three and the boat's bank supplies it. */
  lemma LoadsAreSupplied(c: Config)
    ensures forall l :: l in Loads(c) <==> (l == TwoPups || l == OnePup || l == OneWolf) && Supplies(c, l)
  {
  }

  /** The boat's bank holds at least one animal and no bank count is negative. */
  predicate Valid(c: Config, pups: int, wolves: int) {
    && Conserves(c, pups, wolves)
    && c.pupsLeft >= 0 && c.pupsRight >= 0 && c.wolvesLeft >= 0 && c.wolvesRight >= 0
    && BoatPups(c) + BoatWolves(c) >= 1
  }

  /**
   On a valid configuration the two tables differ exactly when the boat's bank
   holds one pup and at least one wolf: there the written table omits the
   single-pup crossing.
   */
  lemma AsWrittenDiffersFromIntended(c: Config, pups: int, wolves: int)
    requires Valid(c, pups, wolves)
    ensures LoadsAsWritten(c) == Loads(c) <==> !(BoatPups(c) == 1 && BoatWolves(c) >= 1)
    ensures BoatPups(c) == 1 && BoatWolves(c) >= 1 ==> Loads(c) == [OnePup] + LoadsAsWritten(c)
  {
  }

  /** On a valid configuration the written table offers only loads the boat's bank can supply. */
  lemma AsWrittenLoadsSupplied(c: Config, pups: int, wolves: int)
    requires Valid(c, pups, wolves)
    ensures forall l :: l in LoadsAsWritten(c) ==> Supplies(c, l)
  {
  }

  /** The configurations reached by carrying each load of `ls`, in order. */
  function CrossAll(ls: seq<Load>, c: Config): seq<Config> {
    seq(|ls|, i requires 0 <= i < |ls| => Cross(ls[i], c))
  }

  /** `getNeighbors` as written. */
  function NeighborsAsWritten(c: Config): seq<Config> {
    CrossAll(LoadsAsWritten(c), c)
  }

  /** The evidently intended `getNeighbors`. */
  function Neighbors(c: Config): seq<Config> {
    CrossAll(Loads(c), c)
  }

  /** A supplied load keeps every count non-negative and leaves the boat with its load on the far bank. */
  lemma SuppliedCrossIsValid(c: Config, pups: int, wolves: int, l: Load)
    requires Valid(c, pups, wolves)
    requires l == TwoPups || l == OnePup || l == OneWolf
    requires Supplies(c, l)
    ensures Valid(Cross(l, c), pups, wolves)
  {
    CrossMovesLoad(l, c);
  }

  /** Both tables keep configurations valid and move the boat on every step. */
  lemma NeighborsStayValid(c: Config, pups: int, wolves: int)
    requires Valid(c, pups, wolves)
    ensures forall n :: n in NeighborsAsWritten(c) ==> Valid(n, pups, wolves) && n.boatLeft != c.boatLeft
    ensures forall n :: n in Neighbors(c) ==> Valid(n, pups, wolves) && n.boatLeft != c.boatLeft
  {
    AsWrittenLoadsSupplied(c, pups, wolves);
    AsWrittenLoadsUnmixed(c);
    forall n | n in NeighborsAsWritten(c) ensures Valid(n, pups, wolves) && n.boatLeft != c.boatLeft {
      var ls := LoadsAsWritten(c);
      var i :| 0 <= i < |ls| && n == Cross(ls[i], c);
      assert ls[i] in ls;
      SuppliedCrossIsValid(c, pups, wolves, ls[i]);
      CrossMovesLoad(ls[i], c);
    }
    LoadsAreSupplied(c);
    forall n | n in Neighbors(c) ensures Valid(n, pups, wolves) && n.boatLeft != c.boatLeft {
      var ls := Loads(c);
      var i :| 0 <= i < |ls| && n == Cross(ls[i], c);
      assert ls[i] in ls;
      SuppliedCrossIsValid(c, pups, wolves, ls[i]);
      CrossMovesLoad(ls[i], c);
    }
  }

  /** A neighbour function that keeps configurations valid and moves the boat on every step. */
  ghost predicate Alternates(next: Config -> seq<Config>, pups: int, wolves: int) {
    forall c, n :: Valid(c, pups, wolves) && n in next(c) ==> Valid(n, pups, wolves) && n.boatLeft != c.boatLeft
  }

  lemma BothTablesAlternate(pups: int, wolves: int)
    ensures Alternates(NeighborsAsWritten, pups, wolves) && Alternates(Neighbors, pups, wolves)
  {
    forall c | Valid(c, pups, wolves) {
      NeighborsStayValid(c, pups, wolves);
    }
  }

  /** Along a walk from a valid start the boat is at the start's bank exactly at the even steps. */
  lemma {:induction false} WalkAlternates(next: Config -> seq<Config>, pups: int, wolves: int, q: seq<Config>)
    requires Alternates(next, pups, wolves)
    requires Solver.Walk(next, q) && Valid(q[0], pups, wolves)
    ensures forall i :: 0 <= i < |q| ==> Valid(q[i], pups, wolves) && (q[i].boatLeft == q[0].boatLeft <==> i % 2 == 0)
  {
    if |q| > 1 {
      var p := q[..|q| - 1];
      assert Solver.Walk(next, p);
      WalkAlternates(next, pups, wolves, p);
      assert q[|q| - 1] in next(q[|q| - 2]);
    }
  }

  /**
   When there is at least one animal, every solution walk from the initial
   configuration has an even number of configurations: the boat ends on the right.
   */
  lemma SolutionsHaveEvenLength(next: Config -> seq<Config>, pups: int, wolves: int, q: seq<Config>)
    requires pups >= 0 && wolves >= 0 && pups + wolves >= 1
    requires Alternates(next, pups, wolves)
    requires Solver.SolutionWalk(next, IsSolution, q, Initial(pups, wolves))
    ensures |q| % 2 == 0
  {
    WalkAlternates(next, pups, wolves, q);
    assert Valid(q[|q| - 1], pups, wolves);
  }

  /** `equals`: all five fields agree. */
  function JavaEquals(a: Config, b: Config): (r: bool)
    ensures r <==> a == b
  {
    && a.pupsLeft == b.pupsLeft && a.pupsRight == b.pupsRight
    && a.wolvesLeft == b.wolvesLeft && a.wolvesRight == b.wolvesRight
    && a.boatLeft == b.boatLeft
  }

  /** `hashCode`: the sum of the four counts, plus one when the boat is on the left. */
  function HashCode(c: Config): int {
    c.wolvesRight + c.wolvesLeft + c.pupsRight + c.pupsLeft + (if c.boatLeft then 1 else 0)
  }

  /** Equal configurations hash equally; configurations of one puzzle share one of two hash codes. */
  lemma HashConsistent(a: Config, b: Config, pups: int, wolves: int)
    requires Conserves(a, pups, wolves)
    ensures JavaEquals(a, b) ==> HashCode(a) == HashCode(b)
    ensures HashCode(a) == pups + wolves + (if a.boatLeft then 1 else 0)
  {
  }

  /** The configuration with the boat at `boatLeft` and `pl` pups, `wl` wolves on the left bank. */
  function Arrange(pups: int, wolves: int, boatLeft: bool, pl: int, wl: int): Config {
    Config(boatLeft, pl, pups - pl, wl, wolves - wl)
  }

  /** The configurations of the given animals that are valid. */
  ghost function ValidStates(pups: int, wolves: int): (u: set<Config>)
    ensures forall c :: c in u <==> Valid(c, pups, wolves)
  {
    var u := set pl: int, wl: int, b: bool | 0 <= pl <= pups && 0 <= wl <= wolves
      && Valid(Arrange(pups, wolves, b, pl, wl), pups, wolves) :: Arrange(pups, wolves, b, pl, wl);
    assert forall c :: Valid(c, pups, wolves) ==> c in u by {
      forall c | Valid(c, pups, wolves) ensures c in u {
        assert c == Arrange(pups, wolves, c.boatLeft, c.pupsLeft, c.wolvesLeft);
      }
    }
    u
  }

  /** A finite set containing the initial configuration and closed under the intended table. */
  lemma Universe(pups: int, wolves: int) returns (u: set<Config>)
    requires pups >= 0 && wolves >= 0
    ensures Initial(pups, wolves) in u && Solver.Closed(Neighbors, u)
  {
    u := ValidStates(pups, wolves) + {Initial(pups, wolves)};
    assert Solver.Closed(Neighbors, u) by {
      forall s, t | s in u && t in Neighbors(s) ensures t in u {
        if Valid(s, pups, wolves) {
          NeighborsStayValid(s, pups, wolves);
        }
      }
    }
  }

  /**
   The driver's call `solver.solve(new CrossingConfig(pups, wolves))`, with
   the intended table: a shortest solution or, when there is none, `None`.
   By `SolutionsHaveEvenLength` the solution has an even number of
   configurations when there is at least one animal.
   */
  method Solve(pups: int, wolves: int, counters: Solver.Counters) returns (path: Option<seq<Config>>, counters': Solver.Counters)
    requires pups >= 0 && wolves >= 0
    ensures path.Some? ==> Solver.Shortest(Neighbors, IsSolution, path.value) && path.value[0] == Initial(pups, wolves)
    ensures path.None? ==> Solver.Unsolvable(Neighbors, IsSolution, Initial(pups, wolves))
    ensures counters'.unique - counters.unique <= counters'.total - counters.total
  {
    ghost var u := Universe(pups, wolves);
    ghost var visited;
    path, counters', visited := Solver.Solve(Initial(pups, wolves), Neighbors, IsSolution, counters, u);
  }

  /** Any answer meeting the contract of `Solve` for two pups and one wolf is a solution of at most six configurations. */
  lemma TwoPupsOneWolfFound(pups: int, wolves: int, path: Option<seq<Config>>)
    requires path.Some? ==> Solver.Shortest(Neighbors, IsSolution, path.value) && path.value[0] == Initial(pups, wolves)
    requires path.None? ==> Solver.Unsolvable(Neighbors, IsSolution, Initial(pups, wolves))
    ensures pups == 2 && wolves == 1 ==> path.Some? && |path.value| <= 6
  {
    if pups == 2 && wolves == 1 {
      var q := IntendedTwoPupsOneWolfSolvable();
      FoundWithin(Neighbors, Initial(2, 1), path, q);
    }
  }

  /** Any answer meeting the contract of `SolveAsWritten` for two pups and one wolf is `None`, although the puzzle can be solved. */
  lemma AsWrittenTwoPupsOneWolfNone(pups: int, wolves: int, path: Option<seq<Config>>)
    requires path.Some? ==> Solver.Shortest(NeighborsAsWritten, IsSolution, path.value) && path.value[0] == Initial(pups, wolves)
    ensures pups == 2 && wolves == 1 ==> path.None?
  {
    if pups == 2 && wolves == 1 {
      AsWrittenTwoPupsOneWolfUnsolvable();
      NothingFound(NeighborsAsWritten, Initial(2, 1), path);
    }
  }

  /** Any answer meeting the contract of either search for one pup and one wolf is `None`. */
  lemma OnePupOneWolfNone(next: Config -> seq<Config>, pups: int, wolves: int, path: Option<seq<Config>>)
    requires next == Neighbors || next == NeighborsAsWritten
    requires path.Some? ==> Solver.Shortest(next, IsSolution, path.value) && path.value[0] == Initial(pups, wolves)
    ensures pups == 1 && wolves == 1 ==> path.None?
  {
    if pups == 1 && wolves == 1 {
      OnePupOneWolfUnsolvable();
      NothingFound(next, Initial(1, 1), path);
    }
  }

  /** Where no solution walk exists, the search's answer is `None`. */
  lemma NothingFound(next: Config -> seq<Config>, start: Config, path: Option<seq<Config>>)
    requires path.Some? ==> Solver.Shortest(next, IsSolution, path.value) && path.value[0] == start
    requires Solver.Unsolvable(next, IsSolution, start)
    ensures path.None?
  {
  }

  /** When a solution walk exists, the search's answer is a path no longer than that walk. */
  lemma FoundWithin(next: Config -> seq<Config>, start: Config, path: Option<seq<Config>>, q: seq<Config>)
    requires path.Some? ==> Solver.Shortest(next, IsSolution, path.value) && path.value[0] == start
    requires path.None? ==> Solver.Unsolvable(next, IsSolution, start)
    requires Solver.SolutionWalk(next, IsSolution, q, start)
    ensures path.Some? && |path.value| <= |q|
  {
  }

  /**
   A finite set containing the initial configuration and closed under the
   table as written. With no animals at all the table still offers a single
   pup, and the crossings bounce between the start and a bank with `-1` pups.
   */
  lemma UniverseAsWritten(pups: int, wolves: int) returns (u: set<Config>)
    requires pups >= 0 && wolves >= 0
    ensures Initial(pups, wolves) in u && Solver.Closed(NeighborsAsWritten, u)
  {
    if pups == 0 && wolves == 0 {
      u := NoAnimalsUniverse(pups, wolves);
    } else {
      u := AnimalsUniverse(pups, wolves);
    }
  }

  lemma NoAnimalsUniverse(pups: int, wolves: int) returns (u: set<Config>)
    requires pups == 0 && wolves == 0
    ensures Initial(pups, wolves) in u && Solver.Closed(NeighborsAsWritten, u)
  {
    u := {Stranded, Bounced};
    NoAnimalsAsWritten();
    assert Initial(pups, wolves) == Stranded;
  }

  /** With at least one animal the valid configurations are closed under the written table. */
  lemma AnimalsUniverse(pups: int, wolves: int) returns (u: set<Config>)
    requires pups >= 0 && wolves >= 0 && pups + wolves > 0
    ensures Initial(pups, wolves) in u && Solver.Closed(NeighborsAsWritten, u)
  {
    u := ValidStates(pups, wolves);
    assert Valid(Initial(pups, wolves), pups, wolves);
    BothTablesAlternate(pups, wolves);
    AlternatesClosed(NeighborsAsWritten, pups, wolves);
  }

  /** The start with no animals, and where a single pup rowed from it would leave the count. */
  const Stranded := Config(true, 0, 0, 0, 0)
  const Bounced := Config(false, -1, 1, 0, 0)

  lemma NoAnimalsAsWritten()
    ensures Solver.Closed(NeighborsAsWritten, {Stranded, Bounced})
  {
    BounceOut();
    BounceBack();
    var u := {Stranded, Bounced};
    forall s, t | s in u && t in NeighborsAsWritten(s) ensures t in u {
      if s == Stranded {
        OnlyElement(t, NeighborsAsWritten(s), Bounced);
      } else {
        OnlyElement(t, NeighborsAsWritten(s), Stranded);
      }
    }
  }

  lemma BounceOut()
    ensures NeighborsAsWritten(Stranded) == [Bounced]
  {
    assert LoadsAsWritten(Stranded) == [OnePup];
    CrossAllListed(LoadsAsWritten(Stranded), Stranded);
  }

  lemma BounceBack()
    ensures NeighborsAsWritten(Bounced) == [Stranded]
  {
    assert LoadsAsWritten(Bounced) == [OnePup];
    CrossAllListed(LoadsAsWritten(Bounced), Bounced);
  }

  lemma OnlyElement<T>(t: T, s: seq<T>, x: T)
    requires t in s && s == [x]
    ensures t == x
  {
  }

  lemma AlternatesClosed(next: Config -> seq<Config>, pups: int, wolves: int)
    requires Alternates(next, pups, wolves)
    ensures Solver.Closed(next, ValidStates(pups, wolves))
  {
  }

  /**
   The driver's call with the branch table as written: a shortest solution
   under that table or `None` when it has none. For two pups and one wolf the
   answer is `None` (`AsWrittenTwoPupsOneWolfNone`).
   */
  method SolveAsWritten(pups: int, wolves: int, counters: Solver.Counters) returns (path: Option<seq<Config>>, counters': Solver.Counters)
    requires pups >= 0 && wolves >= 0
    ensures path.Some? ==> Solver.Shortest(NeighborsAsWritten, IsSolution, path.value) && path.value[0] == Initial(pups, wolves)
    ensures path.None? ==> Solver.Unsolvable(NeighborsAsWritten, IsSolution, Initial(pups, wolves))
    ensures counters'.unique - counters.unique <= counters'.total - counters.total
  {
    ghost var u := UniverseAsWritten(pups, wolves);
    ghost var visited;
    path, counters', visited := Solver.Solve(Initial(pups, wolves), NeighborsAsWritten, IsSolution, counters, u);
  }

  /** `CrossAll` on lists of one to three loads, spelled out. */
  lemma CrossAllListed(ls: seq<Load>, c: Config)
    ensures |ls| == 1 ==> CrossAll(ls, c) == [Cross(ls[0], c)]
    ensures |ls| == 2 ==> CrossAll(ls, c) == [Cross(ls[0], c), Cross(ls[1], c)]
    ensures |ls| == 3 ==> CrossAll(ls, c) == [Cross(ls[0], c), Cross(ls[1], c), Cross(ls[2], c)]
  {
  }

  /** The six configurations the written table reaches from two pups and one wolf. */
  const Reach0 := Config(true, 2, 0, 1, 0)
  const Reach1 := Config(false, 0, 2, 1, 0)
  const Reach2 := Config(false, 1, 1, 1, 0)
  const Reach3 := Config(false, 2, 0, 0, 1)
  const Reach4 := Config(true, 1, 1, 1, 0)
  const Reach5 := Config(false, 1, 1, 0, 1)

  lemma AsWrittenFromReach0()
    ensures NeighborsAsWritten(Reach0) == [Reach1, Reach2, Reach3]
  {
    assert LoadsAsWritten(Reach0) == [TwoPups, OnePup, OneWolf];
    CrossAllListed(LoadsAsWritten(Reach0), Reach0);
  }

  lemma AsWrittenFromReach1To3()
    ensures NeighborsAsWritten(Reach1) == [Reach0, Reach4]
    ensures NeighborsAsWritten(Reach2) == [Reach0]
    ensures NeighborsAsWritten(Reach3) == [Reach0]
  {
    assert LoadsAsWritten(Reach1) == [TwoPups, OnePup];
    CrossAllListed(LoadsAsWritten(Reach1), Reach1);
    assert LoadsAsWritten(Reach2) == [OnePup];
    CrossAllListed(LoadsAsWritten(Reach2), Reach2);
    assert LoadsAsWritten(Reach3) == [OneWolf];
    CrossAllListed(LoadsAsWritten(Reach3), Reach3);
  }

  lemma AsWrittenFromReach4And5()
    ensures NeighborsAsWritten(Reach4) == [Reach5]
    ensures NeighborsAsWritten(Reach5) == [Reach4]
  {
    assert LoadsAsWritten(Reach4) == [OneWolf];
    CrossAllListed(LoadsAsWritten(Reach4), Reach4);
    assert LoadsAsWritten(Reach5) == [OneWolf];
    CrossAllListed(LoadsAsWritten(Reach5), Reach5);
  }

  /** With two pups and one wolf, the written table reaches only six configurations, none solved. */
  lemma AsWrittenTwoPupsOneWolfUnsolvable()
    ensures Solver.Unsolvable(NeighborsAsWritten, IsSolution, Initial(2, 1))
  {
    AsWrittenFromReach0();
    AsWrittenFromReach1To3();
    AsWrittenFromReach4And5();
    var u := {Reach0, Reach1, Reach2, Reach3, Reach4, Reach5};
    assert Solver.Closed(NeighborsAsWritten, u);
    Solver.ClosedGoalFreeIsUnsolvable(NeighborsAsWritten, IsSolution, u, Initial(2, 1));
  }

  /** The configurations reachable from one pup and one wolf. */
  const Lone0 := Config(true, 1, 0, 1, 0)
  const Lone1 := Config(false, 0, 1, 1, 0)
  const Lone2 := Config(false, 1, 0, 0, 1)

  lemma AsWrittenFromLone()
    ensures NeighborsAsWritten(Lone0) == [Lone2] && NeighborsAsWritten(Lone2) == [Lone0]
  {
    assert LoadsAsWritten(Lone0) == [OneWolf];
    CrossAllListed(LoadsAsWritten(Lone0), Lone0);
    assert LoadsAsWritten(Lone2) == [OneWolf];
    CrossAllListed(LoadsAsWritten(Lone2), Lone2);
  }

  lemma IntendedFromLone()
    ensures Neighbors(Lone0) == [Lone1, Lone2] && Neighbors(Lone1) == [Lone0] && Neighbors(Lone2) == [Lone0]
  {
    assert Loads(Lone0) == [OnePup, OneWolf];
    CrossAllListed(Loads(Lone0), Lone0);
    assert Loads(Lone1) == [OnePup];
    CrossAllListed(Loads(Lone1), Lone1);
    assert Loads(Lone2) == [OneWolf];
    CrossAllListed(Loads(Lone2), Lone2);
  }

  /**
   With one pup and one wolf neither table solves the puzzle: the boat can
   carry only one animal at a time here, and that animal has to row it back.
   */
  lemma OnePupOneWolfUnsolvable()
    ensures Solver.Unsolvable(NeighborsAsWritten, IsSolution, Initial(1, 1))
    ensures Solver.Unsolvable(Neighbors, IsSolution, Initial(1, 1))
  {
    AsWrittenFromLone();
    var u := {Lone0, Lone2};
    assert Solver.Closed(NeighborsAsWritten, u);
    Solver.ClosedGoalFreeIsUnsolvable(NeighborsAsWritten, IsSolution, u, Initial(1, 1));
    IntendedFromLone();
    var v := {Lone0, Lone1, Lone2};
    assert Solver.Closed(Neighbors, v);
    Solver.ClosedGoalFreeIsUnsolvable(Neighbors, IsSolution, v, Initial(1, 1));
  }

  /** The two configurations the intended table adds on the way to the solution. */
  const Reach6 := Config(true, 2, 0, 0, 1)
  const Reach7 := Config(false, 0, 2, 0, 1)

  lemma IntendedFirstSteps()
    ensures Reach1 in Neighbors(Reach0) && Reach4 in Neighbors(Reach1)
  {
    assert Loads(Reach0) == [TwoPups, OnePup, OneWolf];
    CrossAllListed(Loads(Reach0), Reach0);
    assert Loads(Reach1) == [TwoPups, OnePup];
    CrossAllListed(Loads(Reach1), Reach1);
  }

  lemma IntendedLastSteps()
    ensures Reach5 in Neighbors(Reach4) && Reach6 in Neighbors(Reach5) && Reach7 in Neighbors(Reach6)
  {
    assert Loads(Reach4) == [OnePup, OneWolf];
    CrossAllListed(Loads(Reach4), Reach4);
    assert Loads(Reach5) == [OnePup, OneWolf];
    CrossAllListed(Loads(Reach5), Reach5);
    assert Loads(Reach6) == [TwoPups, OnePup];
    CrossAllListed(Loads(Reach6), Reach6);
  }

  /** With two pups and one wolf, the intended table solves the puzzle in five crossings. */
  lemma IntendedTwoPupsOneWolfSolvable() returns (q: seq<Config>)
    ensures |q| == 6 && Solver.SolutionWalk(Neighbors, IsSolution, q, Initial(2, 1))
  {
    q := [Reach0, Reach1, Reach4, Reach5, Reach6, Reach7];
    assert Solver.Walk(Neighbors, q) by {
      IntendedFirstSteps();
      IntendedLastSteps();
      SixStateWalk(Neighbors, Reach0, Reach1, Reach4, Reach5, Reach6, Reach7);
    }
    assert IsSolution(q[5]);
  }

  lemma SixStateWalk(next: Config -> seq<Config>, a: Config, b: Config, c: Config, d: Config, e: Config, f: Config)
    requires b in next(a) && c in next(b) && d in next(c) && e in next(d) && f in next(e)
    ensures Solver.Walk(next, [a, b, c, d, e, f])
  {
  }
}

=== FILE: grid.dfy ===
/**
 Rectangular two-dimensional grids, as the `char[][]` and `int[][]` boards of
 the Hoppers and Slide puzzles: a sequence of rows, each of the same length.
 */
module Grid {

  /** `g` has `rows` rows of `cols` cells each. */
  predicate Rect<T>(g: seq<seq<T>>, rows: nat, cols: nat) {
    |g| == rows && forall r :: 0 <= r < rows ==> |g[r]| == cols
  }

  /** `(r, c)` names a cell of a `rows` by `cols` grid. */
  predicate InBounds(rows: nat, cols: nat, r: int, c: int) {
    0 <= r < rows && 0 <= c < cols
  }

  /** The grid with cell `(r, c)` set to `v`. */
  function Set<T>(g: seq<seq<T>>, r: nat, c: nat, v: T): seq<seq<T>>
    requires r < |g| && c < |g[r]|
  {
    g[r := g[r][c := v]]
  }

  /** A write keeps the grid's shape, puts `v` at `(r, c)` and leaves every other cell alone. */
  lemma SetCells<T>(g: seq<seq<T>>, r: nat, c: nat, v: T)
    requires r < |g| && c < |g[r]|
    ensures var g' := Set(g, r, c, v);
      && |g'| == |g| && (forall i :: 0 <= i < |g| ==> |g'[i]| == |g[i]|)
      && g'[r][c] == v
      && forall i, j :: 0 <= i < |g| && 0 <= j < |g[i]| && (i, j) != (r, c) ==> g'[i][j] == g[i][j]
  {
  }

  /** Writes to two different cells commute. */
  lemma SetsCommute<T>(g: seq<seq<T>>, r1: nat, c1: nat, v1: T, r2: nat, c2: nat, v2: T)
    requires r1 < |g| && c1 < |g[r1]| && r2 < |g| && c2 < |g[r2]| && (r1, c1) != (r2, c2)
    ensures Set(Set(g, r1, c1, v1), r2, c2, v2) == Set(Set(g, r2, c2, v2), r1, c1, v1)
  {
    var a := Set(Set(g, r1, c1, v1), r2, c2, v2);
    var b := Set(Set(g, r2, c2, v2), r1, c1, v1);
    forall r | 0 <= r < |g| ensures a[r] == b[r] {
      assert |a[r]| == |b[r]|;
    }
  }

  /** The multiset of all cells of `g`. */
  function Cells<T>(g: seq<seq<T>>): multiset<T> {
    if g == [] then multiset{} else multiset(g[0]) + Cells(g[1..])
  }

  /** Writing `v` over cell `(r, c)` trades one copy of the old value for one copy of `v`. */
  lemma {:induction false} CellsOfSet<T>(g: seq<seq<T>>, r: nat, c: nat, v: T)
    requires r < |g| && c < |g[r]|
    ensures Cells(Set(g, r, c, v)) == Cells(g) - multiset{g[r][c]} + multiset{v}
  {
    var g' := Set(g, r, c, v);
    var x := g[r][c];
    if r == 0 {
      assert g'[1..] == g[1..];
      RowUpdate(g[0], c, v);
      assert x in multiset(g[0]);
      TradeInLeft(multiset(g[0]), Cells(g[1..]), x, v);
    } else {
      assert g'[1..] == Set(g[1..], r - 1, c, v);
      CellsOfSet(g[1..], r - 1, c, v);
      assert g'[0] == g[0];
      CellIsCounted(g[1..], r - 1, c);
      TradeInRight(multiset(g[0]), Cells(g[1..]), x, v);
    }
  }

  /** Trading `x` for `y` in the left part of a sum trades it in the sum. */
  lemma TradeInLeft<T>(a: multiset<T>, b: multiset<T>, x: T, y: T)
    requires x in a
    ensures (a - multiset{x} + multiset{y}) + b == a + b - multiset{x} + multiset{y}
  {
  }

  /** Trading `x` for `y` in the right part of a sum trades it in the sum. */
  lemma TradeInRight<T>(a: multiset<T>, b: multiset<T>, x: T, y: T)
    requires x in b
    ensures a + (b - multiset{x} + multiset{y}) == a + b - multiset{x} + multiset{y}
  {
  }

  /** Overwriting one position of a row trades its old value for `v` in the row's multiset. */
  lemma RowUpdate<T>(row: seq<T>, c: nat, v: T)
    requires c < |row|
    ensures multiset(row[c := v]) == multiset(row) - multiset{row[c]} + multiset{v}
  {
    assert row == row[..c] + [row[c]] + row[c + 1..];
    assert row[c := v] == row[..c] + [v] + row[c + 1..];
  }

  /** Every cell's value occurs in the grid's multiset. */
  lemma {:induction false} CellIsCounted<T>(g: seq<seq<T>>, r: nat, c: nat)
    requires r < |g| && c < |g[r]|
    ensures g[r][c] in Cells(g)
  {
    if r > 0 {
      CellIsCounted(g[1..], r - 1, c);
    }
  }

  /** A value occurs in the grid's multiset only if some cell holds it. */
  lemma {:induction false} CountedIsCell<T>(g: seq<seq<T>>, x: T) returns (r: nat, c: nat)
    requires x in Cells(g)
    ensures r < |g| && c < |g[r]| && g[r][c] == x
  {
    if x in multiset(g[0]) {
      r := 0;
      c :| 0 <= c < |g[0]| && g[0][c] == x;
    } else {
      var r', c' := CountedIsCell(g[1..], x);
      r, c := r' + 1, c';
    }
  }

  /** Exactly one cell of `g` holds `x`. */
  ghost predicate UniqueCell<T>(g: seq<seq<T>>, x: T) {
    Cells(g)[x] == 1
  }

  /** Two grids of the same shape that agree on every cell are the same grid. */
  lemma SameShapeCells<T>(g: seq<seq<T>>, h: seq<seq<T>>)
    requires |g| == |h| && forall r :: 0 <= r < |g| ==> |g[r]| == |h[r]|
    requires forall r, c :: 0 <= r < |g| && 0 <= c < |g[r]| ==> g[r][c] == h[r][c]
    ensures g == h
  {
    forall r | 0 <= r < |g| ensures g[r] == h[r] {
      assert |g[r]| == |h[r]|;
    }
  }

  /** Two `rows` by `cols` grids that agree on every cell are the same grid. */
  lemma SameCells<T>(g: seq<seq<T>>, h: seq<seq<T>>, rows: nat, cols: nat)
    requires Rect(g, rows, cols) && Rect(h, rows, cols)
    requires forall r, c :: InBounds(rows, cols, r, c) ==> g[r][c] == h[r][c]
    ensures g == h
  {
    forall r | 0 <= r < rows ensures g[r] == h[r] {
      assert forall c :: 0 <= c < cols ==> InBounds(rows, cols, r, c);
    }
  }

  /** The number of cells of `row` holding `x`, counted left to right. */
  function RowCount<T(==)>(row: seq<T>, x: T): nat {
    if row == [] then 0 else (if row[0] == x then 1 else 0) + RowCount(row[1..], x)
  }

  /** The number of cells of `g` holding `x`, counted row by row as a nested loop does. */
  function Count<T(==)>(g: seq<seq<T>>, x: T): nat {
    if g == [] then 0 else RowCount(g[0], x) + Count(g[1..], x)
  }

  lemma {:induction false} RowCountIsMultiplicity<T>(row: seq<T>, x: T)
    ensures RowCount(row, x) == multiset(row)[x]
  {
    if row != [] {
      assert row == [row[0]] + row[1..];
      RowCountIsMultiplicity(row[1..], x);
    }
  }

  /** The loop count of `x` is its multiplicity in the grid's multiset. */
  lemma {:induction false} CountIsMultiplicity<T>(g: seq<seq<T>>, x: T)
    ensures Count(g, x) == Cells(g)[x]
  {
    if g != [] {
      RowCountIsMultiplicity(g[0], x);
      CountIsMultiplicity(g[1..], x);
    }
  }

  /** A nested loop finds no `x` exactly when no cell holds `x`. */
  lemma CountZeroIffAbsent<T>(g: seq<seq<T>>, x: T)
    ensures Count(g, x) == 0 <==> forall r, c :: 0 <= r < |g| && 0 <= c < |g[r]| ==> g[r][c] != x
  {
    CountIsMultiplicity(g, x);
    if Count(g, x) != 0 {
      var r, c := CountedIsCell(g, x);
    } else {
      forall r, c | 0 <= r < |g| && 0 <= c < |g[r]| ensures g[r][c] != x {
        CellIsCounted(g, r, c);
      }
    }
  }

  /** Every cell of `g` holds a value of `alpha`. */
  ghost predicate AllIn<T>(g: seq<seq<T>>, alpha: set<T>) {
    forall r, c :: 0 <= r < |g| && 0 <= c < |g[r]| ==> g[r][c] in alpha
  }

  /** All sequences of length `n` over `alpha`. */
  ghost function Words<T(!new)>(alpha: set<T>, n: nat): (u: set<seq<T>>)
    ensures forall s :: s in u <==> |s| == n && forall k :: 0 <= k < |s| ==> s[k] in alpha
  {
    if n == 0 then {[]}
    else
      var shorter := Words(alpha, n - 1);
      var u := set x, s | x in alpha && s in shorter :: [x] + s;
      assert forall s :: |s| == n && (forall k :: 0 <= k < |s| ==> s[k] in alpha) ==> s in u by {
        forall s | |s| == n && (forall k :: 0 <= k < |s| ==> s[k] in alpha) ensures s in u {
          assert s == [s[0]] + s[1..];
          assert s[1..] in shorter;
        }
      }
      u
  }

  /** All `rows` by `cols` grids over `alpha`: a finite set when `alpha` is. */
  ghost function Boards<T(!new)>(alpha: set<T>, rows: nat, cols: nat): (u: set<seq<seq<T>>>)
    ensures forall g :: g in u <==> Rect(g, rows, cols) && AllIn(g, alpha)
  {
    var u := Words(Words(alpha, cols), rows);
    assert forall g :: Rect(g, rows, cols) && AllIn(g, alpha) ==> g in u by {
      forall g | Rect(g, rows, cols) && AllIn(g, alpha) ensures g in u {
        forall r | 0 <= r < rows ensures g[r] in Words(alpha, cols) {
          assert forall c :: 0 <= c < cols ==> g[r][c] in alpha;
        }
      }
    }
    u
  }

  /** Trading one `x` for one `y` lowers the count of `x` by one, raises that of `y` by one and keeps every other count. */
  lemma CountsOfTrade<T>(g: seq<seq<T>>, h: seq<seq<T>>, x: T, y: T)
    requires Cells(h) == Cells(g) - multiset{x} + multiset{y}
    requires x in Cells(g) && x != y
    ensures Count(h, x) + 1 == Count(g, x)
    ensures Count(h, y) == Count(g, y) + 1
    ensures forall z :: z != x && z != y ==> Count(h, z) == Count(g, z)
  {
    CountIsMultiplicity(g, x);
    CountIsMultiplicity(h, x);
    CountIsMultiplicity(g, y);
    CountIsMultiplicity(h, y);
    forall z | z != x && z != y
      ensures Count(h, z) == Count(g, z)
    {
      CountIsMultiplicity(g, z);
      CountIsMultiplicity(h, z);
    }
  }

  /** A trade that brings in only a value of `alpha` keeps every cell in `alpha`. */
  lemma TradeKeepsAllIn<T>(g: seq<seq<T>>, h: seq<seq<T>>, x: T, y: T, alpha: set<T>)
    requires Cells(h) == Cells(g) - multiset{x} + multiset{y}
    requires AllIn(g, alpha) && y in alpha
    ensures AllIn(h, alpha)
  {
    forall r, c | 0 <= r < |h| && 0 <= c < |h[r]| ensures h[r][c] in alpha {
      var z := h[r][c];
      CellIsCounted(h, r, c);
      if z != y {
        assert z in Cells(g);
        var r', c' := CountedIsCell(g, z);
      }
    }
  }

  /** The grid with the values of cells `(r1, c1)` and `(r2, c2)` exchanged. */
  function Swap<T>(g: seq<seq<T>>, r1: nat, c1: nat, r2: nat, c2: nat): seq<seq<T>>
    requires r1 < |g| && c1 < |g[r1]| && r2 < |g| && c2 < |g[r2]|
  {
    var g1 := g[r1 := g[r1][c1 := g[r2][c2]]];
    g1[r2 := g1[r2][c2 := g[r1][c1]]]
  }

  /** A swap is two writes. */
  lemma SwapIsTwoSets<T>(g: seq<seq<T>>, r1: nat, c1: nat, r2: nat, c2: nat)
    requires r1 < |g| && c1 < |g[r1]| && r2 < |g| && c2 < |g[r2]|
    ensures Swap(g, r1, c1, r2, c2) == Set(Set(g, r1, c1, g[r2][c2]), r2, c2, g[r1][c1])
  {
  }

  /** A swap keeps the shape, exchanges the two cells and leaves every other cell alone. */
  lemma SwapCells<T>(g: seq<seq<T>>, r1: nat, c1: nat, r2: nat, c2: nat)
    requires r1 < |g| && c1 < |g[r1]| && r2 < |g| && c2 < |g[r2]|
    ensures var g' := Swap(g, r1, c1, r2, c2);
      && |g'| == |g| && (forall i :: 0 <= i < |g| ==> |g'[i]| == |g[i]|)
      && g'[r1][c1] == g[r2][c2] && g'[r2][c2] == g[r1][c1]
      && forall i, j :: 0 <= i < |g| && 0 <= j < |g[i]| && (i, j) != (r1, c1) && (i, j) != (r2, c2) ==> g'[i][j] == g[i][j]
  {
  }

  /** A swap keeps the multiset of cells. */
  lemma CellsOfSwap<T>(g: seq<seq<T>>, r1: nat, c1: nat, r2: nat, c2: nat)
    requires r1 < |g| && c1 < |g[r1]| && r2 < |g| && c2 < |g[r2]|
    ensures Cells(Swap(g, r1, c1, r2, c2)) == Cells(g)
  {
    var x, y := g[r1][c1], g[r2][c2];
    SwapIsTwoSets(g, r1, c1, r2, c2);
    var g1 := Set(g, r1, c1, y);
    CellsOfSet(g, r1, c1, y);
    assert g1[r2][c2] == y;
    CellsOfSet(g1, r2, c2, x);
    CellIsCounted(g, r1, c1);
    TradeBack(Cells(g), x, y);
  }

  /** Trading `x` for `y` and then `y` back for `x` gives back the multiset. */
  lemma TradeBack<T>(m: multiset<T>, x: T, y: T)
    requires x in m
    ensures m - multiset{x} + multiset{y} - multiset{y} + multiset{x} == m
  {
  }

  /** Swapping the same two cells twice gives back the grid, and the order of the two cells does not matter. */
  lemma SwapInvolution<T>(g: seq<seq<T>>, r1: nat, c1: nat, r2: nat, c2: nat)
    requires r1 < |g| && c1 < |g[r1]| && r2 < |g| && c2 < |g[r2]|
    ensures Swap(Swap(g, r1, c1, r2, c2), r1, c1, r2, c2) == g
    ensures Swap(g, r1, c1, r2, c2) == Swap(g, r2, c2, r1, c1)
  {
    var a := Swap(Swap(g, r1, c1, r2, c2), r1, c1, r2, c2);
    forall r | 0 <= r < |g| ensures a[r] == g[r] {
      assert |a[r]| == |g[r]|;
    }
    var b := Swap(g, r1, c1, r2, c2);
    var b' := Swap(g, r2, c2, r1, c1);
    forall r | 0 <= r < |g| ensures b[r] == b'[r] {
      assert |b[r]| == |b'[r]|;
    }
  }

  /** Writing a value of `alpha` keeps every cell in `alpha`. */
  lemma SetKeepsAllIn<T>(g: seq<seq<T>>, r: nat, c: nat, v: T, alpha: set<T>)
    requires r < |g| && c < |g[r]| && AllIn(g, alpha) && v in alpha
    ensures AllIn(Set(g, r, c, v), alpha)
  {
  }

  /** Two different cells holding `x` make `x` occur at least twice. */
  lemma TwoCells<T>(g: seq<seq<T>>, r1: nat, c1: nat, r2: nat, c2: nat, y: T)
    requires r1 < |g| && c1 < |g[r1]| && r2 < |g| && c2 < |g[r2]| && (r1, c1) != (r2, c2)
    requires g[r1][c1] == g[r2][c2] && y != g[r1][c1]
    ensures Cells(g)[g[r1][c1]] >= 2
  {
    var x := g[r1][c1];
    var g1 := Set(g, r1, c1, y);
    CellsOfSet(g, r1, c1, y);
    CellIsCounted(g1, r2, c2);
    assert g1[r2][c2] == x;
  }
}

=== FILE: hoppers_config.dfy ===
/**
 The Hoppers puzzle: frogs on a grid jump over green frogs, which are removed;
 the puzzle is solved when no green frog is left.

 Cells hold `'G'` (green frog), `'R'` (red frog), `'.'` (an empty lily pad)
 or any other character (water, `'*'`), which no rule touches. The Java class
 keeps the board size in static fields; here it is a `Dims` value passed to
 every operation that reads it.
 */
module HoppersConfig {
  import opened Wrappers
  import Solver
  import Grid

  const Green := 'G'
  const Red := 'R'
  const Empty := '.'

  /** The static board size shared by every configuration of one puzzle. */
  datatype Dims = Dims(rows: nat, cols: nat)

  datatype Config = Config(grid: seq<seq<char>>)

  /** `c`'s grid has the puzzle's size, as every grid built by the Java code does. */
  predicate Fits(dims: Dims, c: Config) {
    Grid.Rect(c.grid, dims.rows, dims.cols)
  }

  predicate InBounds(dims: Dims, r: int, k: int) {
    Grid.InBounds(dims.rows, dims.cols, r, k)
  }

  predicate IsFrog(ch: char) {
    ch == Green || ch == Red
  }

  /** The eight jump directions, in the order the even-row loop tries them. */
  datatype Dir = Left | UpLeft | Up | UpRight | Right | DownRight | Down | DownLeft

  /** The landing cell's row and column offset from the jumping frog. */
  function Land(d: Dir): (int, int) {
    match d
    case Left => (0, -4)
    case UpLeft => (-2, -2)
    case Up => (-4, 0)
    case UpRight => (-2, 2)
    case Right => (0, 4)
    case DownRight => (2, 2)
    case Down => (4, 0)
    case DownLeft => (2, -2)
  }

  /** The jumped cell's row and column offset from the jumping frog. */
  function Over(d: Dir): (int, int) {
    match d
    case Left => (0, -2)
    case UpLeft => (-1, -1)
    case Up => (-2, 0)
    case UpRight => (-1, 1)
    case Right => (0, 2)
    case DownRight => (1, 1)
    case Down => (2, 0)
    case DownLeft => (1, -1)
  }

  predicate IsDiagonal(d: Dir) {
    d in {UpLeft, UpRight, DownRight, DownLeft}
  }

  /** The jumped cell lies exactly halfway to the landing cell, and a jump never changes a frog's row parity. */
  lemma OverIsHalfway(d: Dir)
    ensures Land(d).0 == 2 * Over(d).0 && Land(d).1 == 2 * Over(d).1
    ensures Land(d) != (0, 0)
    ensures IsDiagonal(d) <==> Land(d).0 != 0 && Land(d).1 != 0
  {
  }

  /** The directions tried from row `i`: all eight on even rows, the four diagonals on odd rows. */
  function DirsFor(i: int): seq<Dir> {
    if i % 2 == 0 then [Left, UpLeft, Up, UpRight, Right, DownRight, Down, DownLeft]
    else [UpLeft, UpRight, DownRight, DownLeft]
  }

  lemma DirsForRowParity(i: int, d: Dir)
    ensures d in DirsFor(i) <==> i % 2 == 0 || IsDiagonal(d)
  {
  }

  /** When the frog and its landing cell are on the board, so is the jumped cell, and the three are distinct. */
  lemma OverInBounds(dims: Dims, i: int, j: int, d: Dir)
    requires InBounds(dims, i, j) && InBounds(dims, i + Land(d).0, j + Land(d).1)
    ensures InBounds(dims, i + Over(d).0, j + Over(d).1)
    ensures (i + Over(d).0, j + Over(d).1) != (i, j)
    ensures (i + Over(d).0, j + Over(d).1) != (i + Land(d).0, j + Land(d).1)
    ensures (i + Land(d).0, j + Land(d).1) != (i, j)
  {
    OverIsHalfway(d);
  }

  /**
   The guard of one branch of `getNeighbors` for the frog at `(i, j)`: the
   landing cell is on the board and empty, and the jumped cell holds a green frog.
   */
  predicate CanJump(dims: Dims, c: Config, i: int, j: int, d: Dir)
    requires Fits(dims, c) && InBounds(dims, i, j)
  {
    var (li, lj) := (i + Land(d).0, j + Land(d).1);
    InBounds(dims, li, lj) &&
    (OverInBounds(dims, i, j, d);
     c.grid[i + Over(d).0][j + Over(d).1] == Green && c.grid[li][lj] == Empty)
  }

  /** A jump `getNeighbors` generates: a frog at `(i, j)`, a direction tried from its row, and the guard. */
  predicate Move(dims: Dims, c: Config, i: int, j: int, d: Dir)
    requires Fits(dims, c)
  {
    InBounds(dims, i, j) && IsFrog(c.grid[i][j]) && d in DirsFor(i) && CanJump(dims, c, i, j, d)
  }

  /**
   The three writes of a jump on a grid: the landing cell `(li, lj)` takes the
   jumper's mark, then the jumper's cell `(i, j)` and the jumped cell `(mi, mj)`
   become empty.
   */
  function JumpGrid(g: seq<seq<char>>, i: nat, j: nat, li: nat, lj: nat, mi: nat, mj: nat): seq<seq<char>>
    requires i < |g| && j < |g[i]| && li < |g| && lj < |g[li]| && mi < |g| && mj < |g[mi]|
  {
    var g1 := Grid.Set(g, li, lj, g[i][j]);
    var g2 := Grid.Set(g1, i, j, Empty);
    Grid.Set(g2, mi, mj, Empty)
  }

  /** Over a green frog onto an empty pad, the three writes trade one green frog for one empty pad. */
  lemma JumpGridCells(g: seq<seq<char>>, i: nat, j: nat, li: nat, lj: nat, mi: nat, mj: nat)
    requires i < |g| && j < |g[i]| && li < |g| && lj < |g[li]| && mi < |g| && mj < |g[mi]|
    requires (i, j) != (li, lj) && (i, j) != (mi, mj) && (li, lj) != (mi, mj)
    requires g[li][lj] == Empty && g[mi][mj] == Green
    ensures Grid.Cells(JumpGrid(g, i, j, li, lj, mi, mj)) == Grid.Cells(g) - multiset{Green} + multiset{Empty}
  {
    var f := g[i][j];
    var g1 := Grid.Set(g, li, lj, f);
    var g2 := Grid.Set(g1, i, j, Empty);
    assert Grid.Cells(g2) == Grid.Cells(g) by {
      Grid.CellIsCounted(g, li, lj);
      Grid.CellsOfSet(g, li, lj, f);
      assert g1[i][j] == f;
      Grid.CellsOfSet(g1, i, j, Empty);
      Grid.TradeBack(Grid.Cells(g), Empty, f);
    }
    assert g2[mi][mj] == Green;
    Grid.CellsOfSet(g2, mi, mj, Empty);
  }

  /**
   The direction copy constructor: the landing cell takes the jumper's mark,
   then the jumper's cell and the jumped cell become empty.
   */
  function Jumped(dims: Dims, c: Config, i: int, j: int, d: Dir): Config
    requires Fits(dims, c) && InBounds(dims, i, j) && InBounds(dims, i + Land(d).0, j + Land(d).1)
  {
    OverInBounds(dims, i, j, d);
    Config(JumpGrid(c.grid, i, j, i + Land(d).0, j + Land(d).1, i + Over(d).0, j + Over(d).1))
  }

  /** A jump changes exactly three cells: jumper and jumped cell become empty, the landing cell takes the jumper. */
  lemma JumpedChangesThreeCells(dims: Dims, c: Config, i: int, j: int, d: Dir)
    requires Fits(dims, c) && InBounds(dims, i, j) && InBounds(dims, i + Land(d).0, j + Land(d).1)
    ensures var n := Jumped(dims, c, i, j, d);
      && Fits(dims, n)
      && n.grid[i + Land(d).0][j + Land(d).1] == c.grid[i][j]
      && n.grid[i][j] == Empty
      && n.grid[i + Over(d).0][j + Over(d).1] == Empty
      && forall r, k ::
           (InBounds(dims, r, k) && (r, k) != (i, j) && (r, k) != (i + Land(d).0, j + Land(d).1)
            && (r, k) != (i + Over(d).0, j + Over(d).1)) ==> n.grid[r][k] == c.grid[r][k]
  {
    OverInBounds(dims, i, j, d);
  }

  /** A jump trades one green frog for one empty pad and leaves every other character's count alone. */
  lemma JumpTradesGreenForEmpty(dims: Dims, c: Config, i: int, j: int, d: Dir)
    requires Fits(dims, c) && Move(dims, c, i, j, d)
    ensures Grid.Cells(Jumped(dims, c, i, j, d).grid) == Grid.Cells(c.grid) - multiset{Green} + multiset{Empty}
    ensures Green in Grid.Cells(c.grid)
  {
    var mi: nat, mj: nat := i + Over(d).0, j + Over(d).1;
    assert InBounds(dims, mi, mj) && c.grid[mi][mj] == Green;
    Grid.CellIsCounted(c.grid, mi, mj);
    JumpedTrades(dims, c, i, j, d);
  }

  /** `JumpTradesGreenForEmpty` under the guard alone. */
  lemma JumpedTrades(dims: Dims, c: Config, i: nat, j: nat, d: Dir)
    requires Fits(dims, c) && InBounds(dims, i, j) && CanJump(dims, c, i, j, d)
    ensures Grid.Cells(Jumped(dims, c, i, j, d).grid) == Grid.Cells(c.grid) - multiset{Green} + multiset{Empty}
  {
    OverInBounds(dims, i, j, d);
    var li: nat, lj: nat, mi: nat, mj: nat := i + Land(d).0, j + Land(d).1, i + Over(d).0, j + Over(d).1;
    JumpedGrid(dims, c, i, j, d, li, lj, mi, mj);
    JumpGridCells(c.grid, i, j, li, lj, mi, mj);
  }

  /** `Jumped` is the three writes on the grid, with the three cells named. */
  lemma JumpedGrid(dims: Dims, c: Config, i: nat, j: nat, d: Dir, li: nat, lj: nat, mi: nat, mj: nat)
    requires Fits(dims, c) && InBounds(dims, i, j) && InBounds(dims, i + Land(d).0, j + Land(d).1)
    requires li == i + Land(d).0 && lj == j + Land(d).1 && mi == i + Over(d).0 && mj == j + Over(d).1
    ensures InBounds(dims, mi, mj) && Jumped(dims, c, i, j, d).grid == JumpGrid(c.grid, i, j, li, lj, mi, mj)
  {
    OverInBounds(dims, i, j, d);
  }

  /** The counts of a jump: one green frog fewer, one empty pad more, every other character unchanged. */
  lemma JumpCounts(dims: Dims, c: Config, i: int, j: int, d: Dir)
    requires Fits(dims, c) && Move(dims, c, i, j, d)
    ensures var n := Jumped(dims, c, i, j, d);
      && Grid.Count(n.grid, Green) + 1 == Grid.Count(c.grid, Green)
      && Grid.Count(n.grid, Empty) == Grid.Count(c.grid, Empty) + 1
      && forall x :: x != Green && x != Empty ==> Grid.Count(n.grid, x) == Grid.Count(c.grid, x)
  {
    JumpTradesGreenForEmpty(dims, c, i, j, d);
    Grid.CountsOfTrade(c.grid, Jumped(dims, c, i, j, d).grid, Green, Empty);
  }

  /** The neighbours from the frog at `(i, j)`, one per direction of `dirs` whose guard holds, in order. */
  function JumpsFrom(dims: Dims, c: Config, i: int, j: int, dirs: seq<Dir>): seq<Config>
    requires Fits(dims, c) && InBounds(dims, i, j)
  {
    if dirs == [] then []
    else
      (if CanJump(dims, c, i, j, dirs[0]) then [Jumped(dims, c, i, j, dirs[0])] else [])
      + JumpsFrom(dims, c, i, j, dirs[1..])
  }

  /** The neighbours generated by cell `(i, j)`: none unless it holds a frog. */
  function CellNeighbors(dims: Dims, c: Config, i: int, j: int): seq<Config>
    requires Fits(dims, c) && InBounds(dims, i, j)
  {
    if IsFrog(c.grid[i][j]) then JumpsFrom(dims, c, i, j, DirsFor(i)) else []
  }

  /** The neighbours generated by the cells `j`, `j + 1`, ... of row `i`. */
  function RowNeighbors(dims: Dims, c: Config, i: int, j: nat): seq<Config>
    requires Fits(dims, c) && 0 <= i < dims.rows
    decreases dims.cols - j
  {
    if j >= dims.cols then [] else CellNeighbors(dims, c, i, j) + RowNeighbors(dims, c, i, j + 1)
  }

  /** The neighbours generated by the rows `i`, `i + 1`, ... */
  function RowsNeighbors(dims: Dims, c: Config, i: nat): seq<Config>
    requires Fits(dims, c)
    decreases dims.rows - i
  {
    if i >= dims.rows then [] else RowNeighbors(dims, c, i, 0) + RowsNeighbors(dims, c, i + 1)
  }

  /** `getNeighbors`: the cells in row-major order, and for each frog the directions of its row in order. */
  function Neighbors(dims: Dims, c: Config): seq<Config>
    requires Fits(dims, c)
  {
    RowsNeighbors(dims, c, 0)
  }

  lemma {:induction false} JumpsFromAreMoves(dims: Dims, c: Config, i: int, j: int, dirs: seq<Dir>)
    requires Fits(dims, c) && InBounds(dims, i, j)
    ensures forall n :: n in JumpsFrom(dims, c, i, j, dirs) <==>
      exists d :: d in dirs && CanJump(dims, c, i, j, d) && n == Jumped(dims, c, i, j, d)
  {
    if dirs != [] {
      JumpsFromAreMoves(dims, c, i, j, dirs[1..]);
      assert forall d :: d in dirs <==> d == dirs[0] || d in dirs[1..];
    }
  }

  lemma {:induction false} RowNeighborsAreMoves(dims: Dims, c: Config, i: int, j: nat)
    requires Fits(dims, c) && 0 <= i < dims.rows
    ensures forall n :: n in RowNeighbors(dims, c, i, j) <==>
      exists k, d :: j <= k && Move(dims, c, i, k, d) && n == Jumped(dims, c, i, k, d)
    decreases dims.cols - j
  {
    if j < dims.cols {
      RowNeighborsAreMoves(dims, c, i, j + 1);
      JumpsFromAreMoves(dims, c, i, j, DirsFor(i));
      forall n | n in RowNeighbors(dims, c, i, j)
        ensures exists k, d :: j <= k && Move(dims, c, i, k, d) && n == Jumped(dims, c, i, k, d)
      {
        if n in CellNeighbors(dims, c, i, j) {
          var d :| d in DirsFor(i) && CanJump(dims, c, i, j, d) && n == Jumped(dims, c, i, j, d);
          assert Move(dims, c, i, j, d);
        }
      }
      forall n, k, d | j <= k && Move(dims, c, i, k, d) && n == Jumped(dims, c, i, k, d)
        ensures n in RowNeighbors(dims, c, i, j)
      {
        if k == j {
          assert n in CellNeighbors(dims, c, i, j);
        } else {
          assert n in RowNeighbors(dims, c, i, j + 1);
        }
      }
    }
  }

  /** Every neighbour generated from row `i` on is an allowed jump from such a row. */
  lemma {:induction false} RowsNeighborsAreJumps(dims: Dims, c: Config, i: nat)
    requires Fits(dims, c)
    ensures forall n :: n in RowsNeighbors(dims, c, i) ==>
      exists r, k, d :: i <= r && Move(dims, c, r, k, d) && n == Jumped(dims, c, r, k, d)
    decreases dims.rows - i
  {
    if i < dims.rows {
      RowsNeighborsAreJumps(dims, c, i + 1);
      RowNeighborsAreMoves(dims, c, i, 0);
      forall n | n in RowsNeighbors(dims, c, i)
        ensures exists r, k, d :: i <= r && Move(dims, c, r, k, d) && n == Jumped(dims, c, r, k, d)
      {
        if n in RowNeighbors(dims, c, i, 0) {
          var k, d :| 0 <= k && Move(dims, c, i, k, d) && n == Jumped(dims, c, i, k, d);
        } else {
          assert n in RowsNeighbors(dims, c, i + 1);
        }
      }
    }
  }

  /** Every allowed jump from row `i` on is generated. */
  lemma {:induction false} JumpsAreRowsNeighbors(dims: Dims, c: Config, i: nat)
    requires Fits(dims, c)
    ensures forall r, k, d :: i <= r && Move(dims, c, r, k, d) ==> Jumped(dims, c, r, k, d) in RowsNeighbors(dims, c, i)
    decreases dims.rows - i
  {
    if i < dims.rows {
      JumpsAreRowsNeighbors(dims, c, i + 1);
      RowNeighborsAreMoves(dims, c, i, 0);
      forall r, k, d | i <= r && Move(dims, c, r, k, d)
        ensures Jumped(dims, c, r, k, d) in RowsNeighbors(dims, c, i)
      {
        if r == i {
          assert Jumped(dims, c, r, k, d) in RowNeighbors(dims, c, i, 0);
        } else {
          assert Jumped(dims, c, r, k, d) in RowsNeighbors(dims, c, i + 1);
        }
      }
    }
  }

  lemma RowsNeighborsAreMoves(dims: Dims, c: Config, i: nat)
    requires Fits(dims, c)
    ensures forall n :: n in RowsNeighbors(dims, c, i) <==>
      exists r, k, d :: i <= r && Move(dims, c, r, k, d) && n == Jumped(dims, c, r, k, d)
  {
    RowsNeighborsAreJumps(dims, c, i);
    JumpsAreRowsNeighbors(dims, c, i);
  }

  /** The neighbours are exactly the results of the jumps the rules allow. */
  lemma NeighborsAreMoves(dims: Dims, c: Config)
    requires Fits(dims, c)
    ensures forall n :: n in Neighbors(dims, c) <==>
      exists i, j, d :: Move(dims, c, i, j, d) && n == Jumped(dims, c, i, j, d)
  {
    RowsNeighborsAreMoves(dims, c, 0);
  }

  /** Every allowed jump is among the neighbours. */
  lemma MoveIsNeighbor(dims: Dims, c: Config, i: int, j: int, d: Dir)
    requires Fits(dims, c) && Move(dims, c, i, j, d)
    ensures Jumped(dims, c, i, j, d) in Neighbors(dims, c)
  {
    NeighborsAreMoves(dims, c);
  }

  /** `isSolution`: the nested loop counts no green frog. */
  predicate IsSolution(c: Config) {
    Grid.Count(c.grid, Green) == 0
  }

  /** A configuration is solved exactly when no cell holds a green frog; red frogs do not count. */
  lemma SolvedIffNoGreen(dims: Dims, c: Config)
    requires Fits(dims, c)
    ensures IsSolution(c) <==> forall r, k :: InBounds(dims, r, k) ==> c.grid[r][k] != Green
  {
    Grid.CountZeroIffAbsent(c.grid, Green);
  }

  /**
   `makeMove`: the start cell becomes empty, the end cell takes `frog`, then
   the middle cell becomes empty; no other cell changes.
   */
  function MakeMove(dims: Dims, c: Config, sr: int, sc: int, er: int, ec: int, mr: int, mc: int, frog: char): (n: Config)
    requires Fits(dims, c) && InBounds(dims, sr, sc) && InBounds(dims, er, ec) && InBounds(dims, mr, mc)
    ensures Fits(dims, n)
    ensures n.grid[mr][mc] == Empty
    ensures (er, ec) != (mr, mc) ==> n.grid[er][ec] == frog
    ensures (sr, sc) != (er, ec) && (sr, sc) != (mr, mc) ==> n.grid[sr][sc] == Empty
    ensures forall r, k ::
      (InBounds(dims, r, k) && (r, k) != (sr, sc) && (r, k) != (er, ec) && (r, k) != (mr, mc)) ==> n.grid[r][k] == c.grid[r][k]
  {
    var g1 := Grid.Set(c.grid, sr, sc, Empty);
    var g2 := Grid.Set(g1, er, ec, frog);
    Config(Grid.Set(g2, mr, mc, Empty))
  }

  /** The copy constructor and `makeMove` with the jump's cells and the jumper's mark build the same board. */
  lemma JumpedIsMakeMove(dims: Dims, c: Config, i: int, j: int, d: Dir)
    requires Fits(dims, c) && InBounds(dims, i, j) && InBounds(dims, i + Land(d).0, j + Land(d).1)
    ensures InBounds(dims, i + Over(d).0, j + Over(d).1)
    ensures Jumped(dims, c, i, j, d) ==
      MakeMove(dims, c, i, j, i + Land(d).0, j + Land(d).1, i + Over(d).0, j + Over(d).1, c.grid[i][j])
  {
    OverInBounds(dims, i, j, d);
    Grid.SetsCommute(c.grid, i + Land(d).0, j + Land(d).1, c.grid[i][j], i, j, Empty);
  }

  /** `JumpedIsMakeMove` with the three cells named. */
  lemma JumpedIsMakeMoveAt(dims: Dims, c: Config, i: int, j: int, d: Dir, li: int, lj: int, mi: int, mj: int)
    requires Fits(dims, c) && InBounds(dims, i, j) && InBounds(dims, i + Land(d).0, j + Land(d).1)
    requires (li, lj) == (i + Land(d).0, j + Land(d).1) && (mi, mj) == (i + Over(d).0, j + Over(d).1)
    ensures InBounds(dims, li, lj) && InBounds(dims, mi, mj)
    ensures Jumped(dims, c, i, j, d) == MakeMove(dims, c, i, j, li, lj, mi, mj, c.grid[i][j])
  {
    JumpedIsMakeMove(dims, c, i, j, d);
  }

  /** One row of `toString`: each cell followed by a space. */
  function RowString(row: seq<char>): seq<char> {
    if row == [] then [] else [row[0], ' '] + RowString(row[1..])
  }

  /** `toString`: each row preceded by a newline, and a final newline. */
  function ToString(g: seq<seq<char>>): seq<char> {
    if g == [] then "\n" else "\n" + RowString(g[0]) + ToString(g[1..])
  }

  /** `equals`: two configurations are equal when their `toString` texts are. */
  predicate JavaEquals(a: Config, b: Config) {
    ToString(a.grid) == ToString(b.grid)
  }

  /** The string whose `hashCode` is the configuration's hash code. */
  function HashKey(c: Config): seq<char> {
    ToString(c.grid)
  }

  lemma {:induction false} RowStringCells(row: seq<char>)
    ensures |RowString(row)| == 2 * |row|
    ensures forall k :: 0 <= k < |row| ==> RowString(row)[2 * k] == row[k]
  {
    if row != [] {
      var t := RowString(row[1..]);
      RowStringCells(row[1..]);
      assert RowString(row) == [row[0], ' '] + t;
      forall k | 1 <= k < |row| ensures RowString(row)[2 * k] == row[k] {
        assert ([row[0], ' '] + t)[2 * k] == t[2 * (k - 1)];
        assert row[1..][k - 1] == row[k];
      }
    }
  }

  lemma {:induction false} ToStringInjective(g: seq<seq<char>>, h: seq<seq<char>>, rows: nat, cols: nat)
    requires Grid.Rect(g, rows, cols) && Grid.Rect(h, rows, cols)
    requires ToString(g) == ToString(h)
    ensures g == h
  {
    if rows > 0 {
      RowStringCells(g[0]);
      RowStringCells(h[0]);
      var n := 1 + 2 * cols;
      assert RowString(g[0]) == ToString(g)[1..n];
      assert RowString(h[0]) == ToString(h)[1..n];
      assert ToString(g[1..]) == ToString(g)[n..];
      assert ToString(h[1..]) == ToString(h)[n..];
      ToStringInjective(g[1..], h[1..], rows - 1, cols);
      assert g[0] == h[0] by {
        forall k | 0 <= k < cols ensures g[0][k] == h[0][k] {
          assert RowString(g[0])[2 * k] == RowString(h[0])[2 * k];
        }
      }
      assert g == [g[0]] + g[1..] && h == [h[0]] + h[1..];
    }
  }

  /** Because every cell of a board of the puzzle's size sits at a fixed place in the text, `equals` is value equality. */
  lemma EqualsIsValueEquality(dims: Dims, a: Config, b: Config)
    requires Fits(dims, a) && Fits(dims, b)
    ensures JavaEquals(a, b) <==> a == b
  {
    if JavaEquals(a, b) {
      ToStringInjective(a.grid, b.grid, dims.rows, dims.cols);
    }
  }

  /** `equals` and `hashCode` agree: equal configurations hash the same text. */
  lemma EqualsHashConsistent(a: Config, b: Config)
    requires JavaEquals(a, b)
    ensures HashKey(a) == HashKey(b)
  {
  }

  /** The search's neighbour function: every configuration of one puzzle has the puzzle's size. */
  function Next(dims: Dims): Config -> seq<Config> {
    (c: Config) => if Fits(dims, c) then Neighbors(dims, c) else []
  }

  function Goal(): Config -> bool {
    (c: Config) => IsSolution(c)
  }

  /** Every neighbour fits the board and holds the parent's cells with one green frog traded for an empty pad. */
  lemma NeighborStep(dims: Dims, a: Config, b: Config)
    requires Fits(dims, a) && b in Neighbors(dims, a)
    ensures Fits(dims, b)
    ensures Grid.Cells(b.grid) == Grid.Cells(a.grid) - multiset{Green} + multiset{Empty}
    ensures Green in Grid.Cells(a.grid)
  {
    NeighborsAreMoves(dims, a);
    var i, j, d :| Move(dims, a, i, j, d) && b == Jumped(dims, a, i, j, d);
    JumpedChangesThreeCells(dims, a, i, j, d);
    JumpTradesGreenForEmpty(dims, a, i, j, d);
  }

  /** Along any walk each step removes exactly one green frog. */
  lemma {:induction false} WalkLosesOneGreenPerStep(dims: Dims, q: seq<Config>)
    requires Solver.Walk(Next(dims), q) && Fits(dims, q[0])
    ensures forall k :: 0 <= k < |q| ==> Fits(dims, q[k]) && Grid.Count(q[k].grid, Green) + k == Grid.Count(q[0].grid, Green)
  {
    if |q| > 1 {
      var p := q[..|q| - 1];
      assert Solver.Walk(Next(dims), p);
      WalkLosesOneGreenPerStep(dims, p);
      var a, b := q[|q| - 2], q[|q| - 1];
      assert a == p[|p| - 1] && Fits(dims, a);
      assert b in Neighbors(dims, a);
      NeighborStep(dims, a, b);
      Grid.CountsOfTrade(a.grid, b.grid, Green, Empty);
      forall k | 0 <= k < |q|
        ensures Fits(dims, q[k]) && Grid.Count(q[k].grid, Green) + k == Grid.Count(q[0].grid, Green)
      {
        if k < |p| {
          assert q[k] == p[k];
        }
      }
    }
  }

  /** No walk is longer than the number of green frogs at its start plus one. */
  lemma WalkLength(dims: Dims, q: seq<Config>)
    requires Solver.Walk(Next(dims), q) && Fits(dims, q[0])
    ensures |q| <= Grid.Count(q[0].grid, Green) + 1
  {
    WalkLosesOneGreenPerStep(dims, q);
    assert Grid.Count(q[|q| - 1].grid, Green) + |q| - 1 == Grid.Count(q[0].grid, Green);
  }

  /** The boards of the puzzle's size whose cells come from `start` or are empty: closed under the neighbour function. */
  lemma Universe(dims: Dims, start: Config) returns (u: set<Config>)
    requires Fits(dims, start)
    ensures start in u && Solver.Closed(Next(dims), u)
  {
    var alpha := (set x | x in Grid.Cells(start.grid)) + {Empty};
    var boards := Grid.Boards(alpha, dims.rows, dims.cols);
    u := set g | g in boards :: Config(g);
    assert start.grid in boards by {
      forall r, k | 0 <= r < |start.grid| && 0 <= k < |start.grid[r]| ensures start.grid[r][k] in alpha {
        Grid.CellIsCounted(start.grid, r, k);
      }
    }
    forall a, b | a in u && b in Next(dims)(a)
      ensures b in u
    {
      assert a.grid in boards;
      NeighborStep(dims, a, b);
      Grid.TradeKeepsAllIn(a.grid, b.grid, Green, Empty, alpha);
      assert b.grid in boards;
    }
  }

  /**
   The solver run on a Hoppers configuration: a shortest solution when one
   exists, and never longer than the number of green frogs plus one.
   */
  method Solve(dims: Dims, start: Config, counters: Solver.Counters)
    returns (path: Option<seq<Config>>, counters': Solver.Counters)
    requires Fits(dims, start)
    ensures path.Some? ==> Solver.Shortest(Next(dims), Goal(), path.value) && path.value[0] == start
    ensures path.Some? ==> |path.value| <= Grid.Count(start.grid, Green) + 1
    ensures path.None? ==> Solver.Unsolvable(Next(dims), Goal(), start)
    ensures IsSolution(start) ==> path == Some([start])
    ensures counters'.unique - counters.unique <= counters'.total - counters.total
  {
    ghost var u := Universe(dims, start);
    ghost var visited;
    path, counters', visited := Solver.Solve(start, Next(dims), Goal(), counters, u);
    if path.Some? {
      WalkLength(dims, path.value);
    }
  }
}

=== FILE: hoppers_model.dfy ===
/**
 The Hoppers model behind the text and graphical front ends: the current
 configuration, a pending selection made by a first click, and the
 operations `select` (two clicks make a move) and `hint` (one step along a
 shortest solution). Observer notifications become a `Message` tag.
 */
module HoppersModel {
  import opened Wrappers
  import Solver
  import Grid
  import HoppersConfig

  type Config = HoppersConfig.Config
  type Dims = HoppersConfig.Dims

  /** `averageRow` and `averageCol`: Java's `(s + e) / 2`, whose division truncates toward zero. */
  function Average(s: int, e: int): int {
    var sum := s + e;
    if sum >= 0 then sum / 2 else -((-sum) / 2)
  }

  /** When the two ends are an even distance apart, the average is their exact midpoint. */
  lemma AverageIsMidpoint(s: int, e: int)
    requires (e - s) % 2 == 0
    ensures 2 * Average(s, e) == s + e
    ensures s <= e ==> s <= Average(s, e) <= e
    ensures e <= s ==> e <= Average(s, e) <= s
  {
  }

  /** The average of two cells of one line lies on that line. */
  lemma AverageInRange(s: int, e: int, n: int)
    requires 0 <= s < n && 0 <= e < n
    ensures 0 <= Average(s, e) < n
  {
  }

  /** The displacements `isValid` accepts from an even row: the four diagonal jumps and the four straight ones. */
  predicate EvenDisplacement(dr: int, dc: int) {
    || (dr == 2 && dc == 2)
    || (dr == 2 && dc == -2)
    || (dr == -2 && dc == -2)
    || (dr == -2 && dc == 2)
    || (dr == 4 && dc == 0)
    || (dr == -4 && dc == 0)
    || (dr == 0 && dc == -4)
    || (dr == 0 && dc == 4)
  }

  /** The displacements `isValid` accepts from an odd row: the diagonal jumps only. */
  predicate OddDisplacement(dr: int, dc: int) {
    || (dr == 2 && dc == 2)
    || (dr == 2 && dc == -2)
    || (dr == -2 && dc == -2)
    || (dr == -2 && dc == 2)
  }

  /**
   `isValid` for a selected cell `(sr, sc)` and a clicked cell `(er, ec)`:
   a frog at the start, an empty pad at the end, a green frog at the average
   cell, and a displacement allowed from the start row.
   */
  predicate IsValid(dims: Dims, c: Config, sr: int, sc: int, er: int, ec: int)
    requires HoppersConfig.Fits(dims, c)
    requires HoppersConfig.InBounds(dims, sr, sc) && HoppersConfig.InBounds(dims, er, ec)
  {
    var g := c.grid;
    && HoppersConfig.IsFrog(g[sr][sc])
    && g[er][ec] == HoppersConfig.Empty
    && (AverageInRange(sr, er, dims.rows); AverageInRange(sc, ec, dims.cols);
        g[Average(sr, er)][Average(sc, ec)] == HoppersConfig.Green)
    && sr >= 0 && er <= dims.rows && sc >= 0 && ec <= dims.cols
    && if sr % 2 == 0 then EvenDisplacement(er - sr, ec - sc) else OddDisplacement(er - sr, ec - sc)
  }

  /** The direction whose landing offset is an accepted displacement. */
  function Toward(dr: int, dc: int): (d: HoppersConfig.Dir)
    requires EvenDisplacement(dr, dc)
    ensures HoppersConfig.Land(d) == (dr, dc)
    ensures OddDisplacement(dr, dc) ==> HoppersConfig.IsDiagonal(d)
  {
    if dr == 2 && dc == 2 then HoppersConfig.DownRight
    else if dr == 2 && dc == -2 then HoppersConfig.DownLeft
    else if dr == -2 && dc == -2 then HoppersConfig.UpLeft
    else if dr == -2 && dc == 2 then HoppersConfig.UpRight
    else if dr == 4 then HoppersConfig.Down
    else if dr == -4 then HoppersConfig.Up
    else if dc == -4 then HoppersConfig.Left
    else HoppersConfig.Right
  }

  /** Every direction's landing offset is accepted from an even row, and a diagonal one from any row. */
  lemma LandIsDisplacement(d: HoppersConfig.Dir)
    ensures EvenDisplacement(HoppersConfig.Land(d).0, HoppersConfig.Land(d).1)
    ensures HoppersConfig.IsDiagonal(d) <==> OddDisplacement(HoppersConfig.Land(d).0, HoppersConfig.Land(d).1)
  {
  }

  /** A move `isValid` accepts is a jump `getNeighbors` generates, over the average cell. */
  lemma ValidGivesJump(dims: Dims, c: Config, sr: int, sc: int, er: int, ec: int) returns (d: HoppersConfig.Dir)
    requires HoppersConfig.Fits(dims, c)
    requires HoppersConfig.InBounds(dims, sr, sc) && HoppersConfig.InBounds(dims, er, ec)
    requires IsValid(dims, c, sr, sc, er, ec)
    ensures HoppersConfig.Move(dims, c, sr, sc, d)
    ensures (sr + HoppersConfig.Land(d).0, sc + HoppersConfig.Land(d).1) == (er, ec)
    ensures (sr + HoppersConfig.Over(d).0, sc + HoppersConfig.Over(d).1) == (Average(sr, er), Average(sc, ec))
  {
    d := Toward(er - sr, ec - sc);
    HoppersConfig.OverIsHalfway(d);
    HoppersConfig.DirsForRowParity(sr, d);
    AverageOfStep(sr, HoppersConfig.Over(d).0);
    AverageOfStep(sc, HoppersConfig.Over(d).1);
  }

  /** Two steps of `h` from `s` average to one step. */
  lemma AverageOfStep(s: int, h: int)
    ensures Average(s, s + 2 * h) == s + h
  {
  }

  /** A jump `getNeighbors` generates is a move `isValid` accepts. */
  lemma JumpIsValid(dims: Dims, c: Config, sr: int, sc: int, d: HoppersConfig.Dir)
    requires HoppersConfig.Fits(dims, c) && HoppersConfig.Move(dims, c, sr, sc, d)
    ensures IsValid(dims, c, sr, sc, sr + HoppersConfig.Land(d).0, sc + HoppersConfig.Land(d).1)
  {
    HoppersConfig.OverIsHalfway(d);
    HoppersConfig.DirsForRowParity(sr, d);
    LandIsDisplacement(d);
    AverageIsMidpoint(sr, sr + HoppersConfig.Land(d).0);
    AverageIsMidpoint(sc, sc + HoppersConfig.Land(d).1);
  }

  /** For cells on the board, `isValid` accepts exactly the jumps `getNeighbors` generates. */
  lemma ValidIffJump(dims: Dims, c: Config, sr: int, sc: int, er: int, ec: int)
    requires HoppersConfig.Fits(dims, c)
    requires HoppersConfig.InBounds(dims, sr, sc) && HoppersConfig.InBounds(dims, er, ec)
    ensures IsValid(dims, c, sr, sc, er, ec) <==>
      exists d :: HoppersConfig.Move(dims, c, sr, sc, d) && (sr + HoppersConfig.Land(d).0, sc + HoppersConfig.Land(d).1) == (er, ec)
  {
    if IsValid(dims, c, sr, sc, er, ec) {
      var d := ValidGivesJump(dims, c, sr, sc, er, ec);
    }
    forall d | HoppersConfig.Move(dims, c, sr, sc, d) && (sr + HoppersConfig.Land(d).0, sc + HoppersConfig.Land(d).1) == (er, ec)
      ensures IsValid(dims, c, sr, sc, er, ec)
    {
      JumpIsValid(dims, c, sr, sc, d);
    }
  }

  /** The tag of the notification each operation sends to the observers. */
  datatype Message =
    | NoFrog            // "No frog at (r, c)"
    | Selected          // "Selected (r, c)"
    | JumpedTo          // "Jumped from (sr, sc) to (er, ec)"
    | CannotJump        // "Cannot jump from (sr, sc) to (er, ec)"
    | InvalidPosition   // "Invalid Position!!!"
    | AlreadySolved     // "Already Solved!!!"
    | NextStep          // "Next step!"
    | NoSolution        // "No solution!!!"

  /**
   The model's `makeMove`: a valid move is applied with the configuration's
   `makeMove`, using the averages as the jumped cell; otherwise nothing changes.
   */
  function MakeMove(dims: Dims, c: Config, sr: int, sc: int, er: int, ec: int): (Config, Message)
    requires HoppersConfig.Fits(dims, c)
    requires HoppersConfig.InBounds(dims, sr, sc) && HoppersConfig.InBounds(dims, er, ec)
  {
    if IsValid(dims, c, sr, sc, er, ec) then
      AverageInRange(sr, er, dims.rows);
      AverageInRange(sc, ec, dims.cols);
      (HoppersConfig.MakeMove(dims, c, sr, sc, er, ec, Average(sr, er), Average(sc, ec), c.grid[sr][sc]), JumpedTo)
    else (c, CannotJump)
  }

  /** A valid move applies the jump `getNeighbors` would generate for it. */
  lemma ValidMoveIsJumped(dims: Dims, c: Config, sr: int, sc: int, er: int, ec: int) returns (d: HoppersConfig.Dir)
    requires HoppersConfig.Fits(dims, c)
    requires HoppersConfig.InBounds(dims, sr, sc) && HoppersConfig.InBounds(dims, er, ec)
    requires IsValid(dims, c, sr, sc, er, ec)
    ensures HoppersConfig.Move(dims, c, sr, sc, d)
    ensures MakeMove(dims, c, sr, sc, er, ec) == (HoppersConfig.Jumped(dims, c, sr, sc, d), JumpedTo)
  {
    d := ValidGivesJump(dims, c, sr, sc, er, ec);
    HoppersConfig.JumpedIsMakeMoveAt(dims, c, sr, sc, d, er, ec, Average(sr, er), Average(sc, ec));
  }

  /** A valid move gives one of the configuration's neighbours, one green frog fewer; an invalid one changes nothing. */
  lemma MakeMoveIsNeighbor(dims: Dims, c: Config, sr: int, sc: int, er: int, ec: int)
    requires HoppersConfig.Fits(dims, c)
    requires HoppersConfig.InBounds(dims, sr, sc) && HoppersConfig.InBounds(dims, er, ec)
    ensures var (n, msg) := MakeMove(dims, c, sr, sc, er, ec);
      && (IsValid(dims, c, sr, sc, er, ec) ==>
            && msg == JumpedTo
            && n in HoppersConfig.Neighbors(dims, c)
            && Grid.Count(n.grid, HoppersConfig.Green) + 1 == Grid.Count(c.grid, HoppersConfig.Green))
      && (!IsValid(dims, c, sr, sc, er, ec) ==> n == c && msg == CannotJump)
  {
    if IsValid(dims, c, sr, sc, er, ec) {
      var d := ValidMoveIsJumped(dims, c, sr, sc, er, ec);
      HoppersConfig.MoveIsNeighbor(dims, c, sr, sc, d);
      HoppersConfig.JumpCounts(dims, c, sr, sc, d);
    }
  }

  /** The model's state: the current configuration and the cell chosen by a first click, `(-1, -1)` when none. */
  datatype Model = Model(config: Config, startRow: int, startCol: int)

  /** The configuration fits the board, and the selection is either empty or a cell of the board. */
  predicate Inv(dims: Dims, m: Model) {
    && HoppersConfig.Fits(dims, m.config)
    && ((m.startRow == -1 && m.startCol == -1) || HoppersConfig.InBounds(dims, m.startRow, m.startCol))
  }

  /** `select` with the bounds test the board needs: a click off the board is reported and changes nothing. */
  function Select(dims: Dims, m: Model, r: int, k: int): (Model, Message)
    requires Inv(dims, m)
  {
    if 0 <= r < dims.rows && 0 <= k < dims.cols then
      if m.startRow == -1 then
        if !HoppersConfig.IsFrog(m.config.grid[r][k]) then (m, NoFrog)
        else (Model(m.config, r, k), Selected)
      else
        var (c', msg) := MakeMove(dims, m.config, m.startRow, m.startCol, r, k);
        (Model(c', -1, -1), msg)
    else (m, InvalidPosition)
  }

  /**
   The two-click cycle: a first click on a frog selects it and a first click
   elsewhere changes nothing; a second click always clears the selection and
   moves only when `isValid` holds; a click off the board changes nothing.
   */
  lemma SelectCycle(dims: Dims, m: Model, r: int, k: int)
    requires Inv(dims, m)
    ensures var (m', msg) := Select(dims, m, r, k);
      && Inv(dims, m')
      && (!HoppersConfig.InBounds(dims, r, k) ==> m' == m && msg == InvalidPosition)
      && (HoppersConfig.InBounds(dims, r, k) && m.startRow == -1 ==>
            && m'.config == m.config
            && (HoppersConfig.IsFrog(m.config.grid[r][k]) <==> (m'.startRow, m'.startCol) == (r, k))
            && (!HoppersConfig.IsFrog(m.config.grid[r][k]) <==> m' == m))
      && (HoppersConfig.InBounds(dims, r, k) && m.startRow != -1 ==>
            && (m'.startRow, m'.startCol) == (-1, -1)
            && (IsValid(dims, m.config, m.startRow, m.startCol, r, k) ==> m'.config in HoppersConfig.Neighbors(dims, m.config))
            && (!IsValid(dims, m.config, m.startRow, m.startCol, r, k) ==> m'.config == m.config))
  {
    if HoppersConfig.InBounds(dims, r, k) && m.startRow != -1 {
      MakeMoveIsNeighbor(dims, m.config, m.startRow, m.startCol, r, k);
      var n := Select(dims, m, r, k).0.config;
      if IsValid(dims, m.config, m.startRow, m.startCol, r, k) {
        HoppersConfig.NeighborsAreMoves(dims, m.config);
        var i, j, d :| HoppersConfig.Move(dims, m.config, i, j, d) && n == HoppersConfig.Jumped(dims, m.config, i, j, d);
        HoppersConfig.JumpedChangesThreeCells(dims, m.config, i, j, d);
      }
    }
  }

  /** What `select` as written does: either a new model and message, or an `ArrayIndexOutOfBoundsException`. */
  datatype Outcome = Done(model: Model, msg: Message) | IndexOutOfBounds

  /**
   `select` as written: its bounds test admits `r == rows` and `c == cols`.
   Such a click fails when the grid is read there: on a first click at once,
   and on a second click when `isValid` reads past its first test, which
   happens when the selected cell still holds a frog.
   */
  function SelectAsWritten(dims: Dims, m: Model, r: int, k: int): Outcome
    requires Inv(dims, m)
  {
    if 0 <= r <= dims.rows && 0 <= k <= dims.cols then
      if m.startRow == -1 then
        if !HoppersConfig.InBounds(dims, r, k) then IndexOutOfBounds
        else if !HoppersConfig.IsFrog(m.config.grid[r][k]) then Done(m, NoFrog)
        else Done(Model(m.config, r, k), Selected)
      else if !HoppersConfig.InBounds(dims, r, k) then
        if HoppersConfig.IsFrog(m.config.grid[m.startRow][m.startCol]) then IndexOutOfBounds
        else Done(Model(m.config, -1, -1), CannotJump)
      else
        var (c', msg) := MakeMove(dims, m.config, m.startRow, m.startCol, r, k);
        Done(Model(c', -1, -1), msg)
    else Done(m, InvalidPosition)
  }

  /** A first click one row past the board makes `select` as written fail. */
  lemma SelectAsWrittenFailsPastLastRow(dims: Dims, m: Model, k: int)
    requires Inv(dims, m) && m.startRow == -1 && 0 <= k <= dims.cols
    ensures SelectAsWritten(dims, m, dims.rows, k) == IndexOutOfBounds
  {
  }

  /**
   `select` as written fails exactly on the clicks in its widened range that
   are off the board, when the grid is read there; on every other click it
   agrees with the corrected `Select`.
   */
  lemma SelectAsWrittenAgrees(dims: Dims, m: Model, r: int, k: int)
    requires Inv(dims, m)
    ensures SelectAsWritten(dims, m, r, k) == IndexOutOfBounds <==>
      && 0 <= r <= dims.rows && 0 <= k <= dims.cols && !HoppersConfig.InBounds(dims, r, k)
      && (m.startRow == -1 || HoppersConfig.IsFrog(m.config.grid[m.startRow][m.startCol]))
    ensures SelectAsWritten(dims, m, r, k).Done? && HoppersConfig.InBounds(dims, r, k) ==>
      SelectAsWritten(dims, m, r, k) == Done(Select(dims, m, r, k).0, Select(dims, m, r, k).1)
    ensures !(0 <= r <= dims.rows && 0 <= k <= dims.cols) ==> SelectAsWritten(dims, m, r, k) == Done(m, InvalidPosition)
  {
  }

  /**
   `select` as written never records a selection off the board: a click in
   its widened range reads the grid before storing anything, so whenever it
   completes the model's invariant still holds.
   */
  lemma SelectAsWrittenKeepsInv(dims: Dims, m: Model, r: int, k: int)
    requires Inv(dims, m)
    ensures SelectAsWritten(dims, m, r, k).Done? ==> Inv(dims, SelectAsWritten(dims, m, r, k).model)
  {
  }

  /**
   `hint`: a solved configuration is left alone; otherwise the configuration
   becomes the second state of the solver's path, one step along a shortest
   solution, or stays when there is no solution. The selection is kept.
   */
  method Hint(dims: Dims, m: Model, counters: Solver.Counters)
    returns (m': Model, msg: Message, counters': Solver.Counters, ghost rest: seq<Config>)
    requires Inv(dims, m)
    ensures Inv(dims, m') && m'.startRow == m.startRow && m'.startCol == m.startCol
    ensures msg in {AlreadySolved, NoSolution, NextStep}
    ensures HoppersConfig.IsSolution(m.config) <==> msg == AlreadySolved
    ensures msg != NextStep ==> m' == m
    ensures msg == NoSolution ==> Solver.Unsolvable(HoppersConfig.Next(dims), HoppersConfig.Goal(), m.config)
    ensures msg == NextStep ==>
      && m'.config in HoppersConfig.Neighbors(dims, m.config)
      && Grid.Count(m'.config.grid, HoppersConfig.Green) + 1 == Grid.Count(m.config.grid, HoppersConfig.Green)
    ensures msg == NextStep ==>
      && Solver.Shortest(HoppersConfig.Next(dims), HoppersConfig.Goal(), [m.config] + rest)
      && Solver.Shortest(HoppersConfig.Next(dims), HoppersConfig.Goal(), rest)
      && rest[0] == m'.config
    ensures counters'.unique - counters.unique <= counters'.total - counters.total
  {
    rest := [];
    counters' := counters;
    if HoppersConfig.IsSolution(m.config) {
      m', msg := m, AlreadySolved;
      return;
    }
    var path;
    path, counters' := HoppersConfig.Solve(dims, m.config, counters);
    if path.None? {
      m', msg := m, NoSolution;
      return;
    }
    var p := path.value;
    assert |p| >= 2 by {
      assert HoppersConfig.Goal()(Solver.Last(p));
    }
    Solver.ShortestSuffix(HoppersConfig.Next(dims), HoppersConfig.Goal(), p);
    assert p[1] in HoppersConfig.Neighbors(dims, m.config) by {
      assert p[1] in HoppersConfig.Next(dims)(p[0]);
    }
    HoppersConfig.NeighborStep(dims, m.config, p[1]);
    Grid.CountsOfTrade(m.config.grid, p[1].grid, HoppersConfig.Green, HoppersConfig.Empty);
    rest := p[1..];
    assert p == [m.config] + rest;
    m', msg := Model(p[1], m.startRow, m.startCol), NextStep;
  }
}

=== FILE: slide_config.dfy ===
/**
 The sliding-tile puzzle: a `rows` by `cols` board of numbered tiles with one
 blank cell, stored as the value 0. A move slides a tile that is orthogonally
 adjacent to the blank into it. A configuration also records where it
 believes the blank is (`emptyRow`, `emptyCol`).

 The Java class keeps the board size in static fields; here it is a `Dims`
 passed to every operation that reads it. The Java `getNeighbors` mutates its
 receiver while it works and puts the cells back afterwards; the model
 returns the receiver's grid afterwards as a second result.
 */
module SlideConfig {
  import opened Wrappers
  import Solver
  import Grid

  /** The value `EMPTY` stored in the blank cell. */
  const Blank: int := 0

  datatype Dims = Dims(rows: nat, cols: nat)

  datatype Config = Config(grid: seq<seq<int>>, emptyRow: int, emptyCol: int)

  predicate InBounds(dims: Dims, r: int, k: int) {
    Grid.InBounds(dims.rows, dims.cols, r, k)
  }

  /** The grid has the board's shape and the recorded blank position is on the board. */
  predicate Fits(dims: Dims, c: Config) {
    Grid.Rect(c.grid, dims.rows, dims.cols) && InBounds(dims, c.emptyRow, c.emptyCol)
  }

  /** A proper puzzle: the recorded position holds the one and only blank. */
  ghost predicate WellFormed(dims: Dims, c: Config) {
    Fits(dims, c) && c.grid[c.emptyRow][c.emptyCol] == Blank && Grid.UniqueCell(c.grid, Blank)
  }

  /** Orthogonal neighbours: one step up, down, left or right. */
  predicate Adjacent(r1: int, k1: int, r2: int, k2: int) {
    (r1 == r2 && (k1 - k2 == 1 || k2 - k1 == 1)) || (k1 == k2 && (r1 - r2 == 1 || r2 - r1 == 1))
  }

  /** The configuration after the tile at `(r, k)` slides into the recorded blank position. */
  function Slide(dims: Dims, c: Config, r: nat, k: nat): Config
    requires Fits(dims, c) && InBounds(dims, r, k)
  {
    Config(Grid.Swap(c.grid, c.emptyRow, c.emptyCol, r, k), r, k)
  }

  /**
   One of the four `if` blocks of `getNeighbors`: the offset of the tile it
   moves, whether its guard holds, and whether it restores the blank position
   with the value it held before (the right-hand block) rather than with `EMPTY`.
   */
  datatype Side = Side(dr: int, dc: int, taken: bool, keepsFill: bool)

  /** The four blocks in source order: up, down, left, right. */
  function Sides(dims: Dims, c: Config): seq<Side> {
    [ Side(-1, 0, c.emptyRow - 1 >= 0, false),
      Side(1, 0, c.emptyRow + 1 < dims.rows, false),
      Side(0, -1, c.emptyCol - 1 >= 0, false),
      Side(0, 1, c.emptyCol + 1 < dims.cols, true) ]
  }

  /** Every block moves a tile other than the blank, and a block whose guard holds moves a tile on the board. */
  predicate SidesFit(dims: Dims, er: int, ec: int, sides: seq<Side>) {
    forall i :: 0 <= i < |sides| ==>
      (sides[i].dr, sides[i].dc) != (0, 0) && (sides[i].taken ==> InBounds(dims, er + sides[i].dr, ec + sides[i].dc))
  }

  /** The slides of the tiles the blocks whose guard holds would move. */
  function SlidesAlong(dims: Dims, c: Config, sides: seq<Side>): seq<Config>
    requires Fits(dims, c) && SidesFit(dims, c.emptyRow, c.emptyCol, sides)
  {
    if sides == [] then []
    else
      var s := sides[0];
      (if s.taken then [Slide(dims, c, c.emptyRow + s.dr, c.emptyCol + s.dc)] else [])
      + SlidesAlong(dims, c, sides[1..])
  }

  /**
   The one-slide neighbours in the order `getNeighbors` produces them: the
   tile above, below, left of and right of the recorded blank position, each
   when it is on the board.
   */
  function Neighbors(dims: Dims, c: Config): seq<Config>
    requires Fits(dims, c)
  {
    SlidesAlong(dims, c, Sides(dims, c))
  }

  /** The slides along `sides` are at most one per block, each the slide of the tile a block whose guard holds moves. */
  lemma {:induction false} SlideOfMember(dims: Dims, c: Config, sides: seq<Side>, n: Config) returns (i: nat)
    requires Fits(dims, c) && SidesFit(dims, c.emptyRow, c.emptyCol, sides) && n in SlidesAlong(dims, c, sides)
    ensures i < |sides| && sides[i].taken && n == Slide(dims, c, c.emptyRow + sides[i].dr, c.emptyCol + sides[i].dc)
    decreases |sides|
  {
    var s := sides[0];
    if s.taken && n == Slide(dims, c, c.emptyRow + s.dr, c.emptyCol + s.dc) {
      i := 0;
    } else {
      var j := SlideOfMember(dims, c, sides[1..], n);
      i := j + 1;
    }
  }

  /** Every block whose guard holds contributes the slide of its tile. */
  lemma {:induction false} MemberOfSlides(dims: Dims, c: Config, sides: seq<Side>, i: nat)
    requires Fits(dims, c) && SidesFit(dims, c.emptyRow, c.emptyCol, sides) && i < |sides| && sides[i].taken
    ensures InBounds(dims, c.emptyRow + sides[i].dr, c.emptyCol + sides[i].dc)
    ensures Slide(dims, c, c.emptyRow + sides[i].dr, c.emptyCol + sides[i].dc) in SlidesAlong(dims, c, sides)
    ensures |SlidesAlong(dims, c, sides)| <= |sides|
    decreases |sides|
  {
    if i > 0 {
      MemberOfSlides(dims, c, sides[1..], i - 1);
    }
    SlidesBound(dims, c, sides);
  }

  lemma {:induction false} SlidesBound(dims: Dims, c: Config, sides: seq<Side>)
    requires Fits(dims, c) && SidesFit(dims, c.emptyRow, c.emptyCol, sides)
    ensures |SlidesAlong(dims, c, sides)| <= |sides|
    decreases |sides|
  {
    if sides != [] {
      SlidesBound(dims, c, sides[1..]);
    }
  }

  /** Every neighbour is the slide of a tile next to the blank. */
  lemma NeighborIsSlide(dims: Dims, c: Config, n: Config) returns (r: nat, k: nat)
    requires Fits(dims, c) && n in Neighbors(dims, c)
    ensures InBounds(dims, r, k) && Adjacent(c.emptyRow, c.emptyCol, r, k) && n == Slide(dims, c, r, k)
  {
    var ss := Sides(dims, c);
    var i := SlideOfMember(dims, c, ss, n);
    r, k := c.emptyRow + ss[i].dr, c.emptyCol + ss[i].dc;
  }

  /** The slide of every tile next to the blank is a neighbour. */
  lemma SlideIsNeighbor(dims: Dims, c: Config, r: nat, k: nat)
    requires Fits(dims, c) && InBounds(dims, r, k) && Adjacent(c.emptyRow, c.emptyCol, r, k)
    ensures Slide(dims, c, r, k) in Neighbors(dims, c)
  {
    var ss := Sides(dims, c);
    var i :=
      if r == c.emptyRow - 1 then 0
      else if r == c.emptyRow + 1 then 1
      else if k == c.emptyCol - 1 then 2
      else 3;
    MemberOfSlides(dims, c, ss, i);
  }

  /** There are at most four neighbours, and they are exactly the slides of the tiles next to the blank. */
  lemma NeighborsAreSlides(dims: Dims, c: Config)
    requires Fits(dims, c)
    ensures |Neighbors(dims, c)| <= 4
    ensures forall n :: n in Neighbors(dims, c) <==>
      exists r, k :: InBounds(dims, r, k) && Adjacent(c.emptyRow, c.emptyCol, r, k) && n == Slide(dims, c, r, k)
  {
    SlidesBound(dims, c, Sides(dims, c));
    forall n | n in Neighbors(dims, c)
      ensures exists r, k :: InBounds(dims, r, k) && Adjacent(c.emptyRow, c.emptyCol, r, k) && n == Slide(dims, c, r, k)
    {
      var r, k := NeighborIsSlide(dims, c, n);
    }
    forall r, k | InBounds(dims, r, k) && Adjacent(c.emptyRow, c.emptyCol, r, k)
      ensures Slide(dims, c, r, k) in Neighbors(dims, c)
    {
      SlideIsNeighbor(dims, c, r, k);
    }
  }

  /**
   The slide of an adjacent tile into the proper blank: the two cells trade
   places and nothing else changes, the tiles are the same, and the result is
   a proper puzzle again.
   */
  lemma SlideStep(dims: Dims, c: Config, r: nat, k: nat)
    requires WellFormed(dims, c) && InBounds(dims, r, k) && Adjacent(c.emptyRow, c.emptyCol, r, k)
    ensures var n := Slide(dims, c, r, k);
      && WellFormed(dims, n)
      && n.emptyRow == r && n.emptyCol == k
      && n.grid[r][k] == Blank && n.grid[c.emptyRow][c.emptyCol] == c.grid[r][k]
      && (forall i, j :: InBounds(dims, i, j) && (i, j) != (r, k) && (i, j) != (c.emptyRow, c.emptyCol) ==>
            n.grid[i][j] == c.grid[i][j])
      && Grid.Cells(n.grid) == Grid.Cells(c.grid)
  {
    var er: nat, ec: nat := c.emptyRow, c.emptyCol;
    var h := Grid.Swap(c.grid, er, ec, r, k);
    Grid.SwapCells(c.grid, er, ec, r, k);
    Grid.CellsOfSwap(c.grid, er, ec, r, k);
    assert Grid.Rect(h, dims.rows, dims.cols);
  }

  /** Sliding the tile back into the position the blank came from restores the configuration. */
  lemma SlideBack(dims: Dims, c: Config, r: nat, k: nat)
    requires Fits(dims, c) && InBounds(dims, r, k)
    ensures var n := Slide(dims, c, r, k);
      Fits(dims, n) && Slide(dims, n, c.emptyRow, c.emptyCol) == c
  {
    var er: nat, ec: nat := c.emptyRow, c.emptyCol;
    var h := Grid.Swap(c.grid, er, ec, r, k);
    Grid.SwapCells(c.grid, er, ec, r, k);
    assert Grid.Rect(h, dims.rows, dims.cols);
    Grid.SwapInvolution(c.grid, er, ec, r, k);
    Grid.SwapInvolution(h, er, ec, r, k);
    assert Grid.Swap(h, r, k, er, ec) == c.grid;
  }

  /**
   One branch of `getNeighbors`: the tile at `(r, k)` is written into the
   recorded blank position `(er, ec)` and `fill` into `(r, k)`; the child is a
   copy of the grid at that point; then `(r, k)` gets its tile back and
   `(er, ec)` gets `fill`. The result is the child's grid and the receiver's
   grid afterwards. The up, down and left branches fill with `EMPTY`, the
   right branch with the value the blank position held.
   */
  function Branch(g: seq<seq<int>>, er: nat, ec: nat, r: nat, k: nat, fill: int): (seq<seq<int>>, seq<seq<int>>)
    requires er < |g| && ec < |g[er]| && r < |g| && k < |g[r]|
  {
    var tile := g[r][k];
    var g1 := g[r := g[r][k := fill]];
    var child := g1[er := g1[er][ec := tile]];
    var g3 := child[r := child[r][k := tile]];
    (child, g3[er := g3[er][ec := fill]])
  }

  /** A branch that fills with the blank position's own value makes the child a swap and puts the receiver back as it was. */
  lemma BranchRestores(g: seq<seq<int>>, er: nat, ec: nat, r: nat, k: nat)
    requires er < |g| && ec < |g[er]| && r < |g| && k < |g[r]| && (er, ec) != (r, k)
    ensures Branch(g, er, ec, r, k, g[er][ec]) == (Grid.Swap(g, er, ec, r, k), g)
  {
    var res := Branch(g, er, ec, r, k, g[er][ec]);
    var s := Grid.Swap(g, er, ec, r, k);
    Grid.SameShapeCells(res.0, s);
    Grid.SameShapeCells(res.1, g);
  }

  /**
   A branch that runs when `taken` holds: its child in a one-element list (or
   none), and the receiver's grid afterwards.
   */
  function Attempt(g: seq<seq<int>>, er: nat, ec: nat, r: int, k: int, taken: bool, fill: int)
    : (res: (seq<Config>, seq<seq<int>>))
    requires er < |g| && ec < |g[er]| && (taken ==> 0 <= r < |g| && 0 <= k < |g[r]|)
    ensures |res.1| == |g| && forall i :: 0 <= i < |g| ==> |res.1[i]| == |g[i]|
    ensures taken ==> res.1[er][ec] == fill
    ensures !taken ==> res == ([], g)
  {
    if taken then
      var b := Branch(g, er, ec, r, k, fill);
      ([Config(b.0, r, k)], b.1)
    else ([], g)
  }

  /** On the blank, a branch's child is the swap and the receiver is put back. */
  lemma AttemptOnBlank(g: seq<seq<int>>, er: nat, ec: nat, r: int, k: int, taken: bool)
    requires er < |g| && ec < |g[er]| && (taken ==> 0 <= r < |g| && 0 <= k < |g[r]|)
    requires g[er][ec] == Blank && (er, ec) != (r, k)
    ensures Attempt(g, er, ec, r, k, taken, Blank).1 == g
    ensures taken ==> Attempt(g, er, ec, r, k, taken, Blank).0 == [Config(Grid.Swap(g, er, ec, r, k), r, k)]
    ensures !taken ==> Attempt(g, er, ec, r, k, taken, Blank).0 == []
  {
    if taken {
      BranchRestores(g, er, ec, r, k);
    }
  }

  /** The blocks `sides` run one after the other on the receiver's grid `g`: the children, and the grid afterwards. */
  function Branches(dims: Dims, g: seq<seq<int>>, er: nat, ec: nat, sides: seq<Side>): (seq<Config>, seq<seq<int>>)
    requires Grid.Rect(g, dims.rows, dims.cols) && InBounds(dims, er, ec) && SidesFit(dims, er, ec, sides)
    decreases |sides|
  {
    if sides == [] then ([], g)
    else
      var s := sides[0];
      var first := Attempt(g, er, ec, er + s.dr, ec + s.dc, s.taken, if s.keepsFill then g[er][ec] else Blank);
      var rest := Branches(dims, first.1, er, ec, sides[1..]);
      (first.0 + rest.0, rest.1)
  }

  /**
   `getNeighbors` as written: the children in the order up, down, left, right,
   and the receiver's grid after the four blocks.
   */
  function GetNeighbors(dims: Dims, c: Config): (seq<Config>, seq<seq<int>>)
    requires Fits(dims, c)
  {
    Branches(dims, c.grid, c.emptyRow, c.emptyCol, Sides(dims, c))
  }

  /** On the blank, the blocks produce the slides and put the receiver back. */
  lemma {:induction false} BranchesOnBlank(dims: Dims, c: Config, sides: seq<Side>)
    requires Fits(dims, c) && SidesFit(dims, c.emptyRow, c.emptyCol, sides)
    requires c.grid[c.emptyRow][c.emptyCol] == Blank
    ensures Branches(dims, c.grid, c.emptyRow, c.emptyCol, sides) == (SlidesAlong(dims, c, sides), c.grid)
    decreases |sides|
  {
    if sides != [] {
      var s := sides[0];
      AttemptOnBlank(c.grid, c.emptyRow, c.emptyCol, c.emptyRow + s.dr, c.emptyCol + s.dc, s.taken);
      BranchesOnBlank(dims, c, sides[1..]);
    }
  }

  /**
   When the recorded blank position holds the blank, `getNeighbors` produces
   exactly the one-slide neighbours and leaves its receiver unchanged.
   */
  lemma GetNeighborsOnBlank(dims: Dims, c: Config)
    requires Fits(dims, c) && c.grid[c.emptyRow][c.emptyCol] == Blank
    ensures GetNeighbors(dims, c) == (Neighbors(dims, c), c.grid)
  {
    BranchesOnBlank(dims, c, Sides(dims, c));
  }

  /** A block that runs with the grid's own value as fill puts the receiver back; one that fills with the blank leaves the blank at the position. */
  lemma {:induction false} BranchesReceiver(dims: Dims, g: seq<seq<int>>, er: nat, ec: nat, sides: seq<Side>)
    requires Grid.Rect(g, dims.rows, dims.cols) && InBounds(dims, er, ec) && SidesFit(dims, er, ec, sides)
    requires g[er][ec] != Blank
    ensures Branches(dims, g, er, ec, sides).1 == g <==>
      forall i :: 0 <= i < |sides| && sides[i].taken ==> sides[i].keepsFill
    decreases |sides|
  {
    if sides != [] {
      var s := sides[0];
      var fill := if s.keepsFill then g[er][ec] else Blank;
      var first := Attempt(g, er, ec, er + s.dr, ec + s.dc, s.taken, fill);
      if s.taken && !s.keepsFill {
        var c' := Config(first.1, er, ec);
        BranchesOnBlank(dims, c', sides[1..]);
        assert Branches(dims, g, er, ec, sides).1 == first.1;
      } else {
        if s.taken {
          BranchRestores(g, er, ec, er + s.dr, ec + s.dc);
        }
        assert first.1 == g;
        BranchesReceiver(dims, g, er, ec, sides[1..]);
        assert forall i :: 1 <= i < |sides| ==> sides[i] == sides[1..][i - 1];
      }
    }
  }

  /**
   The restores write `EMPTY` into the recorded blank position, so the
   receiver comes back unchanged exactly when that position held the blank or
   only the right-hand block ran.
   */
  lemma GetNeighborsReceiver(dims: Dims, c: Config)
    requires Fits(dims, c)
    ensures GetNeighbors(dims, c).1 == c.grid <==>
      c.grid[c.emptyRow][c.emptyCol] == Blank || (c.emptyRow == 0 && c.emptyRow + 1 >= dims.rows && c.emptyCol == 0)
  {
    if c.grid[c.emptyRow][c.emptyCol] == Blank {
      GetNeighborsOnBlank(dims, c);
    } else {
      var ss := Sides(dims, c);
      BranchesReceiver(dims, c.grid, c.emptyRow, c.emptyCol, ss);
      assert (forall i :: 0 <= i < |ss| && ss[i].taken ==> ss[i].keepsFill) <==> !ss[0].taken && !ss[1].taken && !ss[2].taken;
    }
  }

  /** The non-blank values of `s`, in order. */
  function Tiles(s: seq<int>): seq<int> {
    if s == [] then [] else (if s[0] != Blank then [s[0]] else []) + Tiles(s[1..])
  }

  /** The cells of `g` in row-major order. */
  function Flatten(g: seq<seq<int>>): seq<int> {
    if g == [] then [] else g[0] + Flatten(g[1..])
  }

  /** The list `isSolution` builds holds every non-blank tile of the board, each as often as it occurs. */
  lemma {:induction false} TilesOfBoard(g: seq<seq<int>>)
    ensures multiset(Tiles(Flatten(g))) == Grid.Cells(g)[Blank := 0]
  {
    if g != [] {
      TilesOfBoard(g[1..]);
      TilesSplit(g[0], Flatten(g[1..]));
      TilesOfRow(g[0]);
    }
  }

  lemma {:induction false} TilesOfRow(s: seq<int>)
    ensures multiset(Tiles(s)) == multiset(s)[Blank := 0]
  {
    if s != [] {
      TilesOfRow(s[1..]);
      assert s == [s[0]] + s[1..];
    }
  }

  lemma {:induction false} TilesSplit(s: seq<int>, t: seq<int>)
    ensures Tiles(s + t) == Tiles(s) + Tiles(t)
  {
    if s == [] {
      assert s + t == t;
    } else {
      assert (s + t)[0] == s[0];
      assert (s + t)[1..] == s[1..] + t;
      TilesSplit(s[1..], t);
    }
  }

  /** The loop of `isSolution`: no element is greater than the one after it. */
  predicate NoDescent(s: seq<int>) {
    forall i :: 0 <= i < |s| - 1 ==> !(s[i] > s[i + 1])
  }

  predicate Sorted(s: seq<int>) {
    forall i, j :: 0 <= i < j < |s| ==> s[i] <= s[j]
  }

  /** Checking neighbouring pairs is the same as checking every pair. */
  lemma NoDescentIsSorted(s: seq<int>)
    ensures NoDescent(s) <==> Sorted(s)
  {
    if NoDescent(s) {
      forall i, j | 0 <= i < j < |s| ensures s[i] <= s[j] {
        OrderedUpTo(s, i, j);
      }
    }
  }

  lemma {:induction false} OrderedUpTo(s: seq<int>, i: nat, j: nat)
    requires NoDescent(s) && i <= j < |s|
    ensures s[i] <= s[j]
    decreases j - i
  {
    if i < j {
      OrderedUpTo(s, i + 1, j);
    }
  }

  /** `isSolution`: the non-blank tiles in row-major order never descend, and the blank is recorded in the last cell. */
  predicate IsSolution(dims: Dims, c: Config) {
    NoDescent(Tiles(Flatten(c.grid))) && c.emptyRow == dims.rows - 1 && c.emptyCol == dims.cols - 1
  }

  /** A configuration is solved exactly when its tiles are sorted in row-major order and the blank is recorded bottom right. */
  lemma SolvedIffSorted(dims: Dims, c: Config)
    ensures IsSolution(dims, c) <==>
      Sorted(Tiles(Flatten(c.grid))) && c.emptyRow == dims.rows - 1 && c.emptyCol == dims.cols - 1
  {
    NoDescentIsSorted(Tiles(Flatten(c.grid)));
  }

  /** `equals`: two configurations are equal when they record the same blank position; the tiles are not compared. */
  predicate JavaEquals(a: Config, b: Config) {
    a.emptyRow == b.emptyRow && a.emptyCol == b.emptyCol
  }

  function Digit(d: nat): char
    requires d < 10
  {
    "0123456789"[d]
  }

  /** Java's decimal form of a non-negative `int`. */
  function Digits(n: nat): string {
    if n < 10 then [Digit(n)] else Digits(n / 10) + [Digit(n % 10)]
  }

  /** Java's decimal form of an `int`, with a leading minus sign when negative. */
  function Decimal(n: int): string {
    if n < 0 then "-" + Digits(-n) else Digits(n)
  }

  function Decimals(s: seq<int>): string {
    if s == [] then "" else Decimal(s[0]) + Decimals(s[1..])
  }

  /** The string whose `hashCode` is the configuration's hash code: the cells' decimal forms in row-major order, concatenated. */
  function HashString(c: Config): string {
    Decimals(Flatten(c.grid))
  }

  /**
   `equals` is coarser than the hash: two proper 1 by 3 puzzles with the blank
   in the same place but the other tiles exchanged are equal by `equals`, yet
   the strings they hash differ.
   */
  lemma EqualsIgnoresTiles()
    ensures var dims, a, b := Dims(1, 3), Config([[1, 2, 0]], 0, 2), Config([[2, 1, 0]], 0, 2);
      && Fits(dims, a) && Fits(dims, b)
      && a.grid[0][2] == Blank && b.grid[0][2] == Blank
      && JavaEquals(a, b) && a != b
      && HashString(a) == "120" && HashString(b) == "210"
  {
    var a, b := Config([[1, 2, 0]], 0, 2), Config([[2, 1, 0]], 0, 2);
    assert Flatten(a.grid) == [1, 2, 0] by {
      assert a.grid[1..] == [];
    }
    assert Flatten(b.grid) == [2, 1, 0] by {
      assert b.grid[1..] == [];
    }
    assert Decimals([0]) == "0" by {
      assert [0][1..] == [];
    }
    assert Decimals([2, 0]) == "20" by {
      assert [2, 0][1..] == [0];
    }
    assert Decimals([1, 0]) == "10" by {
      assert [1, 0][1..] == [0];
    }
    assert [1, 2, 0][1..] == [2, 0];
    assert [2, 1, 0][1..] == [1, 0];
  }

  /** Value equality, which the search uses, agrees with the hash: equal configurations hash the same string. */
  lemma ValueEqualsHashConsistent(a: Config, b: Config)
    requires a == b
    ensures HashString(a) == HashString(b)
  {
  }

  /** Every cell holds a single decimal digit, as on a board of at most nine cells numbered from 0. */
  predicate DigitGrid(g: seq<seq<int>>) {
    forall r, k :: 0 <= r < |g| && 0 <= k < |g[r]| ==> 0 <= g[r][k] <= 9
  }

  lemma DigitInjective(d: nat, e: nat)
    requires d < 10 && e < 10
    ensures Digit(d) == Digit(e) <==> d == e
  {
    var s := "0123456789";
    assert forall i, j :: 0 <= i < j < 10 ==> s[i] < s[j];
  }

  /** The decimal forms of single digits are single characters that spell the sequence back. */
  lemma {:induction false} DecimalsSpellDigits(s: seq<int>, t: seq<int>)
    requires forall i :: 0 <= i < |s| ==> 0 <= s[i] <= 9
    requires forall i :: 0 <= i < |t| ==> 0 <= t[i] <= 9
    ensures Decimals(s) == Decimals(t) <==> s == t
  {
    if s != [] && t != [] {
      assert Decimals(s) == [Digit(s[0])] + Decimals(s[1..]);
      assert Decimals(t) == [Digit(t[0])] + Decimals(t[1..]);
      DigitInjective(s[0], t[0]);
      DecimalsSpellDigits(s[1..], t[1..]);
      if Decimals(s) == Decimals(t) {
        assert Decimals(s)[1..] == Decimals(s[1..]);
        assert Decimals(t)[1..] == Decimals(t[1..]);
        assert s == [s[0]] + s[1..];
        assert t == [t[0]] + t[1..];
      }
    } else if s != [] {
      assert |Decimals(s)| > 0 by {
        assert Decimals(s) == [Digit(s[0])] + Decimals(s[1..]);
      }
    } else if t != [] {
      assert |Decimals(t)| > 0 by {
        assert Decimals(t) == [Digit(t[0])] + Decimals(t[1..]);
      }
    }
  }

  lemma {:induction false} FlattenDigits(g: seq<seq<int>>)
    requires DigitGrid(g)
    ensures forall i :: 0 <= i < |Flatten(g)| ==> 0 <= Flatten(g)[i] <= 9
  {
    if g != [] {
      assert DigitGrid(g[1..]) by {
        forall r, k | 0 <= r < |g[1..]| && 0 <= k < |g[1..][r]|
          ensures 0 <= g[1..][r][k] <= 9
        {
          assert g[1..][r] == g[r + 1];
        }
      }
      FlattenDigits(g[1..]);
      forall i | 0 <= i < |Flatten(g)|
        ensures 0 <= Flatten(g)[i] <= 9
      {
        if i >= |g[0]| {
          assert Flatten(g)[i] == Flatten(g[1..])[i - |g[0]|];
        }
      }
    }
  }

  /** Grids of one shape with the same cells in row-major order are the same grid. */
  lemma {:induction false} FlattenInjective(g: seq<seq<int>>, h: seq<seq<int>>, rows: nat, cols: nat)
    requires Grid.Rect(g, rows, cols) && Grid.Rect(h, rows, cols)
    ensures Flatten(g) == Flatten(h) <==> g == h
  {
    if rows > 0 && Flatten(g) == Flatten(h) {
      assert Grid.Rect(g[1..], rows - 1, cols) by {
        forall r | 0 <= r < rows - 1 ensures |g[1..][r]| == cols {
          assert g[1..][r] == g[r + 1];
        }
      }
      assert Grid.Rect(h[1..], rows - 1, cols) by {
        forall r | 0 <= r < rows - 1 ensures |h[1..][r]| == cols {
          assert h[1..][r] == h[r + 1];
        }
      }
      assert g[0] == Flatten(g)[..cols];
      assert h[0] == Flatten(h)[..cols];
      assert Flatten(g[1..]) == Flatten(g)[cols..];
      assert Flatten(h[1..]) == Flatten(h)[cols..];
      FlattenInjective(g[1..], h[1..], rows - 1, cols);
      assert g == [g[0]] + g[1..];
      assert h == [h[0]] + h[1..];
    }
  }

  /**
   On a board whose tiles are single digits the hashed string spells out the
   grid, so `equals` and `hashCode` together tell exactly the same
   configurations apart as value equality.
   */
  lemma HashStringSpellsDigitGrid(dims: Dims, a: Config, b: Config)
    requires Grid.Rect(a.grid, dims.rows, dims.cols) && Grid.Rect(b.grid, dims.rows, dims.cols)
    requires DigitGrid(a.grid) && DigitGrid(b.grid)
    ensures HashString(a) == HashString(b) <==> a.grid == b.grid
    ensures JavaEquals(a, b) && HashString(a) == HashString(b) <==> a == b
  {
    FlattenDigits(a.grid);
    FlattenDigits(b.grid);
    DecimalsSpellDigits(Flatten(a.grid), Flatten(b.grid));
    FlattenInjective(a.grid, b.grid, dims.rows, dims.cols);
  }

  /** Two proper 2 by 3 puzzles with the blank in the same place, whose other tiles read alike once concatenated. */
  const MergedA := Config([[1, 12, 11], [2, 5, 0]], 1, 2)
  const MergedB := Config([[11, 2, 1], [12, 5, 0]], 1, 2)

  /**
   `equals` and `hashCode` together merge distinct proper puzzles: `MergedA`
   and `MergedB` are equal by `equals` and both hash the string `"11211250"`,
   so a hash map keyed on configurations keeps only one of them.
   */
  lemma EqualsMergesBoards()
    ensures var dims := Dims(2, 3);
      && WellFormed(dims, MergedA) && WellFormed(dims, MergedB)
      && JavaEquals(MergedA, MergedB) && MergedA != MergedB
      && HashString(MergedA) == "11211250" && HashString(MergedB) == "11211250"
  {
    MergedWellFormed();
    MergedHashA();
    MergedHashB();
  }

  lemma MergedWellFormed()
    ensures WellFormed(Dims(2, 3), MergedA) && WellFormed(Dims(2, 3), MergedB)
  {
    MergedAOneBlank();
    MergedBOneBlank();
  }

  lemma MergedAOneBlank()
    ensures WellFormed(Dims(2, 3), MergedA)
  {
    assert Fits(Dims(2, 3), MergedA);
    assert multiset(MergedA.grid[1])[Blank] == 1 by {
      assert MergedA.grid[1] == [2, 5] + [Blank];
    }
    TwoRowsOneBlank(MergedA.grid);
  }

  lemma MergedBOneBlank()
    ensures WellFormed(Dims(2, 3), MergedB)
  {
    assert Fits(Dims(2, 3), MergedB);
    assert multiset(MergedB.grid[1])[Blank] == 1 by {
      assert MergedB.grid[1] == [12, 5] + [Blank];
    }
    TwoRowsOneBlank(MergedB.grid);
  }

  lemma TwoRowsOneBlank(g: seq<seq<int>>)
    requires |g| == 2 && Blank !in g[0] && multiset(g[1])[Blank] == 1
    ensures Grid.UniqueCell(g, Blank)
  {
    assert g[1..][1..] == [];
    assert Grid.Cells(g[1..]) == multiset(g[1]) by {
      assert g[1..][0] == g[1];
      assert Grid.Cells(g[1..][1..]) == multiset{};
    }
    assert multiset(g[0])[Blank] == 0;
  }

  lemma TwoDigits()
    ensures Decimal(11) == "11" && Decimal(12) == "12"
  {
    assert Digits(11) == Digits(1) + [Digit(1)];
    assert Digits(12) == Digits(1) + [Digit(2)];
  }

  lemma MergedHashA()
    ensures HashString(MergedA) == "11211250"
  {
    MergedFlatA();
    MergedDecimalsA();
  }

  lemma MergedFlatA()
    ensures Flatten(MergedA.grid) == [1, 12, 11, 2, 5, 0]
  {
    assert MergedA.grid[1..][1..] == [];
  }

  lemma MergedDecimalsA()
    ensures Decimals([1, 12, 11, 2, 5, 0]) == "11211250"
  {
    TwoDigits();
    assert Decimals([0]) == "0" by {
      assert [0][1..] == [];
    }
    assert Decimals([5, 0]) == "50" by {
      assert [5, 0][1..] == [0];
    }
    assert Decimals([2, 5, 0]) == "250" by {
      assert [2, 5, 0][1..] == [5, 0];
    }
    assert Decimals([11, 2, 5, 0]) == "11250" by {
      assert [11, 2, 5, 0][1..] == [2, 5, 0];
    }
    assert Decimals([12, 11, 2, 5, 0]) == "1211250" by {
      assert [12, 11, 2, 5, 0][1..] == [11, 2, 5, 0];
    }
    assert Decimals([1, 12, 11, 2, 5, 0]) == "11211250" by {
      assert [1, 12, 11, 2, 5, 0][1..] == [12, 11, 2, 5, 0];
    }
  }

  lemma MergedHashB()
    ensures HashString(MergedB) == "11211250"
  {
    MergedFlatB();
    MergedDecimalsB();
  }

  lemma MergedFlatB()
    ensures Flatten(MergedB.grid) == [11, 2, 1, 12, 5, 0]
  {
    assert MergedB.grid[1..][1..] == [];
  }

  lemma MergedDecimalsB()
    ensures Decimals([11, 2, 1, 12, 5, 0]) == "11211250"
  {
    TwoDigits();
    assert Decimals([0]) == "0" by {
      assert [0][1..] == [];
    }
    assert Decimals([5, 0]) == "50" by {
      assert [5, 0][1..] == [0];
    }
    assert Decimals([12, 5, 0]) == "1250" by {
      assert [12, 5, 0][1..] == [5, 0];
    }
    assert Decimals([1, 12, 5, 0]) == "11250" by {
      assert [1, 12, 5, 0][1..] == [12, 5, 0];
    }
    assert Decimals([2, 1, 12, 5, 0]) == "211250" by {
      assert [2, 1, 12, 5, 0][1..] == [1, 12, 5, 0];
    }
    assert Decimals([11, 2, 1, 12, 5, 0]) == "11211250" by {
      assert [11, 2, 1, 12, 5, 0][1..] == [2, 1, 12, 5, 0];
    }
  }

  /** The evidently intended `equals`: the grids agree as well as the recorded blank positions. */
  predicate IntendedEquals(a: Config, b: Config) {
    a.grid == b.grid && a.emptyRow == b.emptyRow && a.emptyCol == b.emptyCol
  }

  /**
   The intended `equals` is the value equality the search uses: it refines
   `equals` by comparing the grids, agrees with the hash, and keeps apart the
   puzzles `equals` as written merges.
   */
  lemma IntendedEqualsIsValueEquality(a: Config, b: Config)
    ensures IntendedEquals(a, b) <==> a == b
    ensures IntendedEquals(a, b) <==> JavaEquals(a, b) && a.grid == b.grid
    ensures IntendedEquals(a, b) ==> HashString(a) == HashString(b)
    ensures !IntendedEquals(MergedA, MergedB)
  {
  }

  /**
   `makeMove`: the cells `a` and `b` trade values, and the recorded blank
   position moves to `a` if it now holds the blank, else to `b` if that does,
   else stays.
   */
  function MakeMove(dims: Dims, c: Config, ar: nat, ac: nat, br: nat, bc: nat): Config
    requires Fits(dims, c) && InBounds(dims, ar, ac) && InBounds(dims, br, bc)
  {
    var g := Grid.Swap(c.grid, ar, ac, br, bc);
    if g[ar][ac] == Blank then Config(g, ar, ac)
    else if g[br][bc] == Blank then Config(g, br, bc)
    else Config(g, c.emptyRow, c.emptyCol)
  }

  /** A move keeps the board's shape and tiles, and making the same move twice gives back the grid. */
  lemma MakeMoveTwice(dims: Dims, c: Config, ar: nat, ac: nat, br: nat, bc: nat)
    requires Fits(dims, c) && InBounds(dims, ar, ac) && InBounds(dims, br, bc)
    ensures var n := MakeMove(dims, c, ar, ac, br, bc);
      && Fits(dims, n)
      && Grid.Cells(n.grid) == Grid.Cells(c.grid)
      && MakeMove(dims, n, ar, ac, br, bc).grid == c.grid
  {
    var h := Grid.Swap(c.grid, ar, ac, br, bc);
    Grid.SwapCells(c.grid, ar, ac, br, bc);
    assert Grid.Rect(h, dims.rows, dims.cols);
    var n := MakeMove(dims, c, ar, ac, br, bc);
    assert n.grid == h;
    Grid.CellsOfSwap(c.grid, ar, ac, br, bc);
    Grid.SwapInvolution(c.grid, ar, ac, br, bc);
    assert MakeMove(dims, n, ar, ac, br, bc).grid == Grid.Swap(h, ar, ac, br, bc);
  }

  /** On a proper puzzle, moving the blank and an adjacent tile, in either order, is the slide of that tile. */
  lemma MakeMoveIsSlide(dims: Dims, c: Config, ar: nat, ac: nat, br: nat, bc: nat)
    requires WellFormed(dims, c) && InBounds(dims, ar, ac) && InBounds(dims, br, bc) && Adjacent(ar, ac, br, bc)
    ensures (ar, ac) == (c.emptyRow, c.emptyCol) ==> MakeMove(dims, c, ar, ac, br, bc) == Slide(dims, c, br, bc)
    ensures (br, bc) == (c.emptyRow, c.emptyCol) ==> MakeMove(dims, c, ar, ac, br, bc) == Slide(dims, c, ar, ac)
  {
    Grid.SwapInvolution(c.grid, ar, ac, br, bc);
    if (ar, ac) == (c.emptyRow, c.emptyCol) && c.grid[br][bc] == Blank {
      Grid.TwoCells(c.grid, ar, ac, br, bc, 1);
    }
  }

  /** The search's neighbour function: `getNeighbors` as written, on configurations of the board's shape. */
  function Next(dims: Dims): Config -> seq<Config> {
    (c: Config) => if Fits(dims, c) then GetNeighbors(dims, c).0 else []
  }

  function Goal(dims: Dims): Config -> bool {
    (c: Config) => IsSolution(dims, c)
  }

  /** Every step of the search from a proper puzzle is a slide, and leads to a proper puzzle. */
  lemma NextIsSlide(dims: Dims, a: Config, b: Config)
    requires WellFormed(dims, a) && b in Next(dims)(a)
    ensures b in Neighbors(dims, a) && WellFormed(dims, b) && Grid.Cells(b.grid) == Grid.Cells(a.grid)
  {
    GetNeighborsOnBlank(dims, a);
    var r, k := NeighborIsSlide(dims, a, b);
    SlideStep(dims, a, r, k);
  }

  /** Every configuration along a walk of the search from a proper puzzle is a proper puzzle. */
  lemma {:induction false} WalkStaysWellFormed(dims: Dims, q: seq<Config>)
    requires Solver.Walk(Next(dims), q) && WellFormed(dims, q[0])
    ensures forall i :: 0 <= i < |q| ==> WellFormed(dims, q[i])
  {
    if |q| > 1 {
      var p := q[..|q| - 1];
      assert Solver.Walk(Next(dims), p);
      WalkStaysWellFormed(dims, p);
      assert WellFormed(dims, q[|q| - 2]) by {
        assert q[|q| - 2] == p[|p| - 1];
      }
      NextIsSlide(dims, q[|q| - 2], q[|q| - 1]);
      forall i | 0 <= i < |q| ensures WellFormed(dims, q[i]) {
        if i < |q| - 1 {
          assert q[i] == p[i];
        }
      }
    }
  }

  /** The configurations with a grid from `boards` and a recorded blank position on the board. */
  ghost function Configs(dims: Dims, boards: set<seq<seq<int>>>): (u: set<Config>)
    ensures forall c :: c in u <==> c.grid in boards && InBounds(dims, c.emptyRow, c.emptyCol)
  {
    var u := set g, r: nat, k: nat | g in boards && r < dims.rows && k < dims.cols :: Config(g, r, k);
    assert forall c: Config :: c.grid in boards && InBounds(dims, c.emptyRow, c.emptyCol) ==> c in u by {
      forall c: Config | c.grid in boards && InBounds(dims, c.emptyRow, c.emptyCol) ensures c in u {
        var r: nat, k: nat := c.emptyRow, c.emptyCol;
        assert c == Config(c.grid, r, k);
      }
    }
    u
  }

  /** The configurations whose cells come from the start's values or the blank: closed under the neighbour function. */
  lemma Universe(dims: Dims, start: Config) returns (u: set<Config>)
    requires Fits(dims, start)
    ensures start in u && Solver.Closed(Next(dims), u)
  {
    var alpha := (set x | x in Grid.Cells(start.grid)) + {Blank};
    var boards := Grid.Boards(alpha, dims.rows, dims.cols);
    u := Configs(dims, boards);
    assert start.grid in boards by {
      forall r, k | 0 <= r < |start.grid| && 0 <= k < |start.grid[r]| ensures start.grid[r][k] in alpha {
        Grid.CellIsCounted(start.grid, r, k);
      }
    }
    forall a, b | a in u && b in Next(dims)(a)
      ensures b in u
    {
      assert Fits(dims, a) && Grid.AllIn(a.grid, alpha);
      NextInAlpha(dims, a, b, alpha);
    }
  }

  /** A child of `getNeighbors` has the board's shape and cells drawn from the parent's values and the blank. */
  lemma NextInAlpha(dims: Dims, a: Config, b: Config, alpha: set<int>)
    requires Fits(dims, a) && Grid.AllIn(a.grid, alpha) && Blank in alpha && b in GetNeighbors(dims, a).0
    ensures Fits(dims, b) && Grid.AllIn(b.grid, alpha)
  {
    SidesFitFour(dims, a);
    BranchesInAlpha(dims, a.grid, a.emptyRow, a.emptyCol, Sides(dims, a), alpha);
  }

  /** Only a configuration of the board's shape has successors, and each of them has the board's shape too. */
  lemma NextFits(dims: Dims, a: Config, b: Config)
    requires b in Next(dims)(a)
    ensures Fits(dims, a) && Fits(dims, b)
  {
    var alpha := (set x | x in Grid.Cells(a.grid)) + {Blank};
    forall r, k | 0 <= r < |a.grid| && 0 <= k < |a.grid[r]| ensures a.grid[r][k] in alpha {
      Grid.CellIsCounted(a.grid, r, k);
    }
    NextInAlpha(dims, a, b, alpha);
  }

  lemma SidesFitFour(dims: Dims, c: Config)
    requires Fits(dims, c)
    ensures SidesFit(dims, c.emptyRow, c.emptyCol, Sides(dims, c))
  {
  }

  /** A branch writes only values already in the grid or `fill`. */
  lemma BranchInAlpha(g: seq<seq<int>>, er: nat, ec: nat, r: nat, k: nat, fill: int, alpha: set<int>)
    requires er < |g| && ec < |g[er]| && r < |g| && k < |g[r]|
    requires Grid.AllIn(g, alpha) && fill in alpha
    ensures Grid.AllIn(Branch(g, er, ec, r, k, fill).0, alpha) && Grid.AllIn(Branch(g, er, ec, r, k, fill).1, alpha)
  {
  }

  /** Every child of the blocks has the board's shape and cells drawn from the grid's values and the blank. */
  lemma {:induction false} BranchesInAlpha(dims: Dims, g: seq<seq<int>>, er: nat, ec: nat, sides: seq<Side>, alpha: set<int>)
    requires Grid.Rect(g, dims.rows, dims.cols) && InBounds(dims, er, ec) && SidesFit(dims, er, ec, sides)
    requires Grid.AllIn(g, alpha) && Blank in alpha
    ensures forall n :: n in Branches(dims, g, er, ec, sides).0 ==> Fits(dims, n) && Grid.AllIn(n.grid, alpha)
    decreases |sides|
  {
    if sides != [] {
      var s := sides[0];
      var fill := if s.keepsFill then g[er][ec] else Blank;
      AttemptInAlpha(dims, g, er, ec, er + s.dr, ec + s.dc, s.taken, fill, alpha);
      var first := Attempt(g, er, ec, er + s.dr, ec + s.dc, s.taken, fill);
      BranchesInAlpha(dims, first.1, er, ec, sides[1..], alpha);
    }
  }

  lemma AttemptInAlpha(dims: Dims, g: seq<seq<int>>, er: nat, ec: nat, r: int, k: int, taken: bool, fill: int, alpha: set<int>)
    requires Grid.Rect(g, dims.rows, dims.cols) && InBounds(dims, er, ec) && (taken ==> InBounds(dims, r, k))
    requires Grid.AllIn(g, alpha) && fill in alpha
    ensures var res := Attempt(g, er, ec, r, k, taken, fill);
      && Grid.Rect(res.1, dims.rows, dims.cols) && Grid.AllIn(res.1, alpha)
      && forall n :: n in res.0 ==> Fits(dims, n) && Grid.AllIn(n.grid, alpha)
  {
    if taken {
      BranchInAlpha(g, er, ec, r, k, fill, alpha);
    }
  }

  /**
   The solver run on a Slide configuration: a shortest solution when one
   exists; from a proper puzzle every step of it is a slide and keeps the tiles.
   */
  method Solve(dims: Dims, start: Config, counters: Solver.Counters)
    returns (path: Option<seq<Config>>, counters': Solver.Counters)
    requires Fits(dims, start)
    ensures path.Some? ==> Solver.Shortest(Next(dims), Goal(dims), path.value) && path.value[0] == start
    ensures path.Some? && WellFormed(dims, start) ==>
      forall i :: 0 <= i < |path.value| - 1 ==> Fits(dims, path.value[i]) && path.value[i + 1] in Neighbors(dims, path.value[i])
    ensures path.None? ==> Solver.Unsolvable(Next(dims), Goal(dims), start)
    ensures IsSolution(dims, start) ==> path == Some([start])
    ensures counters'.unique - counters.unique <= counters'.total - counters.total
  {
    ghost var u := Universe(dims, start);
    ghost var visited;
    path, counters', visited := Solver.Solve(start, Next(dims), Goal(dims), counters, u);
    if path.Some? && WellFormed(dims, start) {
      var q := path.value;
      WalkStaysWellFormed(dims, q);
      forall i | 0 <= i < |q| - 1 ensures Fits(dims, q[i]) && q[i + 1] in Neighbors(dims, q[i]) {
        NextIsSlide(dims, q[i], q[i + 1]);
      }
    }
  }
}

=== FILE: slide_model.dfy ===
/**
 The model behind the Slide front ends: the current configuration, a
 two-click selection that moves a tile into the blank, and a one-step hint
 from the solver. Observer notifications become a returned `Message`.
 */
module SlideModel {
  import opened Wrappers
  import Solver
  import SlideConfig

  type Config = SlideConfig.Config
  type Dims = SlideConfig.Dims

  /** The notification each operation sends, without the coordinates some of them print. */
  datatype Message =
    | BoardSolved       // "Board is solved!"
    | Selected          // "Selected (r,c)"
    | Moved             // "Moved from (ar,ac) to (br,bc)"
    | GameSolved        // "Game is solved!"
    | InvalidSelection  // "Invalid selection, please try again"
    | NoSolution        // "No solution"
    | NextStep          // "Next step!"
    | Silent            // no notification

  /** The current configuration, whether the next click is a first selection, and the first selection's cell. */
  datatype Model = Model(config: Config, first: bool, aRow: int, aCol: int)

  /** The configuration fits the board, and while a second click is awaited the first selection is on the board. */
  predicate Inv(dims: Dims, m: Model) {
    SlideConfig.Fits(dims, m.config) && (m.first || SlideConfig.InBounds(dims, m.aRow, m.aCol))
  }

  /** `isValidCoordinates`. */
  predicate IsValidCoordinates(dims: Dims, r: int, k: int) {
    r < dims.rows && r >= 0 && k < dims.cols && k >= 0
  }

  /** The valid coordinates are exactly the cells of the board. */
  lemma ValidCoordinatesAreCells(dims: Dims, r: int, k: int)
    ensures IsValidCoordinates(dims, r, k) <==> SlideConfig.InBounds(dims, r, k)
  {
  }

  /**
   `isValidMove`: the two selections differ, and either the first is the
   recorded blank position and the second is one of its four neighbours, or
   else the second is the recorded blank position and the first one of its
   four neighbours.
   */
  predicate IsValidMove(c: Config, ar: int, ac: int, br: int, bc: int) {
    if ar == br && ac == bc then false
    else if ar == c.emptyRow && ac == c.emptyCol then
      || (br == ar - 1 && bc == ac)
      || (br == ar + 1 && bc == ac)
      || (br == ar && bc == ac - 1)
      || (br == ar && bc == ac + 1)
    else if br == c.emptyRow && bc == c.emptyCol then
      || (ar == br - 1 && ac == bc)
      || (ar == br + 1 && ac == bc)
      || (ar == br && ac == bc - 1)
      || (ar == br && ac == bc + 1)
    else false
  }

  /**
   A move is valid exactly when one of the two cells is the recorded blank
   position and the other is next to it; so the order of the clicks does not
   matter, and clicking the same cell twice is never valid.
   */
  lemma ValidMoveIffNextToBlank(c: Config, ar: int, ac: int, br: int, bc: int)
    ensures IsValidMove(c, ar, ac, br, bc) <==>
      ((ar, ac) == (c.emptyRow, c.emptyCol) || (br, bc) == (c.emptyRow, c.emptyCol))
      && SlideConfig.Adjacent(ar, ac, br, bc)
    ensures IsValidMove(c, ar, ac, br, bc) == IsValidMove(c, br, bc, ar, ac)
    ensures !IsValidMove(c, ar, ac, ar, ac)
  {
  }

  /**
   `makeSelection`: nothing happens on a solved board or off the board; a
   first click records its cell; a second click ends the selection, and
   makes the move when it is valid.
   */
  function MakeSelection(dims: Dims, m: Model, r: int, k: int): (Model, Message)
    requires Inv(dims, m)
  {
    if SlideConfig.IsSolution(dims, m.config) then (m, BoardSolved)
    else if !IsValidCoordinates(dims, r, k) then (m, Silent)
    else if m.first then (Model(m.config, false, r, k), Selected)
    else if IsValidMove(m.config, m.aRow, m.aCol, r, k) then
      var c' := SlideConfig.MakeMove(dims, m.config, m.aRow, m.aCol, r, k);
      (Model(c', true, m.aRow, m.aCol), if SlideConfig.IsSolution(dims, c') then GameSolved else Moved)
    else (Model(m.config, true, m.aRow, m.aCol), InvalidSelection)
  }

  /**
   One click: it keeps the invariant; a solved board and a click off the
   board change nothing; a first click records its cell and leaves the
   configuration alone; a second click always ends the selection, and the
   configuration changes exactly when the move was valid.
   */
  lemma SelectionCycle(dims: Dims, m: Model, r: int, k: int)
    requires Inv(dims, m)
    ensures var (m', msg) := MakeSelection(dims, m, r, k);
      && Inv(dims, m')
      && (SlideConfig.IsSolution(dims, m.config) ==> m' == m && msg == BoardSolved)
      && (!SlideConfig.IsSolution(dims, m.config) && !SlideConfig.InBounds(dims, r, k) ==> m' == m && msg == Silent)
      && (!SlideConfig.IsSolution(dims, m.config) && SlideConfig.InBounds(dims, r, k) && m.first ==>
            m' == Model(m.config, false, r, k) && msg == Selected)
      && (!SlideConfig.IsSolution(dims, m.config) && SlideConfig.InBounds(dims, r, k) && !m.first ==>
            && m'.first
            && (msg == Moved || msg == GameSolved || msg == InvalidSelection)
            && (msg == InvalidSelection <==> !IsValidMove(m.config, m.aRow, m.aCol, r, k))
            && (msg == InvalidSelection ==> m'.config == m.config)
            && (msg == GameSolved ==> SlideConfig.IsSolution(dims, m'.config)))
  {
    if !SlideConfig.IsSolution(dims, m.config) && SlideConfig.InBounds(dims, r, k) && !m.first
      && IsValidMove(m.config, m.aRow, m.aCol, r, k)
    {
      SlideConfig.MakeMoveTwice(dims, m.config, m.aRow, m.aCol, r, k);
    }
  }

  /**
   On a proper puzzle every click leaves a proper puzzle, and a click that
   moves makes exactly one slide of the puzzle: the configuration after it is
   one of the configuration's neighbours.
   */
  lemma SelectionSlides(dims: Dims, m: Model, r: int, k: int)
    requires Inv(dims, m) && SlideConfig.WellFormed(dims, m.config)
    ensures var (m', msg) := MakeSelection(dims, m, r, k);
      && SlideConfig.WellFormed(dims, m'.config)
      && (msg == Moved || msg == GameSolved ==> m'.config in SlideConfig.Neighbors(dims, m.config))
      && (msg != Moved && msg != GameSolved ==> m'.config == m.config)
  {
    var c := m.config;
    if !SlideConfig.IsSolution(dims, c) && SlideConfig.InBounds(dims, r, k) && !m.first
      && IsValidMove(c, m.aRow, m.aCol, r, k)
    {
      ValidMoveIffNextToBlank(c, m.aRow, m.aCol, r, k);
      SlideConfig.MakeMoveIsSlide(dims, c, m.aRow, m.aCol, r, k);
      if (m.aRow, m.aCol) == (c.emptyRow, c.emptyCol) {
        SlideConfig.SlideStep(dims, c, r, k);
        SlideConfig.SlideIsNeighbor(dims, c, r, k);
      } else {
        SlideConfig.SlideStep(dims, c, m.aRow, m.aCol);
        SlideConfig.SlideIsNeighbor(dims, c, m.aRow, m.aCol);
      }
    }
  }

  /**
   Clicking the blank and then a tile next to it, or that tile and then the
   blank, slides the tile into the blank.
   */
  lemma TwoClicksSlide(dims: Dims, m: Model, r: nat, k: nat)
    requires Inv(dims, m) && SlideConfig.WellFormed(dims, m.config) && m.first
    requires !SlideConfig.IsSolution(dims, m.config)
    requires SlideConfig.InBounds(dims, r, k) && SlideConfig.Adjacent(m.config.emptyRow, m.config.emptyCol, r, k)
    ensures MakeSelection(dims, MakeSelection(dims, m, m.config.emptyRow, m.config.emptyCol).0, r, k).0.config
      == SlideConfig.Slide(dims, m.config, r, k)
    ensures MakeSelection(dims, MakeSelection(dims, m, r, k).0, m.config.emptyRow, m.config.emptyCol).0.config
      == SlideConfig.Slide(dims, m.config, r, k)
  {
    var c := m.config;
    var er: nat, ec: nat := c.emptyRow, c.emptyCol;
    ValidMoveIffNextToBlank(c, er, ec, r, k);
    ValidMoveIffNextToBlank(c, r, k, er, ec);
    SlideConfig.MakeMoveIsSlide(dims, c, er, ec, r, k);
    SlideConfig.MakeMoveIsSlide(dims, c, r, k, er, ec);
  }

  /**
   `solveNextStep`: a solved configuration is left alone; otherwise the
   configuration becomes the second state of the solver's path, one step
   along a shortest solution, or stays when there is no solution. The
   selection state is kept.
   */
  method SolveNextStep(dims: Dims, m: Model, counters: Solver.Counters)
    returns (m': Model, msg: Message, counters': Solver.Counters, ghost rest: seq<Config>)
    requires Inv(dims, m)
    ensures Inv(dims, m') && m'.first == m.first && m'.aRow == m.aRow && m'.aCol == m.aCol
    ensures msg == GameSolved || msg == NoSolution || msg == NextStep
    ensures SlideConfig.IsSolution(dims, m.config) ==> m' == m && msg == GameSolved
    ensures msg == NoSolution ==>
      m' == m && Solver.Unsolvable(SlideConfig.Next(dims), SlideConfig.Goal(dims), m.config)
    ensures !SlideConfig.IsSolution(dims, m.config) && msg != NoSolution ==>
      && m'.config in SlideConfig.Next(dims)(m.config)
      && Solver.Shortest(SlideConfig.Next(dims), SlideConfig.Goal(dims), [m.config] + rest)
      && Solver.Shortest(SlideConfig.Next(dims), SlideConfig.Goal(dims), rest)
      && rest[0] == m'.config
      && (msg == GameSolved <==> SlideConfig.IsSolution(dims, m'.config))
    ensures !SlideConfig.IsSolution(dims, m.config) && msg != NoSolution && SlideConfig.WellFormed(dims, m.config) ==>
      m'.config in SlideConfig.Neighbors(dims, m.config) && SlideConfig.WellFormed(dims, m'.config)
    ensures counters'.unique - counters.unique <= counters'.total - counters.total
  {
    rest := [];
    counters' := counters;
    if SlideConfig.IsSolution(dims, m.config) {
      m', msg := m, GameSolved;
      return;
    }
    var path;
    path, counters' := SlideConfig.Solve(dims, m.config, counters);
    if path.None? {
      m', msg := m, NoSolution;
      return;
    }
    var p := path.value;
    assert |p| >= 2 by {
      assert SlideConfig.Goal(dims)(Solver.Last(p));
    }
    Solver.ShortestSuffix(SlideConfig.Next(dims), SlideConfig.Goal(dims), p);
    assert p[1] in SlideConfig.Next(dims)(p[0]);
    if SlideConfig.WellFormed(dims, m.config) {
      SlideConfig.NextIsSlide(dims, m.config, p[1]);
    }
    SlideConfig.NextFits(dims, p[0], p[1]);
    rest := p[1..];
    assert p == [m.config] + rest;
    m' := Model(p[1], m.first, m.aRow, m.aCol);
    msg := if SlideConfig.IsSolution(dims, p[1]) then GameSolved else NextStep;
  }
}

=== FILE: solver.dfy ===
/**
 The generic breadth-first puzzle solver.

 A puzzle is given by its neighbour function `next` and its goal test `goal`;
 states are compared by value. The search keeps a FIFO queue and a
 predecessor map in which the start maps to `None`, stops when the queue is
 empty or its head is a goal, and rebuilds the path by walking predecessors
 back to the start.
 */
module Solver {
  import opened Wrappers

  /** The last element of a non-empty sequence. */
  function Last<S>(q: seq<S>): S
    requires |q| > 0
  {
    q[|q| - 1]
  }

  /** `q` is a walk: non-empty, and every state is a neighbour of the one before it. */
  predicate Walk<S(==)>(next: S -> seq<S>, q: seq<S>) {
    |q| > 0 && forall i :: 0 < i < |q| ==> q[i] in next(q[i - 1])
  }

  /** A walk that starts at `s`. */
  predicate WalkFrom<S(==)>(next: S -> seq<S>, q: seq<S>, s: S) {
    Walk(next, q) && q[0] == s
  }

  /** A walk from `s` that ends in a goal state. */
  predicate SolutionWalk<S(==)>(next: S -> seq<S>, goal: S -> bool, q: seq<S>, s: S) {
    WalkFrom(next, q, s) && goal(Last(q))
  }

  /** `p` solves the puzzle from `p[0]` and no solution from `p[0]` is shorter. */
  ghost predicate Shortest<S(!new)>(next: S -> seq<S>, goal: S -> bool, p: seq<S>) {
    && |p| > 0
    && SolutionWalk(next, goal, p, p[0])
    && forall q :: SolutionWalk(next, goal, q, p[0]) ==> |p| <= |q|
  }

  /** No walk from `s` reaches a goal state. */
  ghost predicate Unsolvable<S(!new)>(next: S -> seq<S>, goal: S -> bool, s: S) {
    forall q :: WalkFrom(next, q, s) ==> !goal(Last(q))
  }

  /** Every neighbour of a member of `u` is in `u`. */
  ghost predicate Closed<S>(next: S -> seq<S>, u: set<S>) {
    forall s, t :: s in u && t in next(s) ==> t in u
  }

  /** The states occurring in `q`. */
  function Elems<S>(q: seq<S>): set<S> {
    set x | x in q
  }

  /** No two positions of `q` hold the same state. */
  predicate Distinct<S(==)>(q: seq<S>) {
    forall i, j :: 0 <= i < j < |q| ==> q[i] != q[j]
  }

  /** The two diagnostic counters: neighbours generated, and states newly recorded. */
  datatype Counters = Counters(total: nat, unique: nat)

  /** The solver's working state: predecessor map, FIFO queue and counters. */
  datatype Search<S> = Search(pred: map<S, Option<S>>, queue: seq<S>, counters: Counters)

  /** The body of the inner `for` loop, for one neighbour `n` of `cur`. */
  function Visit<S(==)>(cur: S, n: S, st: Search<S>): Search<S>
  {
    var counters := st.counters.(total := st.counters.total + 1);
    if n in st.pred then
      st.(counters := counters)
    else
      Search(st.pred[n := Some(cur)], st.queue + [n], counters.(unique := counters.unique + 1))
  }

  /**
   The whole inner `for` loop over the neighbours `ns` of `cur`: a neighbour
   already in the map is only counted; a new one gets `cur` as predecessor
   and joins the back of the queue. Recorded predecessors are never
   overwritten.
   */
  function Discover<S(==)>(cur: S, ns: seq<S>, st: Search<S>): (r: Search<S>)
    ensures r.pred.Keys == st.pred.Keys + Elems(ns)
    ensures forall k :: k in st.pred ==> k in r.pred && r.pred[k] == st.pred[k]
    ensures forall k :: k in r.pred && k !in st.pred ==> r.pred[k] == Some(cur)
    ensures st.queue <= r.queue
    ensures var added := r.queue[|st.queue|..];
      && Distinct(added)
      && (forall i :: 0 <= i < |added| ==> added[i] in r.pred && added[i] !in st.pred)
      && (forall k :: k in r.pred && k !in st.pred ==> k in added)
    ensures r.counters.total == st.counters.total + |ns|
    ensures r.counters.unique == st.counters.unique + (|r.queue| - |st.queue|)
    ensures |r.queue| - |st.queue| <= |ns|
    decreases |ns|
  {
    if ns == [] then st
    else
      var init := ns[..|ns| - 1];
      var n := ns[|ns| - 1];
      assert ns == init + [n];
      assert Elems(ns) == Elems(init) + {n};
      var m := Discover(cur, init, st);
      var r := Visit(cur, n, m);
      if n !in m.pred then
        VisitNew(cur, n, st, m);
        r
      else
        r
  }

  /** Visiting a state not yet recorded appends it to the states added since `st`. */
  lemma VisitNew<S>(cur: S, n: S, st: Search<S>, m: Search<S>)
    requires n !in m.pred && st.pred.Keys <= m.pred.Keys && st.queue <= m.queue
    requires var added := m.queue[|st.queue|..];
      && Distinct(added)
      && (forall i :: 0 <= i < |added| ==> added[i] in m.pred && added[i] !in st.pred)
    ensures var r := Visit(cur, n, m);
      && r.queue == m.queue + [n]
      && st.queue <= r.queue
      && r.queue[|st.queue|..] == m.queue[|st.queue|..] + [n]
      && Distinct(r.queue[|st.queue|..])
      && (forall i :: 0 <= i < |r.queue| - |st.queue| ==> r.queue[|st.queue|..][i] in r.pred && r.queue[|st.queue|..][i] !in st.pred)
  {
    var added := m.queue[|st.queue|..];
    var r := Visit(cur, n, m);
    assert r.queue[|st.queue|..] == added + [n];
    DistinctAppend(added, n);
  }

  /** Appending a new element keeps a sequence duplicate-free. */
  lemma DistinctAppend<S>(q: seq<S>, x: S)
    requires Distinct(q) && x !in q
    ensures Distinct(q + [x])
  {
  }

  /** A walk that starts in a set closed under `next` stays inside it. */
  lemma {:induction false} ClosedWalkStaysInside<S>(next: S -> seq<S>, u: set<S>, q: seq<S>)
    requires Closed(next, u)
    requires Walk(next, q) && q[0] in u
    ensures forall i :: 0 <= i < |q| ==> q[i] in u
  {
    if |q| > 1 {
      var q' := q[..|q| - 1];
      assert Walk(next, q');
      ClosedWalkStaysInside(next, u, q');
      assert q[|q| - 1] in next(q[|q| - 2]);
    }
  }

  /** If a closed set containing `s` holds no goal state, nothing reachable from `s` is a goal. */
  lemma ClosedGoalFreeIsUnsolvable<S(!new)>(next: S -> seq<S>, goal: S -> bool, u: set<S>, s: S)
    requires Closed(next, u) && s in u
    requires forall x :: x in u ==> !goal(x)
    ensures Unsolvable(next, goal, s)
  {
    forall q | WalkFrom(next, q, s)
      ensures !goal(Last(q))
    {
      ClosedWalkStaysInside(next, u, q);
    }
  }

  /** Dropping the first state of a shortest solution leaves a shortest solution. */
  lemma ShortestSuffix<S(!new)>(next: S -> seq<S>, goal: S -> bool, p: seq<S>)
    requires Shortest(next, goal, p) && |p| >= 2
    ensures Shortest(next, goal, p[1..])
  {
    var p' := p[1..];
    assert SolutionWalk(next, goal, p', p'[0]);
    forall q | SolutionWalk(next, goal, q, p'[0])
      ensures |p'| <= |q|
    {
      var q' := [p[0]] + q;
      assert q'[1] == p[1] && q'[1..] == q;
      assert Walk(next, q');
      assert SolutionWalk(next, goal, q', p[0]);
    }
  }

  /** A recorded state other than the start: its predecessor is expanded, and it is one step further away. */
  ghost predicate Parented<S>(next: S -> seq<S>, pred: map<S, Option<S>>, done: set<S>, dist: map<S, nat>, v: S)
    requires v in pred && v in dist
  {
    && pred[v].Some?
    && pred[v].value in done
    && pred[v].value in dist
    && v in next(pred[v].value)
    && dist[v] == dist[pred[v].value] + 1
  }

  /** The recorded states are the expanded ones plus the queued ones; only the start has no predecessor. */
  ghost predicate Shape<S>(start: S, pred: map<S, Option<S>>, queue: seq<S>, done: set<S>, dist: map<S, nat>) {
    && start in pred && pred[start] == None
    && pred.Keys == done + Elems(queue)
    && (forall i :: 0 <= i < |queue| ==> queue[i] in pred && queue[i] !in done)
    && Distinct(queue)
    && dist.Keys == pred.Keys
    && start in dist && dist[start] == 0
  }

  /** Every recorded state except the start is `Parented`. */
  ghost predicate Parents<S>(next: S -> seq<S>, start: S, pred: map<S, Option<S>>, done: set<S>, dist: map<S, nat>) {
    forall v :: v in pred && v != start ==> v in dist && Parented(next, pred, done, dist, v)
  }

  /** Distances along the queue never decrease and span at most one step. */
  ghost predicate Layered<S>(queue: seq<S>, dist: map<S, nat>) {
    && (forall i :: 0 <= i < |queue| ==> queue[i] in dist)
    && (forall i, j :: 0 <= i <= j < |queue| ==> dist[queue[i]] <= dist[queue[j]] <= dist[queue[i]] + 1)
  }

  /** Expanded states are not goals and all their neighbours are recorded. */
  ghost predicate Expanded<S>(next: S -> seq<S>, goal: S -> bool, pred: map<S, Option<S>>, done: set<S>) {
    && (forall u :: u in done ==> !goal(u))
    && (forall u, t :: u in done && t in next(u) ==> t in pred)
  }

  /** No walk to a recorded state is shorter than its recorded distance. */
  ghost predicate LowerBound<S(!new)>(next: S -> seq<S>, start: S, pred: map<S, Option<S>>, dist: map<S, nat>) {
    forall q :: WalkFrom(next, q, start) && Last(q) in pred ==> Last(q) in dist && |q| - 1 >= dist[Last(q)]
  }

  /** Every walk to an unrecorded state is longer than the distance of the queue's head. */
  ghost predicate FrontierBound<S(!new)>(next: S -> seq<S>, start: S, pred: map<S, Option<S>>, queue: seq<S>, dist: map<S, nat>) {
    queue != [] ==>
      && queue[0] in dist
      && forall q :: WalkFrom(next, q, start) && Last(q) !in pred ==> |q| - 1 > dist[queue[0]]
  }

  /** The invariant of the main loop of `Solve`. */
  ghost predicate SearchInv<S(!new)>(next: S -> seq<S>, goal: S -> bool, start: S, pred: map<S, Option<S>>,
                                     queue: seq<S>, done: set<S>, dist: map<S, nat>)
  {
    && Shape(start, pred, queue, done, dist)
    && Parents(next, start, pred, done, dist)
    && Layered(queue, dist)
    && Expanded(next, goal, pred, done)
    && LowerBound(next, start, pred, dist)
    && FrontierBound(next, start, pred, queue, dist)
  }

  /** The distances after expanding a state at distance `d`: new states are at `d + 1`. */
  function Extend<S>(dist: map<S, nat>, keys: set<S>, d: nat): (dist': map<S, nat>)
    ensures dist'.Keys == keys
  {
    map k | k in keys :: if k in dist then dist[k] else d + 1
  }

  /** What `Discover` gives when the queue's head `cur` is expanded. */
  ghost predicate Expansion<S>(next: S -> seq<S>, st: Search<S>, r: Search<S>) {
    && st.queue != []
    && var cur := st.queue[0];
    && r.pred.Keys == st.pred.Keys + Elems(next(cur))
    && (forall k :: k in st.pred ==> k in r.pred && r.pred[k] == st.pred[k])
    && (forall k :: k in r.pred && k !in st.pred ==> r.pred[k] == Some(cur))
    && st.queue[1..] <= r.queue
    && Distinct(r.queue[|st.queue| - 1..])
    && (forall i :: |st.queue| - 1 <= i < |r.queue| ==> r.queue[i] in r.pred && r.queue[i] !in st.pred)
    && (forall k :: k in r.pred && k !in st.pred ==> k in r.queue[|st.queue| - 1..])
  }

  lemma ExpansionOfDiscover<S>(next: S -> seq<S>, st: Search<S>, r: Search<S>)
    requires st.queue != []
    requires r == Discover(st.queue[0], next(st.queue[0]), Search(st.pred, st.queue[1..], st.counters))
    ensures Expansion(next, st, r)
  {
    var added := r.queue[|st.queue| - 1..];
    forall i | |st.queue| - 1 <= i < |r.queue|
      ensures r.queue[i] in r.pred && r.queue[i] !in st.pred
    {
      assert r.queue[i] == added[i - (|st.queue| - 1)];
    }
  }

  /** Position `i` of the new queue: the old queue shifted by one, then the added states. */
  lemma NewQueueAt<S>(next: S -> seq<S>, st: Search<S>, r: Search<S>, i: int)
    requires Expansion(next, st, r) && 0 <= i < |r.queue|
    ensures i < |st.queue| - 1 ==> r.queue[i] == st.queue[i + 1]
    ensures i >= |st.queue| - 1 ==> r.queue[i] !in st.pred
  {
    if i < |st.queue| - 1 {
      assert r.queue[..|st.queue| - 1] == st.queue[1..];
      assert r.queue[..|st.queue| - 1][i] == r.queue[i];
    }
  }

  lemma ExpandKeys<S>(next: S -> seq<S>, start: S, st: Search<S>, done: set<S>, dist: map<S, nat>, r: Search<S>)
    requires Shape(start, st.pred, st.queue, done, dist)
    requires Expansion(next, st, r)
    ensures r.pred.Keys == done + {st.queue[0]} + Elems(r.queue)
  {
    var cur := st.queue[0];
    var done' := done + {cur};
    var q' := r.queue;
    forall x | x in r.pred.Keys ensures x in done' || x in q' {
      if x !in st.pred {
        assert x in q'[|st.queue| - 1..];
      } else if x != cur && x !in done {
        var i :| 0 <= i < |st.queue| && st.queue[i] == x;
        NewQueueAt(next, st, r, i - 1);
      }
    }
    forall x | x in q' ensures x in r.pred.Keys {
      var i :| 0 <= i < |q'| && q'[i] == x;
      NewQueueAt(next, st, r, i);
    }
  }

  lemma ExpandQueueMembers<S>(next: S -> seq<S>, start: S, st: Search<S>, done: set<S>, dist: map<S, nat>, r: Search<S>)
    requires Shape(start, st.pred, st.queue, done, dist)
    requires Expansion(next, st, r)
    ensures forall i :: 0 <= i < |r.queue| ==> r.queue[i] in r.pred && r.queue[i] !in done + {st.queue[0]}
  {
    forall i | 0 <= i < |r.queue|
      ensures r.queue[i] in r.pred && r.queue[i] !in done + {st.queue[0]}
    {
      NewQueueAt(next, st, r, i);
      if i < |st.queue| - 1 {
        assert st.queue[i + 1] != st.queue[0];
      }
    }
  }

  lemma ExpandQueueDistinct<S>(next: S -> seq<S>, start: S, st: Search<S>, done: set<S>, dist: map<S, nat>, r: Search<S>)
    requires Shape(start, st.pred, st.queue, done, dist)
    requires Expansion(next, st, r)
    ensures Distinct(r.queue)
  {
    var q' := r.queue;
    forall i, j | 0 <= i < j < |q'| ensures q'[i] != q'[j] {
      NewQueueAt(next, st, r, i);
      NewQueueAt(next, st, r, j);
      if j >= |st.queue| - 1 && i >= |st.queue| - 1 {
        assert q'[i] == r.queue[|st.queue| - 1..][i - (|st.queue| - 1)];
        assert q'[j] == r.queue[|st.queue| - 1..][j - (|st.queue| - 1)];
      }
    }
  }

  lemma ExpandShape<S>(next: S -> seq<S>, start: S, st: Search<S>, done: set<S>, dist: map<S, nat>, r: Search<S>)
    requires Shape(start, st.pred, st.queue, done, dist)
    requires Expansion(next, st, r)
    ensures Shape(start, r.pred, r.queue, done + {st.queue[0]}, Extend(dist, r.pred.Keys, dist[st.queue[0]]))
  {
    ExpandKeys(next, start, st, done, dist, r);
    ExpandQueueMembers(next, start, st, done, dist, r);
    ExpandQueueDistinct(next, start, st, done, dist, r);
  }

  lemma ExpandParents<S>(next: S -> seq<S>, start: S, st: Search<S>, done: set<S>, dist: map<S, nat>, r: Search<S>)
    requires Shape(start, st.pred, st.queue, done, dist)
    requires Parents(next, start, st.pred, done, dist)
    requires Expansion(next, st, r)
    ensures Parents(next, start, r.pred, done + {st.queue[0]}, Extend(dist, r.pred.Keys, dist[st.queue[0]]))
  {
    var cur := st.queue[0];
    var dist' := Extend(dist, r.pred.Keys, dist[cur]);
    forall v | v in r.pred && v != start
      ensures v in dist' && Parented(next, r.pred, done + {cur}, dist', v)
    {
      if v !in st.pred {
        assert v in Elems(next(cur));
      } else {
        assert Parented(next, st.pred, done, dist, v);
      }
    }
  }

  lemma ExpandLayered<S>(next: S -> seq<S>, start: S, st: Search<S>, done: set<S>, dist: map<S, nat>, r: Search<S>)
    requires Shape(start, st.pred, st.queue, done, dist)
    requires Layered(st.queue, dist)
    requires Expansion(next, st, r)
    ensures Layered(r.queue, Extend(dist, r.pred.Keys, dist[st.queue[0]]))
  {
    var cur := st.queue[0];
    var d := dist[cur];
    var dist' := Extend(dist, r.pred.Keys, d);
    var q' := r.queue;
    forall i | 0 <= i < |q'|
      ensures q'[i] in dist' && d <= dist'[q'[i]] <= d + 1
      ensures i < |st.queue| - 1 ==> dist'[q'[i]] == dist[st.queue[i + 1]]
      ensures i >= |st.queue| - 1 ==> dist'[q'[i]] == d + 1
    {
      NewQueueAt(next, st, r, i);
      assert q'[i] in r.pred by {
        if i >= |st.queue| - 1 {
          assert q'[i] == r.queue[|st.queue| - 1..][i - (|st.queue| - 1)];
        }
      }
    }
    forall i, j | 0 <= i <= j < |q'|
      ensures dist'[q'[i]] <= dist'[q'[j]] <= dist'[q'[i]] + 1
    {
      if j < |st.queue| - 1 {
        assert dist[st.queue[i + 1]] <= dist[st.queue[j + 1]] <= dist[st.queue[i + 1]] + 1;
      }
    }
  }

  lemma ExpandExpanded<S>(next: S -> seq<S>, goal: S -> bool, st: Search<S>, done: set<S>, r: Search<S>)
    requires Expanded(next, goal, st.pred, done)
    requires Expansion(next, st, r) && !goal(st.queue[0])
    ensures Expanded(next, goal, r.pred, done + {st.queue[0]})
  {
    var cur := st.queue[0];
    forall u, t | u in done + {cur} && t in next(u) ensures t in r.pred {
      if u == cur {
        assert t in Elems(next(cur));
      }
    }
  }

  lemma ExpandLowerBound<S(!new)>(next: S -> seq<S>, start: S, st: Search<S>, done: set<S>, dist: map<S, nat>, r: Search<S>)
    requires Shape(start, st.pred, st.queue, done, dist)
    requires LowerBound(next, start, st.pred, dist)
    requires FrontierBound(next, start, st.pred, st.queue, dist)
    requires Expansion(next, st, r)
    ensures LowerBound(next, start, r.pred, Extend(dist, r.pred.Keys, dist[st.queue[0]]))
  {
  }

  /** The new queue's head is at the old head's distance or one more. */
  lemma NewHeadDistance<S>(next: S -> seq<S>, start: S, st: Search<S>, done: set<S>, dist: map<S, nat>, r: Search<S>)
    requires Shape(start, st.pred, st.queue, done, dist)
    requires Layered(st.queue, dist)
    requires Expansion(next, st, r)
    requires Layered(r.queue, Extend(dist, r.pred.Keys, dist[st.queue[0]]))
    requires r.queue != []
    ensures var dist' := Extend(dist, r.pred.Keys, dist[st.queue[0]]);
      dist'[r.queue[0]] == dist[st.queue[0]] || dist'[r.queue[0]] == dist[st.queue[0]] + 1
  {
    NewQueueAt(next, st, r, 0);
    if |st.queue| > 1 {
      assert dist[st.queue[0]] <= dist[st.queue[1]] <= dist[st.queue[0]] + 1;
    } else {
      assert r.queue[0] == r.queue[|st.queue| - 1..][0];
    }
  }

  /** A walk one step longer than the old head's distance cannot end outside the new map when the head moved a layer on. */
  lemma FrontierWalk<S(!new)>(next: S -> seq<S>, goal: S -> bool, start: S, st: Search<S>,
                              done: set<S>, dist: map<S, nat>, r: Search<S>, q: seq<S>)
    requires Shape(start, st.pred, st.queue, done, dist)
    requires FrontierBound(next, start, st.pred, st.queue, dist)
    requires Expansion(next, st, r)
    requires Layered(r.queue, Extend(dist, r.pred.Keys, dist[st.queue[0]]))
    requires Expanded(next, goal, r.pred, done + {st.queue[0]})
    requires LowerBound(next, start, r.pred, Extend(dist, r.pred.Keys, dist[st.queue[0]]))
    requires r.queue != [] && Extend(dist, r.pred.Keys, dist[st.queue[0]])[r.queue[0]] == dist[st.queue[0]] + 1
    requires WalkFrom(next, q, start) && Last(q) !in r.pred
    ensures |q| - 1 != dist[st.queue[0]] + 1
  {
    var d := dist[st.queue[0]];
    var dist' := Extend(dist, r.pred.Keys, d);
    if |q| - 1 == d + 1 {
      var pre := q[..|q| - 1];
      var p := Last(pre);
      assert WalkFrom(next, pre, start);
      assert Last(q) in next(p);
      if p in st.pred && p !in done + {st.queue[0]} {
        var i :| 0 <= i < |st.queue| && st.queue[i] == p;
        NewQueueAt(next, st, r, i - 1);
      }
    }
  }

  lemma ExpandFrontier<S(!new)>(next: S -> seq<S>, goal: S -> bool, start: S, st: Search<S>,
                                done: set<S>, dist: map<S, nat>, r: Search<S>)
    requires Shape(start, st.pred, st.queue, done, dist)
    requires Layered(st.queue, dist)
    requires FrontierBound(next, start, st.pred, st.queue, dist)
    requires Expansion(next, st, r)
    requires Shape(start, r.pred, r.queue, done + {st.queue[0]}, Extend(dist, r.pred.Keys, dist[st.queue[0]]))
    requires Layered(r.queue, Extend(dist, r.pred.Keys, dist[st.queue[0]]))
    requires Expanded(next, goal, r.pred, done + {st.queue[0]})
    requires LowerBound(next, start, r.pred, Extend(dist, r.pred.Keys, dist[st.queue[0]]))
    ensures FrontierBound(next, start, r.pred, r.queue, Extend(dist, r.pred.Keys, dist[st.queue[0]]))
  {
    var d := dist[st.queue[0]];
    var dist' := Extend(dist, r.pred.Keys, d);
    if r.queue != [] {
      NewHeadDistance(next, start, st, done, dist, r);
      forall q | WalkFrom(next, q, start) && Last(q) !in r.pred
        ensures |q| - 1 > dist'[r.queue[0]]
      {
        if dist'[r.queue[0]] == d + 1 {
          FrontierWalk(next, goal, start, st, done, dist, r, q);
        }
      }
    }
  }

  /** The search's invariant holds after the queue's head has been expanded. */
  lemma ExpandKeepsInv<S(!new)>(next: S -> seq<S>, goal: S -> bool, start: S, st: Search<S>,
                                   done: set<S>, dist: map<S, nat>, r: Search<S>)
    requires SearchInv(next, goal, start, st.pred, st.queue, done, dist)
    requires st.queue != [] && !goal(st.queue[0])
    requires r == Discover(st.queue[0], next(st.queue[0]), Search(st.pred, st.queue[1..], st.counters))
    ensures SearchInv(next, goal, start, r.pred, r.queue, done + {st.queue[0]}, Extend(dist, r.pred.Keys, dist[st.queue[0]]))
  {
    ExpansionOfDiscover(next, st, r);
    ExpandShape(next, start, st, done, dist, r);
    ExpandParents(next, start, st, done, dist, r);
    ExpandLayered(next, start, st, done, dist, r);
    ExpandExpanded(next, goal, st, done, r);
    ExpandLowerBound(next, start, st, done, dist, r);
    ExpandFrontier(next, goal, start, st, done, dist, r);
  }

  /** The goal found at the head of the queue is reached by no shorter walk from the start. */
  lemma HeadIsNearestGoal<S(!new)>(next: S -> seq<S>, goal: S -> bool, start: S, pred: map<S, Option<S>>,
                                   queue: seq<S>, done: set<S>, dist: map<S, nat>, q: seq<S>)
    requires SearchInv(next, goal, start, pred, queue, done, dist)
    requires queue != [] && SolutionWalk(next, goal, q, start)
    ensures |q| - 1 >= dist[queue[0]]
  {
    if Last(q) in pred {
      if Last(q) !in done {
        var i :| 0 <= i < |queue| && queue[i] == Last(q);
      }
    }
  }

  /** The path rebuilt from the goal at the head of the queue is a shortest solution without repeats. */
  lemma FoundIsShortest<S(!new)>(next: S -> seq<S>, goal: S -> bool, start: S, pred: map<S, Option<S>>,
                                 queue: seq<S>, done: set<S>, dist: map<S, nat>, p: seq<S>)
    requires SearchInv(next, goal, start, pred, queue, done, dist)
    requires queue != [] && goal(queue[0])
    requires WalkFrom(next, p, start) && Last(p) == queue[0] && |p| == dist[queue[0]] + 1
    requires forall i :: 0 <= i < |p| ==> p[i] in dist && dist[p[i]] == i
    ensures Shortest(next, goal, p) && Distinct(p)
  {
    forall q | SolutionWalk(next, goal, q, start)
      ensures |p| <= |q|
    {
      HeadIsNearestGoal(next, goal, start, pred, queue, done, dist, q);
    }
  }

  /** Predecessor links lead back to `start`, each one step closer by `dist`. */
  ghost predicate Chain<S>(next: S -> seq<S>, start: S, pred: map<S, Option<S>>, dist: map<S, nat>) {
    && start in pred && pred[start] == None
    && dist.Keys == pred.Keys && dist[start] == 0
    && forall v :: v in pred && v != start ==>
         && pred[v].Some?
         && pred[v].value in pred
         && v in next(pred[v].value)
         && dist[v] == dist[pred[v].value] + 1
  }

  lemma InvGivesChain<S(!new)>(next: S -> seq<S>, goal: S -> bool, start: S, pred: map<S, Option<S>>,
                               queue: seq<S>, done: set<S>, dist: map<S, nat>)
    requires SearchInv(next, goal, start, pred, queue, done, dist)
    ensures Chain(next, start, pred, dist)
  {
    forall v | v in pred && v != start
      ensures pred[v].Some? && pred[v].value in pred
    {
      assert Parented(next, pred, done, dist, v);
    }
  }

  /**
   The path reconstruction: starting from `g`, prepend predecessors until the
   start's `None` entry is reached.
   */
  method Rebuild<S(==)>(pred: map<S, Option<S>>, g: S, ghost next: S -> seq<S>, ghost start: S, ghost dist: map<S, nat>)
    returns (p: seq<S>)
    requires g in pred && Chain(next, start, pred, dist)
    ensures WalkFrom(next, p, start) && Last(p) == g
    ensures |p| == dist[g] + 1
    ensures forall i :: 0 <= i < |p| ==> p[i] in dist && dist[p[i]] == i
  {
    p := [g];
    var c := pred[g];
    while c.Some?
      invariant Walk(next, p) && Last(p) == g && p[0] in pred && c == pred[p[0]]
      invariant forall i :: 0 <= i < |p| ==> p[i] in dist && dist[p[i]] == dist[p[0]] + i
      invariant |p| + dist[p[0]] == dist[g] + 1
      decreases dist[p[0]]
    {
      p := [c.value] + p;
      c := pred[c.value];
    }
  }

  /** One expansion stays inside the universe and either records a new state or shortens the queue. */
  lemma ExpandProgress<S>(next: S -> seq<S>, st: Search<S>, r: Search<S>, universe: set<S>)
    requires Closed(next, universe) && st.pred.Keys <= universe && st.queue != [] && st.queue[0] in st.pred
    requires Expansion(next, st, r)
    ensures r.pred.Keys <= universe
    ensures |r.pred.Keys| == |st.pred.Keys| + (|r.queue| - |st.queue| + 1)
    ensures r.pred.Keys == st.pred.Keys ==> |r.queue| < |st.queue|
    ensures r.pred.Keys != st.pred.Keys ==> universe - r.pred.Keys < universe - st.pred.Keys
  {
    var cur := st.queue[0];
    forall k | k in r.pred.Keys ensures k in universe {
      if k !in st.pred {
        assert k in Elems(next(cur));
      }
    }
    var tail := r.queue[|st.queue| - 1..];
    ExpandCount(next, st, r);
    if tail != [] {
      assert tail[0] in universe - st.pred.Keys && tail[0] !in universe - r.pred.Keys;
    }
  }

  /** The states an expansion records are exactly the ones it appends to the queue. */
  lemma ExpandCount<S>(next: S -> seq<S>, st: Search<S>, r: Search<S>)
    requires Expansion(next, st, r)
    ensures |r.pred.Keys| == |st.pred.Keys| + (|r.queue| - |st.queue| + 1)
  {
    var added := r.pred.Keys - st.pred.Keys;
    var tail := r.queue[|st.queue| - 1..];
    AddedAreTail(next, st, r);
    DistinctCard(tail);
    assert r.pred.Keys == st.pred.Keys + added;
  }

  lemma AddedAreTail<S>(next: S -> seq<S>, st: Search<S>, r: Search<S>)
    requires Expansion(next, st, r)
    ensures r.pred.Keys - st.pred.Keys == Elems(r.queue[|st.queue| - 1..])
  {
    var tail := r.queue[|st.queue| - 1..];
    forall x | x in tail ensures x in r.pred.Keys - st.pred.Keys {
      var i :| 0 <= i < |tail| && tail[i] == x;
      assert x == r.queue[i + |st.queue| - 1];
    }
  }

  /** The invariant holds when only the start is recorded and queued. */
  lemma InitialInv<S(!new)>(next: S -> seq<S>, goal: S -> bool, start: S)
    ensures SearchInv(next, goal, start, map[start := None], [start], {}, map[start := 0])
  {
    var pred: map<S, Option<S>> := map[start := None];
    forall q | WalkFrom(next, q, start) && Last(q) !in pred
      ensures |q| - 1 > 0
    {
      assert |q| != 1;
    }
  }

  /**
   Breadth-first search from `start`. `counters` are the values of the two
   static counters before the call; the call returns their new values.
   `universe` is any finite set of states containing `start` and closed
   under `next`: the Java loop terminates only when such a set exists.
   */
  method Solve<S(==,!new)>(start: S, next: S -> seq<S>, goal: S -> bool, counters: Counters, ghost universe: set<S>)
    returns (path: Option<seq<S>>, counters': Counters, ghost visited: set<S>)
    requires start in universe && Closed(next, universe)
    ensures path.Some? ==> Shortest(next, goal, path.value) && path.value[0] == start
    ensures path.Some? ==> Distinct(path.value)
    ensures path.None? ==> Unsolvable(next, goal, start)
    ensures goal(start) ==> path == Some([start])
    ensures start in visited && visited <= universe
    ensures counters'.total >= counters.total
    ensures counters'.unique == counters.unique + |visited| - 1
    ensures counters'.unique - counters.unique <= counters'.total - counters.total
  {
    var st := Search(map[start := None], [start], counters);
    ghost var done: set<S> := {};
    ghost var dist: map<S, nat> := map[start := 0];
    InitialInv(next, goal, start);
    while st.queue != [] && !goal(st.queue[0])
      invariant SearchInv(next, goal, start, st.pred, st.queue, done, dist)
      invariant st.pred.Keys <= universe
      invariant st.counters.total >= counters.total
      invariant st.counters.unique == counters.unique + |st.pred.Keys| - 1
      invariant st.counters.unique - counters.unique <= st.counters.total - counters.total
      decreases universe - st.pred.Keys, |st.queue|
    {
      var cur := st.queue[0];
      var r := Discover(cur, next(cur), Search(st.pred, st.queue[1..], st.counters));
      ExpandKeepsInv(next, goal, start, st, done, dist, r);
      ExpansionOfDiscover(next, st, r);
      ExpandProgress(next, st, r, universe);
      done := done + {cur};
      dist := Extend(dist, r.pred.Keys, dist[cur]);
      st := r;
    }
    visited := st.pred.Keys;
    counters' := st.counters;
    if st.queue == [] {
      ClosedGoalFreeIsUnsolvable(next, goal, done, start);
      path := None;
      return;
    }
    InvGivesChain(next, goal, start, st.pred, st.queue, done, dist);
    var p := Rebuild(st.pred, st.queue[0], next, start, dist);
    FoundIsShortest(next, goal, start, st.pred, st.queue, done, dist, p);
    if goal(start) {
      ShortestFromGoal(next, goal, p);
    }
    path := Some(p);
  }

  /** When the start is itself a goal, the only shortest solution is the start alone. */
  lemma ShortestFromGoal<S(!new)>(next: S -> seq<S>, goal: S -> bool, p: seq<S>)
    requires Shortest(next, goal, p) && goal(p[0])
    ensures p == [p[0]]
  {
    assert SolutionWalk(next, goal, [p[0]], p[0]);
  }

  /** A duplicate-free sequence has as many distinct elements as positions. */
  lemma {:induction false} DistinctCard<S>(q: seq<S>)
    requires Distinct(q)
    ensures |Elems(q)| == |q|
  {
    if q != [] {
      var q' := q[1..];
      assert Distinct(q');
      DistinctCard(q');
      assert Elems(q) == Elems(q') + {q[0]};
      assert q[0] !in q';
    }
  }
}

=== FILE: strings.dfy ===
/**
 The Strings puzzle: turn a start string into an end string by stepping one
 letter at a time forward or backward around the alphabet `A..Z`.

 A Java `char` is one UTF-16 code unit, so the model works on code units
 (`Char16`) and writes out the `(char)` cast's wrap-around modulo 2^16.
 The Java class keeps `start` and `end` in static fields; here they form a
 `Run` passed to every operation that reads them.
 */
module Strings {
  import opened Wrappers
  import Solver

  /** A Java `char`: a UTF-16 code unit. */
  type Char16 = c: int | 0 <= c < 0x1_0000

  const A: Char16 := 'A' as int
  const B: Char16 := 'B' as int
  const Y: Char16 := 'Y' as int
  const Z: Char16 := 'Z' as int

  predicate IsLetter(c: Char16) {
    A <= c <= Z
  }

  /** The letter `k` places after `c` around the 26-letter alphabet (`k` may be negative). */
  function Rotate(c: Char16, k: int): (r: Char16)
    requires IsLetter(c)
    ensures IsLetter(r)
  {
    A + (c - A + k) % 26
  }

  datatype Direction = Forward | Backward

  /** The copy constructor's change to one character. */
  function Step(c: Char16, d: Direction): Char16 {
    match d
    case Forward =>
      if c == A then B
      else if c == Z then A
      else (c + 1) % 0x1_0000
    case Backward =>
      if c == A then Z
      else if c == Z then Y
      else (c - 1) % 0x1_0000
  }

  /** On letters a step is a rotation by one around the alphabet, so it stays a letter. */
  lemma StepRotatesLetters(c: Char16)
    requires IsLetter(c)
    ensures Step(c, Forward) == Rotate(c, 1) && IsLetter(Step(c, Forward))
    ensures Step(c, Backward) == Rotate(c, -1) && IsLetter(Step(c, Backward))
  {
    if c == Z {
      assert (c - A + 1) % 26 == 0;
    } else if c == A {
      assert (c - A - 1) % 26 == 25;
    } else {
      assert (c - A + 1) % 26 == c - A + 1;
      assert (c - A - 1) % 26 == c - A - 1;
    }
  }

  /** Off the letters a step is the code unit plus or minus one, wrapping as the `(char)` cast does. */
  lemma StepOffLetters(c: Char16)
    requires !IsLetter(c)
    ensures c < 0xFFFF ==> Step(c, Forward) == c + 1
    ensures c == 0xFFFF ==> Step(c, Forward) == 0
    ensures c > 0 ==> Step(c, Backward) == c - 1
    ensures c == 0 ==> Step(c, Backward) == 0xFFFF
  {
  }

  /** A backward step undoes a forward step on every code unit except `'@'`. */
  lemma BackwardUndoesForward(c: Char16)
    ensures Step(Step(c, Forward), Backward) == c <==> c != '@' as int
  {
    if IsLetter(c) {
      StepRotatesLetters(c);
      StepRotatesLetters(Step(c, Forward));
    }
  }

  /** A forward step undoes a backward step on every code unit except `'['`. */
  lemma ForwardUndoesBackward(c: Char16)
    ensures Step(Step(c, Backward), Forward) == c <==> c != '[' as int
  {
    if IsLetter(c) {
      StepRotatesLetters(c);
      StepRotatesLetters(Step(c, Backward));
    }
  }

  /** The two static strings shared by every configuration of one solve. */
  datatype Run = Run(start: seq<Char16>, end: seq<Char16>)

  datatype Config = Config(current: seq<Char16>)

  /** The first constructor: the configuration holding the start string. */
  function Initial(run: Run): (c: Config)
    ensures c.current == run.start
  {
    Config(run.start)
  }

  predicate IsSolution(run: Run, c: Config) {
    c.current == run.end
  }

  /** The copy constructor: `c` with the character at `index` stepped in direction `d`. */
  function Neighbor(c: Config, index: nat, d: Direction): (r: Config)
    requires index < |c.current|
    ensures |r.current| == |c.current|
    ensures r.current[index] == Step(c.current[index], d)
    ensures forall i :: 0 <= i < |c.current| && i != index ==> r.current[i] == c.current[i]
  {
    Config(c.current[index := Step(c.current[index], d)])
  }

  /** Stepping a letter forward and then backward at the same index gives back the configuration. */
  lemma NeighborRoundTrip(c: Config, index: nat, d: Direction)
    requires index < |c.current| && IsLetter(c.current[index])
    ensures Neighbor(Neighbor(c, index, d), index, if d == Forward then Backward else Forward) == c
  {
    BackwardUndoesForward(c.current[index]);
    ForwardUndoesBackward(c.current[index]);
  }

  /** The neighbours produced by the loop iterations for indices `i`, `i + 1`, ... */
  function NeighborsFrom(run: Run, c: Config, i: nat): (ns: seq<Config>)
    requires |run.start| <= |c.current|
    ensures i <= |run.start| ==> |ns| == 2 * (|run.start| - i)
    ensures forall j :: i <= j < |run.start| ==>
      ns[2 * (j - i)] == Neighbor(c, j, Forward) && ns[2 * (j - i) + 1] == Neighbor(c, j, Backward)
    ensures forall n :: n in ns ==> exists j: nat, d :: i <= j < |run.start| && n == Neighbor(c, j, d)
    decreases |run.start| - i
  {
    if i >= |run.start| then []
    else [Neighbor(c, i, Forward), Neighbor(c, i, Backward)] + NeighborsFrom(run, c, i + 1)
  }

  /**
   `getNeighbors`: for each index of the start string, the Forward and then the
   Backward neighbour, in that order. The loop bound is the length of `start`,
   so the current string must be at least that long (Java throws otherwise).
   */
  function Neighbors(run: Run, c: Config): (ns: seq<Config>)
    requires |run.start| <= |c.current|
    ensures |ns| == 2 * |run.start|
    ensures forall j :: 0 <= j < |run.start| ==>
      ns[2 * j] == Neighbor(c, j, Forward) && ns[2 * j + 1] == Neighbor(c, j, Backward)
    ensures forall n :: n in ns <==> exists j: nat, d :: j < |run.start| && n == Neighbor(c, j, d)
  {
    var ns := NeighborsFrom(run, c, 0);
    assert forall j: nat, d :: j < |run.start| ==> Neighbor(c, j, d) in ns by {
      forall j: nat, d | j < |run.start| ensures Neighbor(c, j, d) in ns {
        assert ns[2 * j] == Neighbor(c, j, Forward);
        assert ns[2 * j + 1] == Neighbor(c, j, Backward);
      }
    }
    ns
  }

  /** `equals`: two configurations are equal when their current strings are. */
  function JavaEquals(a: Config, b: Config): (r: bool)
    ensures r <==> a == b
  {
    a.current == b.current
  }

  /** The string whose `hashCode` is the configuration's hash code. */
  function HashKey(c: Config): seq<Char16> {
    c.current
  }

  /** `equals` and `hashCode` agree: equal configurations hash the same string. */
  lemma EqualsHashConsistent(a: Config, b: Config)
    requires JavaEquals(a, b)
    ensures HashKey(a) == HashKey(b)
  {
  }

  /** The search's neighbour function: the current string is never shorter than the start during a solve. */
  function Next(run: Run): Config -> seq<Config> {
    (c: Config) => if |run.start| <= |c.current| then Neighbors(run, c) else []
  }

  function Goal(run: Run): Config -> bool {
    (c: Config) => IsSolution(run, c)
  }

  /** Every walk from the start keeps the start's length. */
  lemma {:induction false} WalkKeepsLength(run: Run, q: seq<Config>)
    requires Solver.WalkFrom(Next(run), q, Initial(run))
    ensures forall i :: 0 <= i < |q| ==> |q[i].current| == |run.start|
  {
    if |q| > 1 {
      var p := q[..|q| - 1];
      assert Solver.WalkFrom(Next(run), p, Initial(run));
      WalkKeepsLength(run, p);
      NextKeepsLength(run, q[|q| - 2], q[|q| - 1]);
    }
  }

  /** A neighbour has the length of the configuration it came from. */
  lemma NextKeepsLength(run: Run, a: Config, b: Config)
    requires b in Next(run)(a)
    ensures |b.current| == |a.current|
  {
    var j: nat, d :| j < |run.start| && b == Neighbor(a, j, d);
  }

  /** When the start and end strings differ in length there is no solution. */
  lemma LengthMismatchUnsolvable(run: Run)
    requires |run.start| != |run.end|
    ensures Solver.Unsolvable(Next(run), Goal(run), Initial(run))
  {
    forall q | Solver.WalkFrom(Next(run), q, Initial(run))
      ensures !IsSolution(run, Solver.Last(q))
    {
      WalkKeepsLength(run, q);
    }
  }

  /** All code-unit strings of length `n`. */
  ghost function AllOfLength(n: nat): (u: set<seq<Char16>>)
    ensures forall s :: s in u <==> |s| == n
  {
    if n == 0 then {[]}
    else
      var shorter := AllOfLength(n - 1);
      var u := set c: Char16, s | 0 <= c < 0x1_0000 && s in shorter :: [c] + s;
      assert forall s: seq<Char16> :: |s| == n ==> s in u by {
        forall s: seq<Char16> | |s| == n ensures s in u {
          assert s == [s[0]] + s[1..];
        }
      }
      u
  }

  /** The configurations whose string has the start's length: closed under the neighbour function. */
  ghost function Universe(run: Run): (u: set<Config>)
    ensures Initial(run) in u && Solver.Closed(Next(run), u)
  {
    var u := set s | s in AllOfLength(|run.start|) :: Config(s);
    assert Initial(run) in u by {
      assert run.start in AllOfLength(|run.start|);
    }
    assert Solver.Closed(Next(run), u) by {
      forall a, b | a in u && b in Next(run)(a) ensures b in u {
        assert b.current in AllOfLength(|run.start|);
      }
    }
    u
  }

  /**
   The driver's call `solver.solve(new StringsConfig(start, end))`: a shortest
   solution when one exists, and no solution when the lengths differ.
   */
  method Solve(run: Run, counters: Solver.Counters) returns (path: Option<seq<Config>>, counters': Solver.Counters)
    ensures path.Some? ==> Solver.Shortest(Next(run), Goal(run), path.value) && path.value[0] == Initial(run)
    ensures path.None? ==> Solver.Unsolvable(Next(run), Goal(run), Initial(run))
    ensures |run.start| != |run.end| ==> path.None?
    ensures run.start == run.end ==> path == Some([Initial(run)])
    ensures counters'.unique - counters.unique <= counters'.total - counters.total
  {
    ghost var visited;
    path, counters', visited := Solver.Solve(Initial(run), Next(run), Goal(run), counters, Universe(run));
    if |run.start| != |run.end| && path.Some? {
      LengthMismatchUnsolvable(run);
      assert false;
    }
  }
}

=== FILE: wrappers.dfy ===
/** The optional value used where the Java code uses `null`. */
module Wrappers {

  datatype Option<+T> = None | Some(value: T)
}
